=== FILE: README.md ===
# p4fpga front end: HLIR to BIR lowering and the parser stager

This project models the two Python halves of the p4fpga compiler front end.

- **The HLIR to BIR lowering** (`p4c_fpga/start.py`). It turns a P4 program's
  high-level IR into the "BIR" description: packed structs for headers, table
  requests and responses and the metadata bundle; a basic block per parse
  state, deparse state, table, action and condition node; and control-flow
  entries for the parser, the deparser and each ingress pipeline.
- **The parser stager** (`python/llvmParser.py`). For each parse state it
  works out which 128-bit words of the packet stream the state consumes,
  and how many bits are left over for each successor. It also provides the
  identifier helpers (`convert`, `camelCase`, `CamelCase`, `toState`), the
  arbiter sizing (`numNextState`) and the `select`/`case` serialisation.

The HLIR is modelled as plain datatypes (`Hlir`). Python dictionaries are
modelled as ordered association lists (`OrderedMaps`): last write wins,
first insertion fixes the position. Each pass that mutates the compiler's
dictionaries is a pure function from the old map to the new one. The
`KeyError`, `TypeError`, `IndexError`, `NotImplementedError` and
`CompilationException` raised on the modelled paths become a `CompileError`
in a `Result`. The exception is the `KeyError` of `process_parser` on a
state that was never preprocessed: `Stager.ProcessParser` requires prepared
states instead (see "Left out").

Modules:
- `Outcomes`: Result, Option, CompileError.
- `Text`: lower/upper case, digits, hexadecimal rendering.
- `OrderedMaps`: dictionaries as association lists.
- `Hlir`: the input IR.
- `Names`: the identifier helpers.
- `Cases`: `numNextState`, `serializeSelect`, `serializeCases`, the next-state arbiter.
- `Stager`: `preprocess_parser`, `process_parser`, `postprocess_parser`.
- `Structs`: `Header`, `TableRequest`, `TableResponse`, `Meta`, `Table.build_table`, `build_structs`, `prepare_local_var`.
- `Blocks`: the `BasicBlock.build_*` methods.
- `Flows`: `ControlFlow`, `Parser`, `Deparser`, `build_parsers`, `build_deparsers`, `get_start_control_state`, `build_control_flows`.

### Behaviour of the code worth knowing

The model follows the code in each of these cases.

- **Traversal termination.** `process_parser` marks a state visited before
  recursing, so the traversal terminates on cyclic parse graphs. Every state
  reachable from the root is visited exactly once
  (`Stager.ProcessParserReachesAll`, `Stager.ProcessParserCharacterised`).
- **Residual bit count.** The residual is below one word when the running
  bit count starts below the state's width. Otherwise no word is consumed
  and the residual is the surplus, the count minus the width, which reaches
  128 or more once that surplus does (`Stager.Residual`,
  `Stager.ResidualNotBelowWord`).
- **One counter for the whole traversal.** `total_bitcount` is a class
  attribute that `process_parser` never saves or restores. A state is
  entered at the count the previously visited state left, plus one word
  unless it is `start`, so a sibling is entered after its elder sibling's
  whole subtree, not at its parent's residual
  (`Stager.VisitAdvancesAll`, `Stager.SiblingEntersAfterSibling`).
- **Preprocessing resets every state.** Each `preprocess_parser` call clears
  the step lists and edge maps of every parse state, not only its own.
  `Stager.Preprocess` models that.
- **Guard order.** The parser-state and condition builders insert each guard
  at position 0, so the emitted guard list is the reverse of the declaration
  order. With distinct keys this never changes which branch is taken
  (`Blocks.ReversalHarmless`, `Blocks.ParserGuardsReversed`,
  `Blocks.CondBlockCharacterised`).
- **Metadata struct name.** `build_structs` stores the metadata struct under
  the key `meta_t`, but the struct's own name is `meta_t_t`
  (`Structs.BuildStructsCharacterised`).
- **Unresolved ingress entry.** `get_start_control_state` can fall off the
  end of the ingress nodes and return `None`. The caller then fails
  concatenating `'bb_' + None`. This is modelled as
  `UnresolvedEntryPoint`.
- **Table before the start condition.** `get_start_control_state` raises
  `NotImplementedError` when the call sequence starts with a table, and also
  when it meets a table node among the ingress nodes before the conditional
  it is looking for. The model returns a `NotImplemented` error in both
  cases.
- **Operators of ingress conditions.** `ControlFlow.build` prints the
  conditions of the call sequence but raises `NotImplementedError` on an
  operator other than `valid`, `==` and `<=` (`Flows.WalkCalls`).
- **Match keys too large for a machine integer.** A `select` case whose key
  is 2^63 or more, or below -2^63, is a Python 2 `long`, which
  `isinstance(e, int)` rejects, so `serializeCases` reports it as an
  unexpected element (`Cases.ArmOf`). The condition builder renders such a
  constant as `meta.<digits>` rather than as a number
  (`Blocks.ConstantLeftText`).
- **Negative match keys.** Keys are integers of either sign. A negative key
  keeps its sign when rendered: `format(-5, 'x')` in `serializeCases` gives
  `-5` (`Cases.ArmOfNegativeKey`), and `hex(-5)` in the state builders gives
  `-0x5`, with an `L` suffix on a `long` (`Blocks.HexLiteralOfNegative`).

## Model

| member | source | states |
|---|---|---|
| Names.Convert | python/llvmParser.py:18-20 | the result has no upper-case letter; it equals the lower-cased name once underscores are dropped (so only underscores are inserted); a name without capitals is returned unchanged |
| Names.SplitWordsOnlyInserts | python/llvmParser.py:19 | the first regular-expression pass only inserts underscores: dropping underscores gives back the input |
| Names.SplitHumpsOnlyInserts | python/llvmParser.py:20 | the second regular-expression pass only inserts underscores |
| Names.SplitWords | python/llvmParser.py:19 | the result of the first regular-expression pass is at least as long as the input and at most twice as long: at most one underscore goes in per character |
| Names.SplitHumps | python/llvmParser.py:20 | the result of the second regular-expression pass is at least as long as the input and at most twice as long: at most one underscore goes in per character |
| Names.ConvertOfIpV4 | python/llvmParser.py:18-20 | `convert("ipV4")` is `"ip_v4"`: it undoes `camelCase("ip_v4")` |
| Names.ConvertOfAcronym | python/llvmParser.py:18-20 | `convert("IPv4")` is `"i_pv4"`: an acronym is split before its last capital |
| Names.SplitWordsMarksHumps | python/llvmParser.py:19 | on a string without underscores, the first pass inserts underscores only right before upper-case letters, at most one each |
| Names.SplitHumpsMarksAll | python/llvmParser.py:20 | when every capital follows a lower-case letter or digit, the second pass completes any such marking: every capital ends up with exactly one underscore before it |
| Names.CapitalisedOfSnake | python/llvmParser.py:22-28 | past its first letter, `CamelCase` of a snake_case name drops each underscore and upper-cases the letter after it, changing nothing else |
| Names.ConvertUndoesLowerCamelCase | python/llvmParser.py:18-28 | for every snake_case name (lower-case letters and digits, no letter right after a digit, each underscore before a lower-case letter, no underscore right after a word's first letter), `camelCase` succeeds and `convert` gives the name back |
| Names.TitleFromCharacterised | python/llvmParser.py:23 | `str.title` keeps length and non-letters, changes only letter case, and makes a letter upper-case exactly when it starts a run of letters |
| Names.AlnumsOfTitle | python/llvmParser.py:23 | title-casing and then keeping the alphanumerics is the one-pass `Capitalised`: non-alphanumerics dropped, a letter upper-case exactly when it starts a run of letters, digits kept |
| Names.CamelCase | python/llvmParser.py:26-28 | the result is `Capitalised` of the input: its alphanumerics in order (as many as the input has), each letter upper-case exactly when the input's character before it is no letter |
| Names.LowerCamelCase | python/llvmParser.py:22-24 | fails exactly when the input has no letter or digit (the source indexes an empty string); otherwise the first character is that of `CamelCase` lower-cased and the rest is `CamelCase` unchanged |
| Names.ToState | python/llvmParser.py:30-31 | the result starts with `State`, the rest is exactly `CamelCase` of the input, and every character is a letter or digit |
| Names.CamelCaseOfParseIp | python/llvmParser.py:26-28 | `CamelCase("parse_ip")` is `"ParseIp"` |
| Names.ToStateOfStart | python/llvmParser.py:30-31 | `toState("start")` is `"StateStart"` |
| Names.LowerCamelCaseOfIpv4 | python/llvmParser.py:22-24 | `camelCase("ip_v4")` is `"ipV4"` |
| Cases.NumNextState | python/llvmParser.py:114-117 | the arbiter width is one more than the number of branches that lead to a parse state, so at least 1 and at most one more than the number of branches |
| Cases.CountStateTargetsIsCardinality | python/llvmParser.py:115-117 | the counted branches are exactly the positions whose target is a parse state |
| Cases.SerializeSelect | python/llvmParser.py:397-419 | succeeds exactly when every select element is a field reference; element by element, the match field and its running bit offset |
| Cases.ArmOf | python/llvmParser.py:430-463 | an arm is produced exactly when the case key is `default` or a value that fits a machine integer (a Python 2 `long` key is an unexpected element) and its target is a state or a table; otherwise the case is reported; a value arm's label is the key in hexadecimal, with a leading `-` exactly when the key is negative |
| Text.FormatHex | python/llvmParser.py:430 | Python's `format(i, 'x')`: a leading `-` exactly when `i` is negative, followed by hexadecimal digits whose value is the magnitude of `i` |
| Text.FormatHexInjective | python/llvmParser.py:430 | two integers with the same `format(i, 'x')` text are equal |
| Cases.ArmLabelsDistinct | python/llvmParser.py:430-433 | two cases with different integer keys get different arm labels, whatever the signs of the keys |
| Cases.ArmOfNegativeKey | python/llvmParser.py:430-433 | the key -5 gives the arm label `-5` |
| Cases.SerializeCases | python/llvmParser.py:421-470 | succeeds exactly when every case is supported; one arm per case in order, plus a default arm when no case is `default`; an error names the first unsupported case |
| Cases.ExactlyOneDefaultArm | python/llvmParser.py:439-444 | the serialised arms hold a default arm; with no declared default, exactly one is appended |
| Cases.Arbitrate | python/llvmParser.py:145-158 | the arbiter forwards the first valid request and none when no request is valid |
| Stager.Chop | python/llvmParser.py:503-510 | the step list starts at the entry bit count, each later step adds 128, and only the last step reaches the state's width |
| Stager.ChopStages | python/llvmParser.py:503-505 | step i is the entry count plus 128 times i, and every step but the last is below the width |
| Stager.Residual | python/llvmParser.py:508-510 | the residual is never negative; it is below one word when the state was entered below its width, and the surplus otherwise |
| Stager.ChopFromFreshWord | python/llvmParser.py:500-510 | entering with one fresh word, a state of width w takes ceil(w/128) steps, and the last step is that many words |
| Stager.ResidualNotBelowWord | python/llvmParser.py:508-510 | a state of width 48 entered with 208 bits buffered leaves a residual of 160, more than one word |
| Stager.EdgesCharacterised | python/llvmParser.py:512-519 | every successor that is not a table gets an edge carrying the residual, and no other edge is recorded |
| Stager.Visit | python/llvmParser.py:493-524 | visiting a state marks it visited and only extends the bookkeeping |
| Stager.VisitAdvancesAll | python/llvmParser.py:493-524 | the visited state is entered at the running count plus one word (or the count itself for `start`); its new steps are the word stages from that value and its edges carry the residual from it; every other state the visit reaches is entered on at least one word, and states not reached keep their steps and edges |
| Stager.LeafVisit | python/llvmParser.py:499-510 | a state without cases only gets its own word stages, and leaves its residual as the running count |
| Stager.SiblingEntersAfterSibling | python/llvmParser.py:493-524 | with `start` branching to the leaves `a` then `b`, `a` is entered one word past the residual of `start`, and `b` one word past the residual of `a`, not of `start` |
| Stager.ProcessParser | python/llvmParser.py:493-524 | the root is visited, only states of the graph are visited, and the stack is restored |
| Stager.ProcessParserCharacterised | python/llvmParser.py:493-524 | the root is entered at the given count (plus one word unless it is `start`) and gets the word stages and edges from that value; every other visited state is entered on at least one word; every visited state has its steps and outgoing edges recorded, and its successors are all visited; states not visited keep their old steps and edges |
| Stager.ProcessParserReachesAll | python/llvmParser.py:521-523 | every parse state reachable from the root is visited |
| Stager.ExtractedWidth | python/llvmParser.py:527-532 | succeeds exactly when every extracted header is declared, with the sum of all their field widths |
| Stager.Preprocess | python/llvmParser.py:526-542 | records the state's extracted width, clears every state's steps and edges, and gives each state successor a zero edge in both directions |
| Stager.PreprocessedEdgesFitArbiter | python/llvmParser.py:114-117 | the outgoing edges recorded for a state are distinct and fewer than its arbiter width |
| Stager.Postprocess | python/llvmParser.py:544-548 | fails exactly when an edge it reads is missing (a `KeyError`); each successor's incoming edge from the state becomes the state's outgoing edge to it; every other predecessor's entry and every non-successor's map is unchanged, and a successor's key order only gains the state at the end when it was absent |
| Stager.CopyIn | python/llvmParser.py:545-548 | the loop over the cases succeeds exactly when every state successor has an outgoing and an incoming entry; each successor's map gets its entry from the state written in place, every other map is unchanged |
| Stager.PostprocessAfterVisit | python/llvmParser.py:508-548 | after the traversal, every successor's incoming edge carries the residual the state left |
| Stager.EntryCounter | python/llvmParser.py:500-501 | a state is entered on the running count unchanged exactly when it is `start`; every other state is entered one word (128 bits) later |
| Stager.AssignEdge | python/llvmParser.py:512-519 | recording one case's edge changes only the edges of the state on top of the stack: counter, stack, steps, widths, incoming bits and the set of states with edges stay as they were, and every other state's edges are unchanged |
| Stager.CasesLoop | python/llvmParser.py:512-523 | the outer loop over a state's cases only adds visited states, returns the stack as it found it, keeps the widths, incoming bits and the states that have steps and edges, keeps a non-negative counter non-negative, and leaves every state of the graph known to the context |
| Stager.RecurseLoop | python/llvmParser.py:521-523 | the inner loop that visits the unvisited parse-state targets keeps the same frame as the outer loop |
| Structs.HeaderStruct | p4c_fpga/start.py:68-74 | the struct is named after the header instance with `_t`, with one field per field of its header type |
| Structs.HeaderStructCharacterised | p4c_fpga/start.py:68-74 | each struct field carries the header field's name and width, in order, so the struct is exactly as wide as the header's fields |
| Structs.TableRequestStruct | p4c_fpga/start.py:76-82 | the request struct is named after the table with `_req_t` and has one field per match key |
| Structs.TableRequestCharacterised | p4c_fpga/start.py:76-82 | request field i is match key i's field name and width |
| Structs.TableResponseStruct | p4c_fpga/start.py:84-93 | the response struct is named after the table with `_resp_t` and has no more fields than the table has actions |
| Structs.ResponseFieldsCharacterised | p4c_fpga/start.py:86-91 | there is one response field for each action whose parameter widths sum above 0, and no other field; it is named `action_<i>_arg0` after the action's index and is as wide as that sum (an action with 16- and 32-bit parameters gets one 48-bit field); field names are distinct |
| Structs.ResponseFields | p4c_fpga/start.py:84-93 | a table gets no more response fields than it has actions |
| Structs.ResponseOfZeroAnd48 | p4c_fpga/start.py:84-93 | an action with no argument contributes nothing, and a 48-bit argument becomes a 48-bit field |
| Structs.MetaFieldsCharacterised | p4c_fpga/start.py:462-474 | the metadata fields are distinct and are exactly the table keys and select fields; each keeps its first position and its last width; table keys come first |
| Structs.MetaFields | p4c_fpga/start.py:462-474 | the metadata fields are built exactly when every parse state's `select` fields are defined |
| Structs.MetaStruct | p4c_fpga/start.py:60-66 | the metadata struct is named `meta_t` and holds exactly the fields it is given |
| Structs.BuildStructs | p4c_fpga/start.py:446-474 | the struct map is built exactly when the metadata fields are defined (every select field resolves) |
| Structs.BuildStructsCharacterised | p4c_fpga/start.py:446-474 | keys are distinct; the metadata struct is under `meta_t`; every other struct sits under its own name; the value under each key is the last struct written with that name, so on a name collision such as a table `fwd` and a header `fwd_req` the later struct wins |
| Structs.BuildStructsStores | p4c_fpga/start.py:448-460 | a header, request or response struct whose name no other struct takes is stored exactly as its builder makes it |
| Structs.BuildStructsComplete | p4c_fpga/start.py:448-460 | the name of every non-metadata header, request and response struct is a key of the map |
| Structs.MatchType | p4c_fpga/start.py:139-151 | defined exactly when every match key is exact or ternary; any other kind has no counter and fails |
| Structs.MatchTypeCharacterised | p4c_fpga/start.py:139-151 | no keys give no match type; all exact give exact; all ternary give ternary; a mix gives the kind whose counter is scanned last |
| Structs.MatchTypeOrderMatters | p4c_fpga/start.py:148-151 | the scan order of the counter dictionary changes the match type exactly when the kinds are mixed |
| Structs.BuildTable | p4c_fpga/start.py:132-151 | the table description has the table's minimum size as depth and names the request and response structs |
| Structs.ExampleTableDesc | p4c_fpga/start.py:139-151 | a concrete exact-match table gets the expected description |
| Structs.FieldWidthsCharacterised | p4c_fpga/start.py:544-549 | the field-width map holds every `header.field` path once and nothing else; the width under a path is that of the last field on it, in header and field order |
| Structs.FieldWidths | p4c_fpga/start.py:544-549 | the field-width map has distinct keys, holds a path exactly when some header has a field on it, and lists the paths in the order they are first met |
| Blocks.ParserStateBlock | p4c_fpga/start.py:195-214 | defined exactly when the state extracts a declared header and its guards are defined; carries that header and its length, one move instruction per select field, and ends in a terminating guard list |
| Blocks.DeparserMirrorsParser | p4c_fpga/start.py:216-230 | the deparser block of a state is its parser block renamed with `de`, with no instructions and every guard target renamed with `de` |
| Blocks.InsertionsReverse | p4c_fpga/start.py:205-213 | inserting each guard at the front yields the guards in reverse order, followed by the default |
| Blocks.ReversalHarmless | p4c_fpga/start.py:205-213 | with distinct guard expressions, reversing the guards does not change which branch is taken |
| Blocks.ParserGuardsReversed | p4c_fpga/start.py:195-214 | a parser block's guards are the declared guards reversed, and choose the same branch as the declared order |
| Blocks.HexLiteralInjective | p4c_fpga/start.py:205-210 | two guard values, of either sign and either Python 2 integer type, render to the same `hex` text only when they are equal |
| Blocks.HexLiteralOfNegative | p4c_fpga/start.py:205-210 | `hex(-5)` renders as `-0x5` and `hex(255)` as `0xff` |
| Blocks.GuardTextInjective | p4c_fpga/start.py:205-210 | two guards on the same field render the same only when their values are equal |
| Blocks.TableBlock | p4c_fpga/start.py:237-241 | a table block is named `bb_` plus the table (the name is set at line 187), holds the table and no header or instructions, has the offset list `[0]` and falls through |
| Blocks.ActionBlock | p4c_fpga/start.py:232-235 | an action block is named `bb_` plus the action (the name is set at line 184), has no table, header or instructions, has the bare offset `0` and falls through |
| Blocks.CondBlockCharacterised | p4c_fpga/start.py:243-276 | a condition block's guards are the condition's arms reversed, each arm comes from the node, and the branch taken matches declaration order |
| Blocks.CondArmsDistinct | p4c_fpga/start.py:261-276 | the true and false arms of a condition render to different guards |
| Blocks.ValidCondWithTrueArm | p4c_fpga/start.py:251-276 | `valid(H)` with only a true arm gives one guard `(meta.valid$H == 1)` |
| Blocks.EqualityCondWithBothArms | p4c_fpga/start.py:251-276 | an equality with both arms, scanned false arm first as CPython 2 iterates `{True: .., False: ..}`, gives the plain guard first, then the negated one |
| Blocks.ZeroLeftDropped | p4c_fpga/start.py:251-259 | a zero left operand is dropped from the rendered condition |
| Blocks.ConstantLeftText | p4c_fpga/start.py:245-259 | a constant left operand renders as its decimal digits, as `meta.` and the digits when it is a Python 2 `long`, and not at all when it is zero |
| Blocks.BuildBlock | p4c_fpga/start.py:169-193 | every built block ends in a terminating guard list and is named after its node; table, action and condition nodes always build |
| Blocks.CondBlock | p4c_fpga/start.py:243-276 | a condition block has no table, no header and no instructions, and its guard list terminates |
| Blocks.DeparserStateBlock | p4c_fpga/start.py:216-230 | a deparser block is built exactly when the parser block of the same state is defined: the state extracts a declared header and its guards are defined |
| Blocks.CondText | p4c_fpga/start.py:251-268 | a rendered condition is never empty and starts with `(` |
| Blocks.MetaOf | p4c_fpga/start.py:245-249 | `meta` gives `None` exactly for a missing operand, an integer exactly for a constant that fits a machine integer, and then that same integer; every other operand becomes a string |
| Blocks.MetaNamesField | p4c_fpga/start.py:245-249 | a string from `meta` starts with `meta.` and has no further dot: every dot of the field path is replaced |
| Flows.StartTarget | p4c_fpga/start.py:349-373 | the start state's entry is its immediate return target; a `select` return is an error |
| Flows.StartFlow | p4c_fpga/start.py:316-373 | the parser entry starts at the start state's target; the deparser entry starts at the same target prefixed with `de` |
| Flows.DeparserFlowMirrors | p4c_fpga/start.py:349-373 | the parser and deparser entries exist together, and the deparser starts at the `de` twin of the parser's start |
| Flows.Steps | p4c_fpga/start.py:493-511 | succeeds exactly when every state is defined; one step per state; an error is the first failing state's |
| Flows.BuildStates | p4c_fpga/start.py:493-511 | succeeds exactly when every parse state is defined, and otherwise fails with the first failing state's error |
| Flows.BuildStatesBlocks | p4c_fpga/start.py:493-511 | every non-start state's block is in the block map under its name (`de`-prefixed for the deparser) |
| Flows.BuildStatesKeepsOthers | p4c_fpga/start.py:493-511 | blocks under names that belong to no parse state are unchanged |
| Flows.BuildStatesFlowOfStart | p4c_fpga/start.py:497-501 | the start state installs the parser (or deparser) control-flow entry |
| Flows.BuildStatesFlowsKeepOthers | p4c_fpga/start.py:493-511 | control-flow entries other than the parser's (or deparser's) are unchanged |
| Flows.BuildStatesWithoutStart | p4c_fpga/start.py:493-511 | without a start state the control-flow map is unchanged |
| Flows.DeparsersMirrorParsers | p4c_fpga/start.py:493-511 | the parser and deparser passes succeed together, and each deparser block is the `de` twin of the parser block |
| Flows.StartControlState | p4c_fpga/start.py:518-531 | resolves exactly when the call sequence begins with a condition found among the ingress nodes before any table; the result names the first matching node; a leading table is not implemented |
| Flows.StartNamedUnique | p4c_fpga/start.py:523-531 | the resolved start node is unique |
| Flows.IngressNameInjective | p4c_fpga/start.py:533-537 | distinct ingress indexes give distinct flow names |
| Flows.WalkCalls | p4c_fpga/start.py:326-347 | the walk succeeds exactly when every condition of the call sequence uses `valid`, `==` or `<=`; otherwise it fails at the first other operator |
| Flows.IngressFlow | p4c_fpga/start.py:316-324 | an ingress entry exists exactly when its start resolves and the walk of its call sequence succeeds; a start error comes first; the entry is named `ingress_i` and starts at `bb_` plus the resolved node |
| Flows.BuildControlFlowsOk | p4c_fpga/start.py:533-537 | the pass succeeds exactly when every ingress program's start resolves and every condition of its call sequence has a known operator |
| Flows.BuildControlFlowsCharacterised | p4c_fpga/start.py:533-537 | every ingress program has its entry under `ingress_i`; entries under other names are unchanged |
| Flows.ExampleIngressStart | p4c_fpga/start.py:518-537 | a program whose first call is a condition starts at that condition's basic block |
| Flows.ExampleUnknownOperator | p4c_fpga/start.py:336-345 | a program whose start resolves still fails when a condition uses `!=` |
| Flows.ExampleTableBeforeCondition | p4c_fpga/start.py:520-529 | a table node scanned before the matching conditional is not implemented, even though the conditional comes later |
| Flows.ScanIngress | p4c_fpga/start.py:518-531 | the scan for the start of a condition succeeds exactly when some conditional node is guarded by that condition with only nodes guarded by other conditions before it, and then returns the name of such a node |
| Flows.BuildControlFlows | p4c_fpga/start.py:533-537 | when building all control flows succeeds, the flow of every control program was built successfully |

## Left out

- YAML output and file I/O (`p4c_fpga/start.py:20-42`, `573-589`) and the command line (`609-634`): they only serialise the model's results.
- The Bluespec text templates and `serialize_*` code generators of `python/llvmParser.py` other than the arbiter's behaviour: they emit text with no logic beyond what `Cases` models.
- `ControlFlow.build` (`p4c_fpga/start.py:326-347`) on the nested lists and tuples inside a conditional's tuple: only the condition at its head is walked, because the HLIR types here hold no nested branch lists. Its prints are left out.
- `build_metadatas`, `build_tables`, `build_basic_blocks`, `build_match_actions` and `build_processor_layout`: they copy the builders' results into dictionaries. The builders themselves are modelled.
- The call order in `construct`: each pass is a separate function over its inputs.
- Debug `print` statements: they have no effect on the results.
- `fpga/midend.cpp` and `c++/libp4fpga/src/backend.cpp` are not part of this model. They are C++ drivers around the Python code.
- The generated hardware's concurrency: it runs after the compiler and is not part of the compiler.
- Nested call-sequence elements and expression shapes beyond one operator over fields, constants and `valid`: the HLIR types here only hold the shapes the builders handle.
- Dictionary iteration order: the HLIR's dictionaries are input sequences, so any order the Python runtime uses is one input.
- Flows.StartTarget: a start state that returns through a `select` is an error here, while the source reads the second element of its return statement whatever it is. In the source such a start state gives a `parser` entry holding the select's field list (p4c_fpga/start.py:359), while its deparser entry raises `TypeError` on `'de' + list` (p4c_fpga/start.py:372). So `Flows.DeparserFlowMirrors` (both entries exist together) holds in the model only because that case is an error here.
- Stager.ProcessParser: requires every state to have been preprocessed (`Prepared`). The source would raise `KeyError` on a state that was not, and that path is not modelled.

=== FILE: blocks.dfy ===
/** The basic blocks of the BIR (`BasicBlock` and its `build_*` methods):
    one block per non-start parse state, per mirrored deparser state, per
    table, per action and per conditional node.

    A block's `next_control_state` is a head (the offset at which the next
    state resumes, or a bare 0) followed by a list of guarded transitions
    that ends with the `$done$` sentinel. Each builder scans its cases in
    order and inserts every guard at the FRONT of the list, so the guards
    come out in reverse order; `Insertions` models that loop once for all
    builders, and `InsertionsReverse` states the reversal.
 */
module Blocks {
  import opened Outcomes
  import opened Hlir
  import opened Text

  /** One entry of a transition list: a guarded jump, or the `$done$`
      sentinel, which is always taken. */
  datatype Transition = Guarded(expr: string, target: string) | Done

  /** The first element of `next_control_state`. */
  datatype Head =
    | OffsetList(offset: string)   // `["$offset$ + <bits>"]`, parse states
    | ZeroList                     // `[0]`, tables and conditional nodes
    | BareZero                     // `0`, actions

  /** An instruction `[kind, dst, src]`. */
  datatype Instruction = Instruction(kind: string, dst: string, src: string)

  datatype BasicBlock = BasicBlock(
    name: string,
    localHeader: Option<string>,
    localTable: Option<string>,
    instructions: seq<Instruction>,
    head: Head,
    next: seq<Transition>)

  /** The list ends with the sentinel, and only there. */
  predicate Terminated(ts: seq<Transition>) {
    |ts| > 0 && ts[|ts| - 1].Done? && forall i :: 0 <= i < |ts| - 1 ==> ts[i].Guarded?
  }

  // ----- inserting at the front -----

  /** `s` reversed. */
  function Reverse<T>(s: seq<T>): (r: seq<T>)
    ensures |r| == |s|
    decreases |s|
  {
    if |s| == 0 then [] else [s[|s| - 1]] + Reverse(s[..|s| - 1])
  }

  /** Element `i` of the reversal is element `|s| - 1 - i` of `s`. */
  lemma {:induction false} ReverseAt<T>(s: seq<T>)
    ensures forall i :: 0 <= i < |s| ==> Reverse(s)[i] == s[|s| - 1 - i]
    decreases |s|
  {
    if |s| > 0 {
      ReverseAt(s[..|s| - 1]);
    }
  }

  lemma ReverseSnoc<T>(s: seq<T>, x: T)
    ensures Reverse(s + [x]) == [x] + Reverse(s)
  {
    assert (s + [x])[..|s|] == s;
  }

  /** The guard of a present entry; nothing for an absent one. */
  function Entry(o: Option<(string, string)>): seq<Transition>
  {
    if o.None? then [] else [Guarded(o.value.0, o.value.1)]
  }

  /** The loop shared by the builders: starting from `['$done$']`, every
      present entry `(expr, target)` is inserted at position 0; an absent
      entry is skipped. */
  function Insertions(entries: seq<Option<(string, string)>>): (ts: seq<Transition>)
    ensures Terminated(ts)
    decreases |entries|
  {
    if |entries| == 0 then [Done]
    else Entry(entries[|entries| - 1]) + Insertions(entries[..|entries| - 1])
  }

  /** The present entries as guards, in scan order. */
  function Present(entries: seq<Option<(string, string)>>): (gs: seq<Transition>)
    ensures forall k :: 0 <= k < |gs| ==> gs[k].Guarded?
    decreases |entries|
  {
    if |entries| == 0 then []
    else Present(entries[..|entries| - 1]) + Entry(entries[|entries| - 1])
  }

  /** The builders' list is the present guards in reverse scan order, then
      the sentinel. */
  lemma {:induction false} InsertionsReverse(entries: seq<Option<(string, string)>>)
    ensures Insertions(entries) == Reverse(Present(entries)) + [Done]
    decreases |entries|
  {
    if |entries| > 0 {
      var last := |entries| - 1;
      var init := entries[..last];
      InsertionsReverse(init);
      var p := Present(init);
      var x := Entry(entries[last]);
      assert Insertions(entries) == x + Insertions(init);
      assert Present(entries) == p + x;
      if entries[last].Some? {
        var g := Guarded(entries[last].value.0, entries[last].value.1);
        assert x == [g];
        ReverseSnoc(p, g);
        assert [g] + (Reverse(p) + [Done]) == ([g] + Reverse(p)) + [Done];
      } else {
        assert x == [] && p + x == p;
      }
    }
  }

  /** Every present guard comes from an entry. */
  lemma {:induction false} PresentFromEntries(entries: seq<Option<(string, string)>>)
    ensures forall k :: 0 <= k < |Present(entries)| ==> FromEntry(entries, Present(entries)[k])
    decreases |entries|
  {
    if |entries| > 0 {
      var last := |entries| - 1;
      var init := entries[..last];
      PresentFromEntries(init);
      var p := Present(init);
      forall k | 0 <= k < |p|
        ensures FromEntry(entries, p[k])
      {
        var i :| 0 <= i < |init| && init[i].Some? && p[k] == Guarded(init[i].value.0, init[i].value.1);
        assert entries[i] == init[i];
      }
      var x := Entry(entries[last]);
      assert Present(entries) == p + x;
      if entries[last].Some? {
        assert FromEntry(entries, x[0]);
      } else {
        assert p + x == p;
      }
    }
  }

  /** The guard `g` is made from some present entry. */
  predicate FromEntry(entries: seq<Option<(string, string)>>, g: Transition) {
    exists i :: 0 <= i < |entries| && entries[i].Some? && g == Guarded(entries[i].value.0, entries[i].value.1)
  }

  /** No two present entries share a guard expression. */
  predicate DistinctGuards(entries: seq<Option<(string, string)>>) {
    forall i, j :: 0 <= i < j < |entries| && entries[i].Some? && entries[j].Some? ==> entries[i].value.0 != entries[j].value.0
  }

  /** No two guards of the list share an expression. */
  predicate DistinctExprs(gs: seq<Transition>) {
    forall i, j :: 0 <= i < j < |gs| && gs[i].Guarded? && gs[j].Guarded? ==> gs[i].expr != gs[j].expr
  }

  lemma {:induction false} PresentDistinct(entries: seq<Option<(string, string)>>)
    requires DistinctGuards(entries)
    ensures DistinctExprs(Present(entries))
    decreases |entries|
  {
    if |entries| > 0 {
      var last := |entries| - 1;
      var init := entries[..last];
      assert forall i :: 0 <= i < last ==> init[i] == entries[i];
      PresentDistinct(init);
      PresentFromEntries(init);
      var p := Present(init);
      var x := Entry(entries[last]);
      assert Present(entries) == p + x;
      if entries[last].Some? {
        var g := x[0];
        assert x == [g];
        forall k | 0 <= k < |p|
          ensures p[k].expr != g.expr
        {
          var i :| 0 <= i < |init| && init[i].Some? && p[k] == Guarded(init[i].value.0, init[i].value.1);
          assert entries[i] == init[i];
        }
      } else {
        assert p + x == p;
      }
    }
  }

  // ----- first-match evaluation -----

  /** The transition a packet takes when exactly the guard text `e` holds:
      the target of the first guard reading `e`; `None` when it reaches the
      sentinel. */
  function FirstMatch(ts: seq<Transition>, e: string): Option<string>
    decreases |ts|
  {
    if |ts| == 0 then None
    else if ts[0].Guarded? && ts[0].expr == e then Some(ts[0].target)
    else FirstMatch(ts[1..], e)
  }

  lemma {:induction false} FirstMatchAt(ts: seq<Transition>, e: string, i: nat)
    requires i < |ts| && ts[i].Guarded? && ts[i].expr == e
    requires forall j :: 0 <= j < i ==> !(ts[j].Guarded? && ts[j].expr == e)
    ensures FirstMatch(ts, e) == Some(ts[i].target)
    decreases i
  {
    if i > 0 {
      assert !(ts[0].Guarded? && ts[0].expr == e);
      FirstMatchAt(ts[1..], e, i - 1);
    }
  }

  lemma {:induction false} FirstMatchNone(ts: seq<Transition>, e: string)
    requires forall j :: 0 <= j < |ts| ==> !(ts[j].Guarded? && ts[j].expr == e)
    ensures FirstMatch(ts, e) == None
    decreases |ts|
  {
    if |ts| > 0 {
      FirstMatchNone(ts[1..], e);
    }
  }

  /** When no two guards read alike, evaluating them in reverse order takes
      the same transition as evaluating them in order: at most one guard
      can hold. */
  lemma ReversalHarmless(gs: seq<Transition>, e: string)
    requires forall k :: 0 <= k < |gs| ==> gs[k].Guarded?
    requires DistinctExprs(gs)
    ensures FirstMatch(Reverse(gs) + [Done], e) == FirstMatch(gs + [Done], e)
  {
    var fwd, bwd := gs + [Done], Reverse(gs) + [Done];
    ReverseAt(gs);
    if i :| 0 <= i < |gs| && gs[i].expr == e {
      FirstMatchAt(fwd, e, i);
      FirstMatchAt(bwd, e, |gs| - 1 - i);
    } else {
      FirstMatchNone(fwd, e);
      FirstMatchNone(bwd, e);
    }
  }

  // ----- parse-state blocks -----

  /** The header instance extracted last in the state. A state that
      extracts nothing has no `latest_extraction`, which fails. */
  function ExtractedHeader(st: ParseState, headers: seq<HeaderInstance>): (r: Result<HeaderInstance>)
    ensures r.Ok? <==> LatestExtraction(st).Some? && FindHeader(headers, LatestExtraction(st).value).Some?
    ensures r.Ok? ==> r.value == FindHeader(headers, LatestExtraction(st).value).value
  {
    match LatestExtraction(st)
    case None => Err(MalformedGraph("parse state extracts no header"))
    case Some(name) =>
      match FindHeader(headers, name)
      case None => Err(MalformedGraph("unknown header instance"))
      case Some(h) => Ok(h)
  }

  /** Python 2's `hex(v)`: a minus sign for a negative value, `0x` and the
      digits of its magnitude, and an `L` for a long (a value outside the
      machine integer range). */
  function HexLiteral(v: int): string
  {
    (if v < 0 then "-" else "") + PyHex(Abs(v)) + (if IsLong(v) then "L" else "")
  }

  /** The hexadecimal digits of a value never end in `L`. */
  lemma PyHexLastDigit(v: nat)
    ensures PyHex(v)[|PyHex(v)| - 1] in HexAlphabet
  {
    var h := PyHex(v);
    assert h[2..] == HexDigits(v);
    assert h[|h| - 1] == HexDigits(v)[|HexDigits(v)| - 1];
  }

  lemma PyHexInjective(a: nat, b: nat)
    requires PyHex(a) == PyHex(b)
    ensures a == b
  {
  }

  /** A literal starts with `-` exactly for a negative value and ends in `L`
      exactly for a long; without them it is the `hex` of the magnitude. */
  lemma HexLiteralShape(v: int)
    ensures var s := HexLiteral(v);
      var lo := if v < 0 then 1 else 0;
      var hi := |s| - (if IsLong(v) then 1 else 0);
      && |s| > 0 && lo <= hi
      && (s[0] == '-' <==> v < 0)
      && (s[|s| - 1] == 'L' <==> IsLong(v))
      && s[lo..hi] == PyHex(Abs(v))
  {
    PyHexEnds(Abs(v));
    SignedShape(HexLiteral(v), PyHex(Abs(v)), v < 0, IsLong(v));
  }

  /** The shape of a digit string with an optional `-` in front and an
      optional `L` behind. */
  lemma SignedShape(s: string, p: string, neg: bool, long: bool)
    requires |p| > 0 && p[0] != '-' && p[|p| - 1] != 'L'
    requires s == (if neg then "-" else "") + p + (if long then "L" else "")
    ensures var lo := if neg then 1 else 0;
      var hi := |s| - (if long then 1 else 0);
      && |s| > 0 && lo <= hi
      && (s[0] == '-' <==> neg)
      && (s[|s| - 1] == 'L' <==> long)
      && s[lo..hi] == p
  {
    ThreeParts(if neg then "-" else "", p, if long then "L" else "");
  }

  /** Where the middle of a concatenation of three pieces sits, and what its
      first and last characters are, when the outer pieces have at most one
      character each. */
  lemma ThreeParts(sign: string, p: string, suffix: string)
    requires |sign| <= 1 && |p| > 0 && |suffix| <= 1
    ensures var s := sign + p + suffix;
      && s[|sign|..|s| - |suffix|] == p
      && s[0] == (if |sign| == 1 then sign[0] else p[0])
      && s[|s| - 1] == (if |suffix| == 1 then suffix[0] else p[|p| - 1])
  {
  }

  /** A `hex` text starts with `0` and never ends in `L`. */
  lemma PyHexEnds(n: nat)
    ensures PyHex(n)[0] == '0'
    ensures PyHex(n)[|PyHex(n)| - 1] != 'L'
  {
    PyHexLastDigit(n);
    assert 'L' !in HexAlphabet;
    assert PyHex(n)[..2] == "0x";
  }

  /** Distinct values print as distinct literals. */
  lemma HexLiteralInjective(a: int, b: int)
    requires HexLiteral(a) == HexLiteral(b)
    ensures a == b
  {
    HexLiteralShape(a);
    HexLiteralShape(b);
    PyHexInjective(Abs(a), Abs(b));
  }

  /** A negative key keeps its sign in front of the `0x`. */
  lemma HexLiteralOfNegative()
    ensures HexLiteral(-5) == "-0x5" && HexLiteral(255) == "0xff"
  {
    assert HexDigits(5) == "5" && HexDigits(255) == "ff";
  }

  /** The guard of a state branching on the field `on` for the value `v`. */
  function GuardText(on: string, v: int): string
  {
    on + " == " + HexLiteral(v)
  }

  lemma GuardTextInjective(on: string, a: int, b: int)
    requires GuardText(on, a) == GuardText(on, b)
    ensures a == b
  {
    var s := GuardText(on, a);
    assert HexLiteral(a) == s[|on| + 4..] == HexLiteral(b);
    HexLiteralInjective(a, b);
  }

  /** Every case the loop does not skip has an integer key, and the state
      branches on a field to compare it with. */
  predicate GuardsDefined(on: Option<string>, cases: seq<Case>) {
    forall i :: 0 <= i < |cases| && !cases[i].key.DefaultKey? ==> on.Some? && cases[i].key.ValueKey?
  }

  /** The loop over `branch_to`: the `default` keyword is skipped, an
      integer key `v` gives the guard `<on> == <hex(v)>` to the target's
      name with `prefix` in front. Without a `branch_on` field the guard
      cannot be written, and a masked or value-set key cannot be printed
      as hexadecimal; the first such case fails. */
  function StateEntries(on: Option<string>, cases: seq<Case>, prefix: string)
    : (r: Result<seq<Option<(string, string)>>>)
    ensures r.Ok? <==> GuardsDefined(on, cases)
    ensures r.Ok? ==> |r.value| == |cases| && forall i :: 0 <= i < |cases| ==> Ok(r.value[i]) == StateEntry(on, cases[i], prefix)
  {
    MapAll(cases, c => StateEntry(on, c, prefix))
  }

  /** The entry of one case. */
  function StateEntry(on: Option<string>, c: Case, prefix: string): (r: Result<Option<(string, string)>>)
    ensures r.Ok? <==> (c.key.DefaultKey? || (on.Some? && c.key.ValueKey?))
  {
    if c.key.DefaultKey? then Ok(None)
    else if on.None? then Err(MalformedGraph("branch_on is empty"))
    else if !c.key.ValueKey? then Err(MalformedGraph("key cannot be printed as hexadecimal"))
    else Ok(Some((GuardText(on.value, c.key.value), prefix + c.target.name)))
  }

  /** The name of the first `branch_on` field, if any. */
  function FirstName(fields: seq<Field>): Option<string>
  {
    if |fields| > 0 then Some(fields[0].name) else None
  }

  /** What a parse state's block needs: an extracted, known header, named
      `branch_on` fields, and guards it can write. */
  predicate StateBlockDefined(st: ParseState, headers: seq<HeaderInstance>) {
    && ExtractedHeader(st, headers).Ok?
    && BranchOnFields(st.branchOn).Ok?
    && GuardsDefined(FirstName(BranchOnFields(st.branchOn).value), st.branchTo)
  }

  /** The offset at which the next state resumes: the header's length in bits. */
  function NextOffset(h: HeaderInstance): string
  {
    "$offset$ + " + NatToDec(h.typeLength * 8)
  }

  /** The transitions of a parse state's block, targets prefixed by `prefix`. */
  function StateTransitions(st: ParseState, fields: seq<Field>, prefix: string): (r: Result<seq<Transition>>)
    ensures r.Ok? <==> GuardsDefined(FirstName(fields), st.branchTo)
  {
    var entries :- StateEntries(FirstName(fields), st.branchTo, prefix);
    Ok(Insertions(entries))
  }

  /** `BasicBlock(state)` for a parse state other than `start`
      (`build_parser_state`): the block is named after the state, holds the
      type of the header extracted last, copies every `branch_on` field into
      the metadata, and resumes after the header. */
  function ParserStateBlock(st: ParseState, headers: seq<HeaderInstance>): (r: Result<BasicBlock>)
    ensures r.Ok? <==> StateBlockDefined(st, headers)
    ensures r.Ok? ==> var h := ExtractedHeader(st, headers).value;
      && r.value.name == st.name
      && r.value.localHeader == Some(h.typeName) && r.value.localTable.None?
      && r.value.head == OffsetList("$offset$ + " + NatToDec(h.typeLength * 8))
      && |r.value.instructions| == |st.branchOn|
      && (forall k :: 0 <= k < |st.branchOn| ==>
            r.value.instructions[k] == Instruction("V", "meta." + st.branchOn[k].field.name, st.branchOn[k].field.name))
      && Terminated(r.value.next)
  {
    var h :- ExtractedHeader(st, headers);
    var fields :- BranchOnFields(st.branchOn);
    var next :- StateTransitions(st, fields, "");
    var instructions := seq(|fields|, k requires 0 <= k < |fields| =>
      Instruction("V", "meta." + fields[k].name, fields[k].name));
    Ok(BasicBlock(st.name, Some(h.typeName), None, instructions, OffsetList(NextOffset(h)), next))
  }

  /** `BasicBlock(state, deparse=True)` (`build_deparser_state`): the parser
      block's logic without instructions, with `de` in front of the block's
      name and of every target. */
  function DeparserStateBlock(st: ParseState, headers: seq<HeaderInstance>): (r: Result<BasicBlock>)
    ensures r.Ok? <==> StateBlockDefined(st, headers)
  {
    var h :- ExtractedHeader(st, headers);
    var fields :- BranchOnFields(st.branchOn);
    var next :- StateTransitions(st, fields, "de");
    Ok(BasicBlock("de" + st.name, Some(h.typeName), None, [], OffsetList(NextOffset(h)), next))
  }

  /** `prefix` put in front of the target of `t`. */
  function RetargetOne(prefix: string, t: Transition): Transition
  {
    match t
    case Done => Done
    case Guarded(e, target) => Guarded(e, prefix + target)
  }

  /** `prefix` put in front of every target. */
  function Retarget(prefix: string, ts: seq<Transition>): (r: seq<Transition>)
    ensures |r| == |ts|
  {
    seq(|ts|, i requires 0 <= i < |ts| => RetargetOne(prefix, ts[i]))
  }

  lemma RetargetConcat(prefix: string, a: seq<Transition>, b: seq<Transition>)
    ensures Retarget(prefix, a + b) == Retarget(prefix, a) + Retarget(prefix, b)
  {
  }

  /** The entries `es` with `prefix` in front of every target. */
  predicate RetargetedEntries(prefix: string, es: seq<Option<(string, string)>>, ps: seq<Option<(string, string)>>) {
    |es| == |ps| && forall i :: 0 <= i < |es| ==> ps[i] == if es[i].None? then None else Some((es[i].value.0, prefix + es[i].value.1))
  }

  lemma {:induction false} InsertionsRetarget(prefix: string, es: seq<Option<(string, string)>>, ps: seq<Option<(string, string)>>)
    requires RetargetedEntries(prefix, es, ps)
    ensures Insertions(ps) == Retarget(prefix, Insertions(es))
    decreases |es|
  {
    if |es| > 0 {
      var last := |es| - 1;
      assert RetargetedEntries(prefix, es[..last], ps[..last]);
      InsertionsRetarget(prefix, es[..last], ps[..last]);
      var x, y := Entry(es[last]), Entry(ps[last]);
      assert y == Retarget(prefix, x);
      assert Insertions(es) == x + Insertions(es[..last]);
      assert Insertions(ps) == y + Insertions(ps[..last]);
      RetargetConcat(prefix, x, Insertions(es[..last]));
    }
  }

  /** The deparser block mirrors the parser block: both exist for the same
      states; the deparser's name and targets carry the prefix `de`; the
      header, the offset and the guards are the same, and it copies no
      fields. */
  lemma DeparserMirrorsParser(st: ParseState, headers: seq<HeaderInstance>)
    requires StateBlockDefined(st, headers)
    ensures var p, d := ParserStateBlock(st, headers).value, DeparserStateBlock(st, headers).value;
      && d.name == "de" + p.name
      && d.localHeader == p.localHeader && d.localTable == p.localTable && d.head == p.head
      && d.instructions == []
      && d.next == Retarget("de", p.next)
  {
    var fields := BranchOnFields(st.branchOn).value;
    var es := StateEntries(FirstName(fields), st.branchTo, "").value;
    var ps := StateEntries(FirstName(fields), st.branchTo, "de").value;
    forall i | 0 <= i < |es| && es[i].Some?
      ensures ps[i] == Some((es[i].value.0, "de" + es[i].value.1))
    {
      assert "" + st.branchTo[i].target.name == st.branchTo[i].target.name;
    }
    assert RetargetedEntries("de", es, ps);
    InsertionsRetarget("de", es, ps);
  }

  /** The guards of a parse state in declaration order: what evaluation
      order the block would have if guards were appended. */
  function DeclaredGuards(st: ParseState, headers: seq<HeaderInstance>): seq<Transition>
    requires StateBlockDefined(st, headers)
  {
    Present(StateEntries(FirstName(BranchOnFields(st.branchOn).value), st.branchTo, "").value)
  }

  /** A parse state's block lists its guards in reverse declaration order;
      since the keys of `branch_to` are distinct, no two guards read alike,
      and the block takes the same transition as the declared order for
      every field value. */
  lemma ParserGuardsReversed(st: ParseState, headers: seq<HeaderInstance>, e: string)
    requires StateBlockDefined(st, headers)
    requires forall i, j :: 0 <= i < j < |st.branchTo| ==> st.branchTo[i].key != st.branchTo[j].key
    ensures var b, gs := ParserStateBlock(st, headers).value, DeclaredGuards(st, headers);
      && b.next == Reverse(gs) + [Done]
      && FirstMatch(b.next, e) == FirstMatch(gs + [Done], e)
  {
    var on := FirstName(BranchOnFields(st.branchOn).value);
    var es := StateEntries(on, st.branchTo, "").value;
    InsertionsReverse(es);
    forall i, j | 0 <= i < j < |es| && es[i].Some? && es[j].Some?
      ensures es[i].value.0 != es[j].value.0
    {
      if es[i].value.0 == es[j].value.0 {
        GuardTextInjective(on.value, st.branchTo[i].key.value, st.branchTo[j].key.value);
      }
    }
    PresentDistinct(es);
    ReversalHarmless(Present(es), e);
  }

  // ----- table, action and conditional blocks -----

  /** `BasicBlock(table)` (`build_table`): one unconditional transition
      after the list head `[0]`. */
  function TableBlock(t: Table): (b: BasicBlock)
    ensures b.name == "bb_" + t.name && b.head == ZeroList
    ensures b.localTable == Some(t.name) && b.localHeader.None? && b.instructions == []
    ensures b.next == [Done] && Terminated(b.next)
  {
    BasicBlock("bb_" + t.name, None, Some(t.name), [], ZeroList, [Done])
  }

  /** `BasicBlock(action)` (`build_action`): a stub with one unconditional
      transition after the bare head `0`, and no lowered instructions. */
  function ActionBlock(a: Action): (b: BasicBlock)
    ensures b.name == "bb_" + a.name && b.head == BareZero
    ensures b.localTable.None? && b.localHeader.None? && b.instructions == []
    ensures b.next == [Done] && Terminated(b.next)
  {
    BasicBlock("bb_" + a.name, None, None, [], BareZero, [Done])
  }

  /** A Python value as `print_cond` sees it. */
  datatype PyValue = PyNone | PyInt(i: int) | PyStr(s: string)

  predicate Truthy(v: PyValue) {
    match v
    case PyNone => false
    case PyInt(i) => i != 0
    case PyStr(s) => s != ""
  }

  /** `str(v)`. */
  function Str(v: PyValue): string
  {
    match v
    case PyNone => "None"
    case PyInt(i) => IntToDec(i)
    case PyStr(s) => s
  }

  /** `meta(field)`: an integer stays an integer, a field becomes its
      metadata copy with `$` for every dot, and nothing stays nothing. A
      Python 2 `long` is not an `int`, so a long constant is named as if it
      were a field, by its decimal digits. */
  function MetaOf(o: Operand): (v: PyValue)
    ensures v.PyNone? <==> o.NoOperand?
    ensures v.PyInt? <==> o.IntOperand? && !IsLong(o.i)
    ensures v.PyInt? ==> v.i == o.i
  {
    match o
    case NoOperand => PyNone
    case IntOperand(i) => if IsLong(i) then PyStr("meta." + ReplaceDots(IntToDec(i))) else PyInt(i)
    case RefOperand(p) => PyStr("meta." + ReplaceDots(p))
  }

  /** What `meta` names is a metadata field: `meta.` and a path without
      dots. */
  lemma MetaNamesField(o: Operand)
    ensures MetaOf(o).PyStr? ==>
      && "meta." <= MetaOf(o).s
      && forall k :: 5 <= k < |MetaOf(o).s| ==> MetaOf(o).s[k] != '.'
  {
    if o.IntOperand? && IsLong(o.i) {
      assert MetaOf(o).s == "meta." + ReplaceDots(IntToDec(o.i));
    }
  }

  /** `str(operand)`. */
  function OperandText(o: Operand): string
  {
    match o
    case NoOperand => "None"
    case IntOperand(i) => IntToDec(i)
    case RefOperand(p) => p
  }

  /** The predicate a condition renders to: the validity bit of a header,
      or `(left op right)`, where a left side that is nothing or the integer
      0 is dropped. */
  function CondText(c: Expr): (r: string)
    ensures |r| > 0 && r[0] == '('
  {
    if c.op == "valid" then "(meta.valid$" + OperandText(c.right) + " == 1)"
    else
      var left, right := MetaOf(c.left), MetaOf(c.right);
      "(" + (if Truthy(left) then Str(left) + " " else "") + c.op + " " + Str(right) + ")"
  }

  /** The guard of the arm for truth value `b`: the predicate, negated with
      `! ` for the false arm. */
  function ArmText(c: Expr, b: bool): (r: string)
    ensures b ==> r == CondText(c)
    ensures !b ==> r == "! " + CondText(c)
  {
    if b then CondText(c) else "! " + CondText(c)
  }

  /** The arms of a conditional node in `next_` order; an arm without a
      successor is skipped. */
  function CondEntries(n: CondNode): (es: seq<Option<(string, string)>>)
    ensures |es| == |n.next|
  {
    seq(|n.next|, i requires 0 <= i < |n.next| =>
      if n.next[i].1.None? then None else Some((ArmText(n.condition, n.next[i].0), "bb_" + n.next[i].1.value)))
  }

  /** `BasicBlock(node)` (`build_cond`). */
  function CondBlock(n: CondNode): (b: BasicBlock)
    ensures b.localTable.None? && b.localHeader.None? && b.instructions == []
    ensures Terminated(b.next)
  {
    BasicBlock("bb_" + n.name, None, None, [], ZeroList, Insertions(CondEntries(n)))
  }

  /** The true and false arms never read alike: one is the other with
      `! ` in front, and a predicate starts with `(`. */
  lemma CondArmsDistinct(n: CondNode)
    requires forall i, j :: 0 <= i < j < |n.next| ==> n.next[i].0 != n.next[j].0
    ensures DistinctGuards(CondEntries(n))
  {
    var es := CondEntries(n);
    var t := CondText(n.condition);
    forall i, j | 0 <= i < j < |es| && es[i].Some? && es[j].Some?
      ensures es[i].value.0 != es[j].value.0
    {
      if n.next[i].0 {
        assert es[j].value.0 == "! " + t && es[j].value.0[0] == '!';
      } else {
        assert es[i].value.0 == "! " + t && es[i].value.0[0] == '!';
      }
    }
  }

  /** A conditional block lists a guard for every arm with a successor, in
      reverse `next_` order, each made from its arm; since the keys of
      `next_` are distinct truth values, the order does not change which
      arm is taken. */
  lemma CondBlockCharacterised(n: CondNode, e: string)
    requires forall i, j :: 0 <= i < j < |n.next| ==> n.next[i].0 != n.next[j].0
    ensures var gs := Present(CondEntries(n));
      && CondBlock(n).next == Reverse(gs) + [Done]
      && (forall k :: 0 <= k < |gs| ==> FromEntry(CondEntries(n), gs[k]))
      && FirstMatch(CondBlock(n).next, e) == FirstMatch(gs + [Done], e)
  {
    var es := CondEntries(n);
    InsertionsReverse(es);
    PresentFromEntries(es);
    CondArmsDistinct(n);
    PresentDistinct(es);
    ReversalHarmless(Present(es), e);
  }

  /** An arm's entry: the predicate for its truth value, to its successor's
      block. */
  lemma CondEntryOf(n: CondNode, i: nat)
    requires i < |n.next| && n.next[i].1.Some?
    ensures CondEntries(n)[i] == Some((if n.next[i].0 then CondText(n.condition) else "! " + CondText(n.condition), "bb_" + n.next[i].1.value))
  {
  }

  lemma InsertionsOfOne(a: (string, string))
    ensures Insertions([Some(a)]) == [Guarded(a.0, a.1), Done]
  {
    assert [Some(a)][..0] == [];
  }

  lemma InsertionsOfTwo(a: (string, string), b: (string, string))
    ensures Insertions([Some(a), Some(b)]) == [Guarded(b.0, b.1), Guarded(a.0, a.1), Done]
  {
    assert [Some(a), Some(b)][..1] == [Some(a)];
    InsertionsOfOne(a);
  }

  /** A node testing the validity of header `H` with only a true arm, to
      `t`: one guard on the validity bit, then the sentinel. */
  lemma ValidCondWithTrueArm()
    ensures CondBlock(CondNode("c", Expr(0, "valid", NoOperand, RefOperand("H")), [(true, Some("t"))])).next
      == [Guarded("(meta.valid$H == 1)", "bb_t"), Done]
  {
    var n := CondNode("c", Expr(0, "valid", NoOperand, RefOperand("H")), [(true, Some("t"))]);
    assert CondText(n.condition) == "(meta.valid$H == 1)";
    assert "bb_" + "t" == "bb_t";
    assert CondEntries(n) == [Some(("(meta.valid$H == 1)", "bb_t"))];
    InsertionsOfOne(("(meta.valid$H == 1)", "bb_t"));
  }

  lemma ZeroText()
    ensures IntToDec(0) == "0"
  {
    assert NatToBase(0, 10) == [HexAlphabet[0]];
  }

  lemma DotsOfIpTtl()
    ensures ReplaceDots("ip.ttl") == "ip$ttl"
  {
  }

  lemma TtlIsZeroText()
    ensures CondText(Expr(1, "==", RefOperand("ip.ttl"), IntOperand(0))) == "(meta.ip$ttl == 0)"
  {
    var c := Expr(1, "==", RefOperand("ip.ttl"), IntOperand(0));
    DotsOfIpTtl();
    ZeroText();
    var left, right := MetaOf(c.left), MetaOf(c.right);
    assert left == PyStr("meta.ip$ttl") && Truthy(left);
    assert right == PyInt(0) && Str(right) == "0";
    assert CondText(c) == "(" + "meta.ip$ttl" + " " + "==" + " " + "0" + ")";
  }

  /** The test `ip.ttl == 0` with a true arm to `a` and a false arm to `b`. */
  function TtlNode(): CondNode
  {
    CondNode("c", Expr(1, "==", RefOperand("ip.ttl"), IntOperand(0)), [(false, Some("b")), (true, Some("a"))])
  }

  lemma TtlEntries()
    ensures CondEntries(TtlNode()) == [Some(("! (meta.ip$ttl == 0)", "bb_b")), Some(("(meta.ip$ttl == 0)", "bb_a"))]
  {
    var n := TtlNode();
    TtlIsZeroText();
    var t := CondText(n.condition);
    assert ArmText(n.condition, false) == "! (meta.ip$ttl == 0)" by {
      assert "! " + t == "! (meta.ip$ttl == 0)";
    }
    assert "bb_" + "a" == "bb_a" && "bb_" + "b" == "bb_b";
    CondEntryOf(n, 0);
    CondEntryOf(n, 1);
  }

  /** An equality on a field with both arms, listed as CPython 2 iterates
      the dictionary `{True: a, False: b}` (`False` hashes to slot 0, so it
      comes first): insertion at the front puts the true arm's guard first,
      the negated guard second, then the sentinel. */
  lemma EqualityCondWithBothArms()
    ensures CondBlock(TtlNode()).next
      == [Guarded("(meta.ip$ttl == 0)", "bb_a"), Guarded("! (meta.ip$ttl == 0)", "bb_b"), Done]
  {
    TtlEntries();
    InsertionsOfTwo(("! (meta.ip$ttl == 0)", "bb_b"), ("(meta.ip$ttl == 0)", "bb_a"));
  }

  /** A comparison of an integer constant with a field: the constant is
      dropped when it is 0, printed as it is when Python 2 holds it as an
      `int`, and printed as a metadata name when it is a `long`. */
  lemma ConstantLeftText(id: nat, op: string, v: int, p: string)
    requires op != "valid"
    ensures CondText(Expr(id, op, IntOperand(v), RefOperand(p))) ==
      "(" + (if v == 0 then "" else (if IsLong(v) then "meta." else "") + IntToDec(v) + " ")
          + op + " meta." + ReplaceDots(p) + ")"
  {
    var c := Expr(id, op, IntOperand(v), RefOperand(p));
    var left := MetaOf(c.left);
    var pre := if Truthy(left) then Str(left) + " " else "";
    ConstantLeftPrefix(v);
    var right := "meta." + ReplaceDots(p);
    assert Str(MetaOf(c.right)) == right;
    assert CondText(c) == "(" + pre + op + " " + right + ")";
    assert "(" + pre + op + " " + right + ")" == "(" + pre + op + " meta." + ReplaceDots(p) + ")";
  }

  /** The text an integer left operand contributes. */
  lemma ConstantLeftPrefix(v: int)
    ensures var left := MetaOf(IntOperand(v));
      (if Truthy(left) then Str(left) + " " else "") ==
        (if v == 0 then "" else (if IsLong(v) then "meta." else "") + IntToDec(v) + " ")
  {
    if IsLong(v) {
      NoDotsInDecimal(v);
      assert Str(MetaOf(IntOperand(v))) == "meta." + IntToDec(v);
    }
  }

  /** A comparison whose left side is the integer 0 drops it. */
  lemma ZeroLeftDropped()
    ensures CondText(Expr(2, "<=", IntOperand(0), RefOperand("m.x"))) == "(<= meta.m$x)"
  {
    assert ReplaceDots("m.x") == "m$x";
  }

  // ----- dispatch -----

  /** The node a block is built from: the explicit form of the runtime type
      test in `BasicBlock.__init__`. */
  datatype Node =
    | StateNode(state: ParseState)
    | DeparseNode(state: ParseState)
    | ActionNode(action: Action)
    | TableNode(table: Table)
    | CondNodeOf(cond: CondNode)

  /** `BasicBlock(node, ...)`. */
  function BuildBlock(node: Node, headers: seq<HeaderInstance>): (r: Result<BasicBlock>)
    ensures r.Ok? ==> Terminated(r.value.next)
    ensures r.Ok? ==> r.value.name == match node
      case StateNode(st) => st.name
      case DeparseNode(st) => "de" + st.name
      case ActionNode(a) => "bb_" + a.name
      case TableNode(t) => "bb_" + t.name
      case CondNodeOf(n) => "bb_" + n.name
    ensures (node.ActionNode? || node.TableNode? || node.CondNodeOf?) ==> r.Ok?
  {
    match node
    case StateNode(st) => ParserStateBlock(st, headers)
    case DeparseNode(st) =>
      var b :- DeparserStateBlock(st, headers);
      DeparserMirrorsParser(st, headers);
      Ok(b)
    case ActionNode(a) => Ok(ActionBlock(a))
    case TableNode(t) => Ok(TableBlock(t))
    case CondNodeOf(n) => Ok(CondBlock(n))
  }
}

=== FILE: cases.dfy ===
/** How the parser generator reads one parse state's branching: the number
    of next-state signal sources (`numNextState`), the select functions
    (`serializeSelect`), the classification of branch cases into case-table
    arms (`serializeCases`), and the first-valid-wins arbitration between
    next-state signals. The Bluespec text around them is not modelled; an arm
    or select function stands for the text emitted for it.
 */
module Cases {
  import opened Outcomes
  import opened Hlir
  import opened Text
  import Names

  // ----- numNextState -----

  /** The number of cases of `cases` that lead to a parse state. */
  function CountStateTargets(cases: seq<Case>): (n: nat)
    ensures n <= |cases|
    decreases |cases|
  {
    if |cases| == 0 then 0
    else
      var last := if cases[|cases| - 1].target.StateTarget? then 1 else 0;
      CountStateTargets(cases[..|cases| - 1]) + last
  }

  /** The positions of the cases that lead to a parse state. */
  ghost function StateTargetPositions(cases: seq<Case>): set<nat>
  {
    set i: nat | i < |cases| && cases[i].target.StateTarget?
  }

  lemma {:induction false} CountStateTargetsIsCardinality(cases: seq<Case>)
    ensures CountStateTargets(cases) == |StateTargetPositions(cases)|
    decreases |cases|
  {
    if |cases| > 0 {
      var n := |cases| - 1;
      var init := cases[..n];
      CountStateTargetsIsCardinality(init);
      var before := StateTargetPositions(init);
      if cases[n].target.StateTarget? {
        assert StateTargetPositions(cases) == before + {n};
        assert n !in before;
      } else {
        assert StateTargetPositions(cases) == before;
      }
    }
  }

  /** `numNextState`: one next-state signal source for the state itself plus
      one per case leading to a parse state. */
  function NumNextState(st: ParseState): (n: nat)
    ensures 1 <= n <= |st.branchTo| + 1
    ensures n == 1 + |StateTargetPositions(st.branchTo)|
  {
    CountStateTargetsIsCardinality(st.branchTo);
    1 + CountStateTargets(st.branchTo)
  }

  // ----- serializeSelect -----

  /** One `compute_next_state(Bit#(width) matchField)` function header. */
  datatype SelectFunction = SelectFunction(matchField: string, width: nat)

  /** The summed widths of a run of `branch_on` fields. */
  function FieldWidthSum(elems: seq<BranchOn>): nat
    requires forall i :: 0 <= i < |elems| ==> elems[i].FieldRef?
  {
    if |elems| == 0 then 0
    else FieldWidthSum(elems[..|elems| - 1]) + elems[|elems| - 1].field.width
  }

  /** `serializeSelect`: one select function per `branch_on` field, each
      typed with the running total of the widths so far; a `current(...)`
      element (a tuple) aborts. */
  function SerializeSelect(branchOn: seq<BranchOn>): (r: Result<seq<SelectFunction>>)
    ensures r.Ok? <==> forall i :: 0 <= i < |branchOn| ==> branchOn[i].FieldRef?
    ensures r.Ok? ==> |r.value| == |branchOn|
    ensures r.Ok? ==> forall i :: 0 <= i < |branchOn| ==>
      r.value[i].matchField == branchOn[i].field.name
      && r.value[i].width == FieldWidthSum(branchOn[..i + 1])
  {
    SelectFrom(branchOn, 0, 0)
  }

  function SelectFrom(branchOn: seq<BranchOn>, i: nat, totalWidth: nat): (r: Result<seq<SelectFunction>>)
    requires i <= |branchOn|
    requires forall k :: 0 <= k < i ==> branchOn[k].FieldRef?
    requires totalWidth == FieldWidthSum(branchOn[..i])
    ensures r.Ok? <==> forall k :: i <= k < |branchOn| ==> branchOn[k].FieldRef?
    ensures r.Ok? ==> |r.value| == |branchOn| - i
    ensures r.Ok? ==> forall k :: i <= k < |branchOn| ==>
      r.value[k - i].matchField == branchOn[k].field.name
      && r.value[k - i].width == FieldWidthSum(branchOn[..k + 1])
    decreases |branchOn| - i
  {
    if i == |branchOn| then Ok([])
    else
      match branchOn[i]
      case Current(_, _) => Err(UnsupportedConstruct("Unexpected element in match tuple"))
      case FieldRef(f) =>
        var total := totalWidth + f.width;
        assert branchOn[..i + 1][..i] == branchOn[..i];
        assert FieldWidthSum(branchOn[..i + 1]) == total;
        var rest :- SelectFrom(branchOn, i + 1, total);
        SelectCons(branchOn, i, SelectFunction(f.name, total), rest);
        Ok([SelectFunction(f.name, total)] + rest)
  }

  /** Putting the function for element `i` in front of those for the later
      elements keeps every function aligned with its element. */
  lemma SelectCons(branchOn: seq<BranchOn>, i: nat, head: SelectFunction, rest: seq<SelectFunction>)
    requires i < |branchOn| && forall k :: 0 <= k < |branchOn| ==> branchOn[k].FieldRef?
    requires head.matchField == branchOn[i].field.name && head.width == FieldWidthSum(branchOn[..i + 1])
    requires |rest| == |branchOn| - (i + 1)
    requires forall k :: i + 1 <= k < |branchOn| ==>
      rest[k - (i + 1)].matchField == branchOn[k].field.name
      && rest[k - (i + 1)].width == FieldWidthSum(branchOn[..k + 1])
    ensures forall k :: i <= k < |branchOn| ==>
      ([head] + rest)[k - i].matchField == branchOn[k].field.name
      && ([head] + rest)[k - i].width == FieldWidthSum(branchOn[..k + 1])
  {
    forall k | i <= k < |branchOn|
      ensures ([head] + rest)[k - i].matchField == branchOn[k].field.name
      ensures ([head] + rest)[k - i].width == FieldWidthSum(branchOn[..k + 1])
    {
      if k > i {
        assert ([head] + rest)[k - i] == rest[k - (i + 1)];
      }
    }
  }

  // ----- serializeCases -----

  /** One arm of the generated next-state case table. */
  datatype CaseArm =
    | ValueArm(hex: string, nextState: string)   // `'h<hex>: nextState = <state>`
    | DeclaredDefault                             // the declared `default` arm
    | ImplicitDefault                             // the arm added when none was declared

  predicate IsDefaultArm(a: CaseArm) {
    a.DeclaredDefault? || a.ImplicitDefault?
  }

  /** A case the generator can turn into an arm. A value key is taken only
      when Python 2 holds it as an `int`: a `long` key fails every
      `isinstance` test of the key. */
  predicate Supported(c: Case) {
    && ((c.key.ValueKey? && !IsLong(c.key.value)) || c.key.DefaultKey?)
    && (c.target.StateTarget? || c.target.TableTarget?)
  }

  /** The error an unsupported case raises: the key is looked at first. */
  function CaseError(c: Case): CompileError
  {
    match c.key
    case MaskedKey(_, _) => UnsupportedConstruct("Not yet implemented")
    case ValueSetKey(_) => UnsupportedConstruct("Parser value sets")
    case ValueKey(_) | DefaultKey =>
      if c.key.ValueKey? && IsLong(c.key.value) then UnsupportedConstruct("Unexpected element in match case")
      else if c.target.CondTarget? then UnsupportedConstruct("Conditional node Not yet implemented")
      else UnsupportedConstruct("Exception Not yet implemented")
  }

  /** The arm of one case, or the error it raises. */
  function ArmOf(c: Case): (r: Result<CaseArm>)
    ensures r.Ok? <==> Supported(c)
    ensures r.Err? ==> r.error == CaseError(c)
    ensures r.Ok? && c.key.ValueKey? ==>
      r.value == ValueArm(FormatHex(c.key.value), Names.ToState(c.target.name))
    ensures r.Ok? && c.key.DefaultKey? ==> r.value == DeclaredDefault
  {
    var arm :- match c.key
      case ValueKey(v) =>
        if IsLong(v) then Err(UnsupportedConstruct("Unexpected element in match case"))
        else Ok(ValueArm(FormatHex(v), Names.ToState(c.target.name)))
      case MaskedKey(_, _) => Err(UnsupportedConstruct("Not yet implemented"))
      case ValueSetKey(_) => Err(UnsupportedConstruct("Parser value sets"))
      case DefaultKey => Ok(DeclaredDefault);
    match c.target
    case StateTarget(_) => Ok(arm)
    case TableTarget(_) => Ok(arm)
    case CondTarget(_) => Err(UnsupportedConstruct("Conditional node Not yet implemented"))
    case ExceptionTarget(_) => Err(UnsupportedConstruct("Exception Not yet implemented"))
  }

  /** Distinct integer keys, negative ones included, give distinct case
      labels. */
  lemma ArmLabelsDistinct(c1: Case, c2: Case)
    requires ArmOf(c1).Ok? && ArmOf(c2).Ok? && c1.key.ValueKey? && c2.key.ValueKey?
    requires c1.key.value != c2.key.value
    ensures ArmOf(c1).value.hex != ArmOf(c2).value.hex
  {
    if FormatHex(c1.key.value) == FormatHex(c2.key.value) {
      FormatHexInjective(c1.key.value, c2.key.value);
    }
  }

  /** A negative key is printed with its minus sign. */
  lemma ArmOfNegativeKey(c: Case)
    requires c.key == ValueKey(-5) && c.target.StateTarget?
    ensures ArmOf(c).Ok? && ArmOf(c).value.hex == "-5"
  {
    assert HexDigits(5) == "5";
  }

  /** The arms of `cases` in order; the first unsupported case aborts. */
  function ArmsOf(cases: seq<Case>): (r: Result<seq<CaseArm>>)
    ensures r.Ok? <==> forall i :: 0 <= i < |cases| ==> Supported(cases[i])
    ensures r.Ok? ==> |r.value| == |cases|
    ensures r.Ok? ==> forall i :: 0 <= i < |cases| ==> ArmOf(cases[i]) == Ok(r.value[i])
    ensures r.Err? ==> exists j :: FirstUnsupported(cases, j) && r.error == CaseError(cases[j])
  {
    var r := MapAll(cases, ArmOf);
    if r.Err? then
      var j :| FailsFirstAt(cases, ArmOf, j, r.error);
      assert FirstUnsupported(cases, j);
      r
    else
      r
  }

  /** Case `j` is the first case the generator cannot turn into an arm. */
  predicate FirstUnsupported(cases: seq<Case>, j: int) {
    0 <= j < |cases| && !Supported(cases[j]) && forall i :: 0 <= i < j ==> Supported(cases[i])
  }

  predicate HasDefaultKey(cases: seq<Case>) {
    exists i :: 0 <= i < |cases| && cases[i].key.DefaultKey?
  }

  /** `serializeCases`: the arms of `cases` in order, followed by an implicit
      default arm when no `default` case was declared. An unsupported case
      (tuple or value-set key, conditional-node or exception target) aborts
      with the error of the first such case. */
  function SerializeCases(cases: seq<Case>): (r: Result<seq<CaseArm>>)
    ensures r.Ok? <==> forall i :: 0 <= i < |cases| ==> Supported(cases[i])
    ensures r.Ok? ==> |r.value| == |cases| + (if HasDefaultKey(cases) then 0 else 1)
    ensures r.Ok? ==> forall i :: 0 <= i < |cases| ==> ArmOf(cases[i]) == Ok(r.value[i])
    ensures r.Ok? ==> exists i :: 0 <= i < |r.value| && IsDefaultArm(r.value[i])
    ensures r.Err? ==> exists j :: FirstUnsupported(cases, j) && r.error == CaseError(cases[j])
  {
    var arms :- ArmsOf(cases);
    if HasDefaultKey(cases) then
      ghost var i :| 0 <= i < |cases| && cases[i].key.DefaultKey?;
      assert IsDefaultArm(arms[i]);
      Ok(arms)
    else
      var r := arms + [ImplicitDefault];
      assert IsDefaultArm(r[|arms|]);
      Ok(r)
  }

  /** With at most one `default` case (branch_to is a dictionary), the case
      table has exactly one default arm, and it is the last arm unless a
      `default` case was declared. */
  lemma {:induction false} ExactlyOneDefaultArm(cases: seq<Case>)
    requires SerializeCases(cases).Ok?
    requires forall i, j :: 0 <= i < j < |cases| && cases[i].key.DefaultKey? ==> !cases[j].key.DefaultKey?
    ensures var arms := SerializeCases(cases).value;
      && (forall i, j :: 0 <= i < j < |arms| && IsDefaultArm(arms[i]) ==> !IsDefaultArm(arms[j]))
      && (!HasDefaultKey(cases) ==> arms[|arms| - 1] == ImplicitDefault)
  {
    var arms := SerializeCases(cases).value;
    forall i | 0 <= i < |cases|
      ensures IsDefaultArm(arms[i]) <==> cases[i].key.DefaultKey?
    {
      assert ArmOf(cases[i]) == Ok(arms[i]);
    }
  }

  // ----- next-state arbitration -----

  /** Port `i`, below `bound`, is the first port carrying a valid signal. */
  predicate FirstValid(wires: seq<Option<string>>, i: int, bound: int) {
    0 <= i < bound <= |wires| && wires[i].Some? && forall j :: 0 <= j < i ==> wires[j].None?
  }

  /** The arbitration rule of a state module: scan the next-state signal
      sources in port order and commit to the first valid one; `None` leaves
      the state unchanged. */
  method Arbitrate(wires: seq<Option<string>>) returns (next: Option<string>)
    ensures next.Some? <==> exists i :: 0 <= i < |wires| && wires[i].Some?
    ensures next.Some? ==> exists i :: FirstValid(wires, i, |wires|) && wires[i] == next
  {
    var stateSet := false;
    next := None;
    var port := 0;
    while port < |wires|
      invariant 0 <= port <= |wires|
      invariant stateSet <==> next.Some?
      invariant stateSet <==> exists i :: 0 <= i < port && wires[i].Some?
      invariant next.Some? ==> exists i :: FirstValid(wires, i, port) && wires[i] == next
    {
      var valid := wires[port].Some?;
      if !stateSet && valid {
        stateSet := true;
        next := wires[port];
      }
      port := port + 1;
    }
  }
}

=== FILE: flows.dfy ===
/** The control-flow entries of the BIR and the passes of `MetaIR` that
    fill the block and control-flow dictionaries: `Parser`, `Deparser`,
    `ControlFlow`, `get_start_control_state`, `build_parsers`,
    `build_deparsers` and `build_control_flows`.
 */
module Flows {
  import opened Outcomes
  import opened Hlir
  import opened Text
  import opened OrderedMaps
  import opened Blocks

  /** A control-flow entry; its `start_control_state` is `[[0], [start]]`. */
  datatype ControlFlowEntry = ControlFlowEntry(name: string, start: string)

  // ----- parser and deparser entries -----

  /** The state the `start` state hands over to: the second element of its
      return statement. Only an immediate return names one. */
  function StartTarget(start: ParseState): (r: Result<string>)
    ensures r.Ok? <==> start.returnStatement.Immediate?
    ensures r.Ok? ==> r.value == start.returnStatement.next
  {
    match start.returnStatement
    case Immediate(next) => Ok(next)
    case Select => Err(UnsupportedConstruct("start state returns through a select"))
  }

  /** `Parser(start)` or, with `deparse`, `Deparser(start)`. */
  function StartFlow(start: ParseState, deparse: bool): (r: Result<ControlFlowEntry>)
    ensures r.Ok? <==> StartTarget(start).Ok?
  {
    var next :- StartTarget(start);
    Ok(if deparse then ControlFlowEntry("deparser", "de" + next) else ControlFlowEntry("parser", next))
  }

  /** The deparser entry mirrors the parser entry: it exists for the same
      start states, and starts in the mirrored copy of the same state. */
  lemma DeparserFlowMirrors(start: ParseState)
    ensures StartFlow(start, true).Ok? <==> StartFlow(start, false).Ok?
    ensures StartFlow(start, false).Ok? ==>
      && StartFlow(start, false).value == ControlFlowEntry("parser", start.returnStatement.next)
      && StartFlow(start, true).value == ControlFlowEntry("deparser", "de" + StartFlow(start, false).value.start)
  {
  }

  // ----- build_parsers / build_deparsers -----

  /** The block of a non-start parse state, parser or deparser side. */
  function StateBlock(st: ParseState, headers: seq<HeaderInstance>, deparse: bool): (r: Result<BasicBlock>)
    ensures r.Ok? <==> StateBlockDefined(st, headers)
    ensures r.Ok? ==> r.value.name == BlockName(st, deparse)
  {
    if deparse then
      var b :- DeparserStateBlock(st, headers);
      DeparserMirrorsParser(st, headers);
      Ok(b)
    else ParserStateBlock(st, headers)
  }

  /** The key of a state's block: the state's name, with `de` in front on
      the deparser side. */
  function BlockName(st: ParseState, deparse: bool): string
  {
    if deparse then "de" + st.name else st.name
  }

  /** The key of the `start` state's entry. */
  function FlowName(deparse: bool): string
  {
    if deparse then "deparser" else "parser"
  }

  /** What the pass needs of one state: the `start` state returns
      immediately, any other state has a block. */
  predicate StateDefined(st: ParseState, headers: seq<HeaderInstance>) {
    if st.name == "start" then StartTarget(st).Ok? else StateBlockDefined(st, headers)
  }

  predicate StatesDefined(states: seq<ParseState>, headers: seq<HeaderInstance>) {
    forall i :: 0 <= i < |states| ==> StateDefined(states[i], headers)
  }

  /** The parse states are keyed by name: no name twice. */
  predicate NamesDistinct(states: seq<ParseState>) {
    forall i, j :: 0 <= i < j < |states| ==> states[i].name != states[j].name
  }

  /** What one state contributes: the `start` state an entry of the flow
      dictionary, any other state a block. */
  datatype Step = SetFlow(key: string, entry: ControlFlowEntry) | SetBlock(key: string, block: BasicBlock)

  function StepOf(st: ParseState, headers: seq<HeaderInstance>, deparse: bool): (r: Result<Step>)
    ensures r.Ok? <==> StateDefined(st, headers)
    ensures r.Ok? ==> (r.value.SetBlock? <==> st.name != "start")
    ensures r.Ok? && r.value.SetBlock? ==> r.value.key == BlockName(st, deparse) && Ok(r.value.block) == StateBlock(st, headers, deparse)
    ensures r.Ok? && r.value.SetFlow? ==> r.value.key == FlowName(deparse) && Ok(r.value.entry) == StartFlow(st, deparse)
  {
    if st.name == "start" then
      var e :- StartFlow(st, deparse);
      Ok(SetFlow(FlowName(deparse), e))
    else
      var b :- StateBlock(st, headers, deparse);
      Ok(SetBlock(b.name, b))
  }

  /** The state at `i` is the first one whose step fails, and fails with `e`. */
  predicate StateFailsFirst(states: seq<ParseState>, headers: seq<HeaderInstance>, deparse: bool, i: int, e: CompileError) {
    && 0 <= i < |states| && StepOf(states[i], headers, deparse) == Err(e)
    && forall j :: 0 <= j < i ==> StepOf(states[j], headers, deparse).Ok?
  }

  /** The steps of the states, in order; the first state without one stops
      the pass with its error. */
  function Steps(states: seq<ParseState>, headers: seq<HeaderInstance>, deparse: bool): (r: Result<seq<Step>>)
    ensures r.Ok? <==> forall i :: 0 <= i < |states| ==> StepOf(states[i], headers, deparse).Ok?
    ensures r.Ok? ==> |r.value| == |states|
    ensures r.Ok? ==> forall i :: 0 <= i < |states| ==> Ok(r.value[i]) == StepOf(states[i], headers, deparse)
    ensures r.Err? ==> exists i :: StateFailsFirst(states, headers, deparse, i, r.error)
  {
    var f := st => StepOf(st, headers, deparse);
    var r := MapAll(states, f);
    if r.Err? then
      var i :| FailsFirstAt(states, f, i, r.error);
      assert StateFailsFirst(states, headers, deparse, i, r.error);
      r
    else
      r
  }

  function BlockUpdates(steps: seq<Step>): seq<Option<(string, BasicBlock)>> {
    seq(|steps|, i requires 0 <= i < |steps| => if steps[i].SetBlock? then Some((steps[i].key, steps[i].block)) else None)
  }

  function FlowUpdates(steps: seq<Step>): seq<Option<(string, ControlFlowEntry)>> {
    seq(|steps|, i requires 0 <= i < |steps| => if steps[i].SetFlow? then Some((steps[i].key, steps[i].entry)) else None)
  }

  /** `build_parsers` (or, with `deparse`, `build_deparsers`): in state
      order, the `start` state becomes the `parser` (`deparser`) entry and
      every other state a block keyed by its name (`de` and its name). */
  function BuildStates(states: seq<ParseState>, headers: seq<HeaderInstance>, deparse: bool,
                       blocks: OMap<string, BasicBlock>, flows: OMap<string, ControlFlowEntry>)
    : (r: Result<(OMap<string, BasicBlock>, OMap<string, ControlFlowEntry>)>)
    ensures r.Ok? <==> StatesDefined(states, headers)
    ensures r.Err? ==> exists i :: StateFailsFirst(states, headers, deparse, i, r.error)
  {
    var steps :- Steps(states, headers, deparse);
    Ok((PutAll(blocks, Somes(BlockUpdates(steps))), PutAll(flows, Somes(FlowUpdates(steps)))))
  }

  /** Some state other than `start` has its block under `k`. */
  predicate IsBlockKey(states: seq<ParseState>, deparse: bool, k: string) {
    exists i :: 0 <= i < |states| && states[i].name != "start" && BlockName(states[i], deparse) == k
  }

  /** Distinct states have distinct block keys. */
  lemma BlockNameDistinct(a: ParseState, b: ParseState, deparse: bool)
    requires a.name != b.name
    ensures BlockName(a, deparse) != BlockName(b, deparse)
  {
    if deparse {
      assert ("de" + a.name)[2..] == a.name;
      assert ("de" + b.name)[2..] == b.name;
    }
  }

  /** After the pass, every state other than `start` has its block under
      its own (prefixed) name. */
  lemma BuildStatesBlocks(states: seq<ParseState>, headers: seq<HeaderInstance>, deparse: bool,
                          blocks: OMap<string, BasicBlock>, flows: OMap<string, ControlFlowEntry>)
    requires BuildStates(states, headers, deparse, blocks, flows).Ok?
    requires NamesDistinct(states)
    ensures var bs := BuildStates(states, headers, deparse, blocks, flows).value.0;
      forall i :: 0 <= i < |states| && states[i].name != "start" ==>
        Get(bs, BlockName(states[i], deparse)).Some? &&
        Ok(Get(bs, BlockName(states[i], deparse)).value) == StateBlock(states[i], headers, deparse)
  {
    var us := BlockUpdates(Steps(states, headers, deparse).value);
    forall i | 0 <= i < |states| && states[i].name != "start"
      ensures Get(PutAll(blocks, Somes(us)), BlockName(states[i], deparse)) == Some(StateBlock(states[i], headers, deparse).value)
    {
      BlockUpdateUnique(states, headers, deparse, i);
      PutAllGet(blocks, Somes(us), BlockName(states[i], deparse));
    }
  }

  /** The block of the state at `i` is the only update under its key. */
  lemma BlockUpdateUnique(states: seq<ParseState>, headers: seq<HeaderInstance>, deparse: bool, i: nat)
    requires Steps(states, headers, deparse).Ok?
    requires NamesDistinct(states)
    requires i < |states| && states[i].name != "start"
    ensures StateBlock(states[i], headers, deparse).Ok?
    ensures var us := BlockUpdates(Steps(states, headers, deparse).value);
      LastValue(Somes(us), BlockName(states[i], deparse)) == Some(StateBlock(states[i], headers, deparse).value)
  {
    var steps := Steps(states, headers, deparse).value;
    var us := BlockUpdates(steps);
    assert Ok(steps[i]) == StepOf(states[i], headers, deparse);
    assert us[i] == Some((BlockName(states[i], deparse), StateBlock(states[i], headers, deparse).value));
    forall j | 0 <= j < |us| && j != i && us[j].Some?
      ensures us[j].value.0 != us[i].value.0
    {
      assert Ok(steps[j]) == StepOf(states[j], headers, deparse);
      BlockNameDistinct(states[j], states[i], deparse);
    }
    SomesLastValue(us, i);
  }

  /** The pass leaves every block whose key no state takes as it was. */
  lemma BuildStatesKeepsOthers(states: seq<ParseState>, headers: seq<HeaderInstance>, deparse: bool,
                               blocks: OMap<string, BasicBlock>, flows: OMap<string, ControlFlowEntry>)
    requires BuildStates(states, headers, deparse, blocks, flows).Ok?
    ensures var bs := BuildStates(states, headers, deparse, blocks, flows).value.0;
      forall k :: !IsBlockKey(states, deparse, k) ==> Get(bs, k) == Get(blocks, k)
  {
    var steps := Steps(states, headers, deparse).value;
    var us := BlockUpdates(steps);
    forall j | 0 <= j < |us| && us[j].Some?
      ensures states[j].name != "start" && us[j].value.0 == BlockName(states[j], deparse)
    {
      assert Ok(steps[j]) == StepOf(states[j], headers, deparse);
    }
    forall k | !IsBlockKey(states, deparse, k)
      ensures Get(PutAll(blocks, Somes(us)), k) == Get(blocks, k)
    {
      SomesKeys(us, k);
      PutAllGet(blocks, Somes(us), k);
    }
  }

  /** The pass touches no flow entry but `parser` (`deparser`). */
  lemma BuildStatesFlowsKeepOthers(states: seq<ParseState>, headers: seq<HeaderInstance>, deparse: bool,
                                   blocks: OMap<string, BasicBlock>, flows: OMap<string, ControlFlowEntry>)
    requires BuildStates(states, headers, deparse, blocks, flows).Ok?
    ensures var fs := BuildStates(states, headers, deparse, blocks, flows).value.1;
      forall k :: k != FlowName(deparse) ==> Get(fs, k) == Get(flows, k)
  {
    var steps := Steps(states, headers, deparse).value;
    var us := FlowUpdates(steps);
    forall j | 0 <= j < |us| && us[j].Some?
      ensures us[j].value.0 == FlowName(deparse)
    {
      assert Ok(steps[j]) == StepOf(states[j], headers, deparse);
    }
    forall k | k != FlowName(deparse)
      ensures Get(PutAll(flows, Somes(us)), k) == Get(flows, k)
    {
      SomesKeys(us, k);
      PutAllGet(flows, Somes(us), k);
    }
  }

  /** The `start` state's entry is the `parser` (`deparser`) entry. */
  lemma BuildStatesFlowOfStart(states: seq<ParseState>, headers: seq<HeaderInstance>, deparse: bool,
                               blocks: OMap<string, BasicBlock>, flows: OMap<string, ControlFlowEntry>, i: nat)
    requires BuildStates(states, headers, deparse, blocks, flows).Ok?
    requires NamesDistinct(states)
    requires i < |states| && states[i].name == "start"
    ensures var fs := BuildStates(states, headers, deparse, blocks, flows).value.1;
      Get(fs, FlowName(deparse)).Some? && Ok(Get(fs, FlowName(deparse)).value) == StartFlow(states[i], deparse)
  {
    var us := FlowUpdates(Steps(states, headers, deparse).value);
    assert us[i] == Some((FlowName(deparse), StartFlow(states[i], deparse).value));
    SomesLastValue(us, i);
    PutAllGet(flows, Somes(us), FlowName(deparse));
  }

  /** Without a `start` state the flow dictionary is left as it was. */
  lemma BuildStatesWithoutStart(states: seq<ParseState>, headers: seq<HeaderInstance>, deparse: bool,
                                blocks: OMap<string, BasicBlock>, flows: OMap<string, ControlFlowEntry>)
    requires BuildStates(states, headers, deparse, blocks, flows).Ok?
    requires forall i :: 0 <= i < |states| ==> states[i].name != "start"
    ensures BuildStates(states, headers, deparse, blocks, flows).value.1 == flows
  {
    var steps := Steps(states, headers, deparse).value;
    var us := FlowUpdates(steps);
    forall j | 0 <= j < |us|
      ensures us[j].None?
    {
      assert Ok(steps[j]) == StepOf(states[j], headers, deparse);
    }
    SomesOfNone(us);
  }

  /** The deparser pass succeeds exactly when the parser pass does, and
      then keeps, for every state other than `start`, the mirror of the
      parser block under `de` and the state's name. */
  lemma DeparsersMirrorParsers(states: seq<ParseState>, headers: seq<HeaderInstance>,
                               blocks: OMap<string, BasicBlock>, flows: OMap<string, ControlFlowEntry>,
                               deBlocks: OMap<string, BasicBlock>, deFlows: OMap<string, ControlFlowEntry>)
    requires NamesDistinct(states)
    ensures BuildStates(states, headers, true, deBlocks, deFlows).Ok? <==> BuildStates(states, headers, false, blocks, flows).Ok?
    ensures BuildStates(states, headers, false, blocks, flows).Ok? ==>
      var ps, ds := BuildStates(states, headers, false, blocks, flows).value.0, BuildStates(states, headers, true, deBlocks, deFlows).value.0;
      forall i :: 0 <= i < |states| && states[i].name != "start" ==>
        && Get(ps, states[i].name).Some? && Get(ds, "de" + states[i].name).Some?
        && Get(ds, "de" + states[i].name).value.next == Retarget("de", Get(ps, states[i].name).value.next)
  {
    if BuildStates(states, headers, false, blocks, flows).Ok? {
      BuildStatesBlocks(states, headers, false, blocks, flows);
      BuildStatesBlocks(states, headers, true, deBlocks, deFlows);
      forall i | 0 <= i < |states| && states[i].name != "start"
        ensures StateBlockDefined(states[i], headers)
      {
        assert StateDefined(states[i], headers);
      }
      forall i | 0 <= i < |states| && states[i].name != "start"
        ensures StateBlock(states[i], headers, true).value.next == Retarget("de", StateBlock(states[i], headers, false).value.next)
      {
        DeparserMirrorsParser(states[i], headers);
      }
    }
  }

  // ----- get_start_control_state -----

  /** Scanning the ingress nodes for the condition `c`, the node at `i` is
      the first conditional node guarded by `c`, and no table node comes
      before it. */
  predicate StartsAt(c: Expr, ingress: seq<IngressNode>, i: int) {
    && 0 <= i < |ingress| && ingress[i].IngressCond? && ingress[i].condition.id == c.id
    && forall j :: 0 <= j < i ==> ingress[j].IngressCond? && ingress[j].condition.id != c.id
  }

  /** Some ingress node is the start for the condition `c`. */
  predicate HasStart(c: Expr, ingress: seq<IngressNode>) {
    exists i :: 0 <= i < |ingress| && StartsAt(c, ingress, i)
  }

  /** The start for the condition `c` is the node called `name`. */
  predicate StartNamed(c: Expr, ingress: seq<IngressNode>, name: string) {
    exists i :: 0 <= i < |ingress| && StartsAt(c, ingress, i) && ingress[i].name == name
  }

  /** The scan over `p4_ingress_ptr` from position `k` on: the first
      conditional node guarded by the same condition object is the start;
      a table node reached first is not implemented; running off the end
      leaves the start unresolved. */
  function ScanIngress(c: Expr, ingress: seq<IngressNode>, k: nat): (r: Result<string>)
    requires k <= |ingress|
    requires forall j :: 0 <= j < k ==> ingress[j].IngressCond? && ingress[j].condition.id != c.id
    ensures r.Ok? <==> HasStart(c, ingress)
    ensures r.Ok? ==> StartNamed(c, ingress, r.value)
    decreases |ingress| - k
  {
    if k == |ingress| then Err(UnresolvedEntryPoint("no conditional node guards the first call"))
    else
      match ingress[k]
      case IngressTable(_) =>
        assert forall i :: StartsAt(c, ingress, i) ==> i < k;
        Err(NotImplemented("table node in the ingress call sequence"))
      case IngressCond(name, cond) =>
        if cond.id == c.id then
          assert StartsAt(c, ingress, k);
          Ok(name)
        else ScanIngress(c, ingress, k + 1)
  }

  /** `get_start_control_state`: the first call of the program must be a
      conditional, whose condition is looked up among the ingress nodes. */
  function StartControlState(cp: ControlProgram, ingress: seq<IngressNode>): (r: Result<string>)
    ensures r.Ok? <==> |cp.callSequence| > 0 && cp.callSequence[0].CondCall? && HasStart(cp.callSequence[0].condition, ingress)
    ensures r.Ok? ==> StartNamed(cp.callSequence[0].condition, ingress, r.value)
    ensures |cp.callSequence| > 0 && cp.callSequence[0].TableCall? ==> r == Err(NotImplemented("table as the first call"))
  {
    if |cp.callSequence| == 0 then Err(MalformedGraph("empty call sequence"))
    else
      match cp.callSequence[0]
      case TableCall(_) => Err(NotImplemented("table as the first call"))
      case CondCall(c) => ScanIngress(c, ingress, 0)
  }

  /** At most one ingress node is the start for a condition, so the name
      `get_start_control_state` returns is determined by the condition. */
  lemma StartNamedUnique(c: Expr, ingress: seq<IngressNode>, a: string, b: string)
    requires StartNamed(c, ingress, a) && StartNamed(c, ingress, b)
    ensures a == b
  {
    var i :| 0 <= i < |ingress| && StartsAt(c, ingress, i) && ingress[i].name == a;
    var j :| 0 <= j < |ingress| && StartsAt(c, ingress, j) && ingress[j].name == b;
    assert !(i < j) && !(j < i);
  }

  // ----- build_control_flows -----

  /** `ControlFlow(program, index=i, ...)`: named `ingress_<i>`. */
  function IngressName(index: nat): string
  {
    "ingress_" + NatToDec(index)
  }

  lemma IngressNameInjective(i: nat, j: nat)
    requires IngressName(i) == IngressName(j)
    ensures i == j
  {
    var s := IngressName(i);
    assert NatToDec(i) == s[8..] == NatToDec(j);
    NatToBaseInjective(i, j, 10);
  }

  /** The condition operators `ControlFlow.build` accepts. */
  predicate KnownOperator(op: string) {
    op == "valid" || op == "==" || op == "<="
  }

  /** `ControlFlow.build` on one call: a table passes, and so does a
      conditional whose operator is known; any other operator raises. */
  function WalkCall(call: ControlCall): (r: Result<ControlCall>)
  {
    match call
    case TableCall(_) => Ok(call)
    case CondCall(e) =>
      if KnownOperator(e.op) then Ok(call) else Err(NotImplemented("condition operator " + e.op))
  }

  /** Every conditional of the call sequence has a known operator. */
  predicate CallsWalk(calls: seq<ControlCall>) {
    forall i :: 0 <= i < |calls| && calls[i].CondCall? ==> KnownOperator(calls[i].condition.op)
  }

  /** `ControlFlow.build` over a call sequence: it builds nothing but raises
      at the first conditional whose operator it does not know. */
  function WalkCalls(calls: seq<ControlCall>): (r: Result<seq<ControlCall>>)
    ensures r.Ok? <==> CallsWalk(calls)
    ensures r.Ok? ==> r.value == calls
    ensures r.Err? ==> exists i :: FailsFirstAt(calls, WalkCall, i, r.error)
  {
    var r := MapAll(calls, WalkCall);
    assert r.Ok? <==> CallsWalk(calls) by {
      assert forall i :: 0 <= i < |calls| ==> (WalkCall(calls[i]).Ok? <==>
        (calls[i].CondCall? ==> KnownOperator(calls[i].condition.op)));
    }
    if r.Ok? then
      assert forall i :: 0 <= i < |calls| ==> r.value[i] == calls[i] by {
        assert forall i :: 0 <= i < |calls| ==> Ok(r.value[i]) == WalkCall(calls[i]);
      }
      r
    else r
  }

  /** `ControlFlow(program, index=i, start_control_state=s)`: the entry of
      the `index`-th program, which starts at the block of its start node.
      The start is looked up first; the walk of the call sequence comes
      after it. */
  function IngressFlow(cp: ControlProgram, index: nat, ingress: seq<IngressNode>): (r: Result<ControlFlowEntry>)
    ensures r.Ok? <==> StartControlState(cp, ingress).Ok? && CallsWalk(cp.callSequence)
    ensures StartControlState(cp, ingress).Err? ==> r == Err(StartControlState(cp, ingress).error)
    ensures r.Ok? ==> r.value.name == IngressName(index)
    ensures r.Ok? ==> |r.value.start| >= 3 && r.value.start[..3] == "bb_"
                      && StartNamed(cp.callSequence[0].condition, ingress, r.value.start[3..])
  {
    var start :- StartControlState(cp, ingress);
    var _ :- WalkCalls(cp.callSequence);
    assert ("bb_" + start)[3..] == start;
    Ok(ControlFlowEntry(IngressName(index), "bb_" + start))
  }

  /** `build_control_flows`: the programs, in order, each under its own
      `ingress_<i>`; the first program whose start cannot be resolved fails. */
  function BuildControlFlows(controls: seq<ControlProgram>, ingress: seq<IngressNode>,
                             flows: OMap<string, ControlFlowEntry>): (r: Result<OMap<string, ControlFlowEntry>>)
    ensures r.Ok? ==> forall i :: 0 <= i < |controls| ==> IngressFlow(controls[i], i, ingress).Ok?
    decreases |controls|
  {
    if |controls| == 0 then Ok(flows)
    else
      assert forall i :: 0 <= i < |controls| - 1 ==> controls[..|controls| - 1][i] == controls[i];
      var acc :- BuildControlFlows(controls[..|controls| - 1], ingress, flows);
      var e :- IngressFlow(controls[|controls| - 1], |controls| - 1, ingress);
      Ok(Put(acc, IngressName(|controls| - 1), e))
  }

  /** Every program's first call resolves to a start node, and every
      conditional of every program has an operator `ControlFlow.build`
      knows. */
  predicate ProgramsBuild(controls: seq<ControlProgram>, ingress: seq<IngressNode>) {
    forall i :: 0 <= i < |controls| ==>
      StartControlState(controls[i], ingress).Ok? && CallsWalk(controls[i].callSequence)
  }

  lemma ProgramsBuildSnoc(controls: seq<ControlProgram>, ingress: seq<IngressNode>)
    requires |controls| > 0
    ensures var last := controls[|controls| - 1];
      ProgramsBuild(controls, ingress) <==>
        && ProgramsBuild(controls[..|controls| - 1], ingress)
        && StartControlState(last, ingress).Ok? && CallsWalk(last.callSequence)
  {
    assert forall i :: 0 <= i < |controls| - 1 ==> controls[..|controls| - 1][i] == controls[i];
  }

  /** The pass succeeds exactly when every program's start resolves and
      every program's conditions use known operators. */
  lemma {:induction false} BuildControlFlowsOk(controls: seq<ControlProgram>, ingress: seq<IngressNode>,
                                              flows: OMap<string, ControlFlowEntry>)
    ensures BuildControlFlows(controls, ingress, flows).Ok? <==> ProgramsBuild(controls, ingress)
    decreases |controls|
  {
    if |controls| > 0 {
      BuildControlFlowsOk(controls[..|controls| - 1], ingress, flows);
      ProgramsBuildSnoc(controls, ingress);
    }
  }

  /** One program more adds its entry on top of the others'. */
  lemma BuildControlFlowsStep(controls: seq<ControlProgram>, ingress: seq<IngressNode>,
                              flows: OMap<string, ControlFlowEntry>)
    requires |controls| > 0
    requires BuildControlFlows(controls, ingress, flows).Ok?
    ensures BuildControlFlows(controls[..|controls| - 1], ingress, flows).Ok?
    ensures IngressFlow(controls[|controls| - 1], |controls| - 1, ingress).Ok?
    ensures BuildControlFlows(controls, ingress, flows).value ==
      Put(BuildControlFlows(controls[..|controls| - 1], ingress, flows).value, IngressName(|controls| - 1),
          IngressFlow(controls[|controls| - 1], |controls| - 1, ingress).value)
  {
  }

  /** Program `i` has its entry under `ingress_<i>`, the entry
      `IngressFlow` makes of it; every key that is not an `ingress_<i>` of
      a program keeps its entry. */
  lemma {:induction false} BuildControlFlowsCharacterised(controls: seq<ControlProgram>, ingress: seq<IngressNode>,
                                                         flows: OMap<string, ControlFlowEntry>)
    requires BuildControlFlows(controls, ingress, flows).Ok?
    ensures var fs := BuildControlFlows(controls, ingress, flows).value;
      && (forall i :: 0 <= i < |controls| ==>
            Get(fs, IngressName(i)).Some? && Ok(Get(fs, IngressName(i)).value) == IngressFlow(controls[i], i, ingress))
      && (forall k :: (forall i :: 0 <= i < |controls| ==> k != IngressName(i)) ==> Get(fs, k) == Get(flows, k))
    decreases |controls|
  {
    if |controls| > 0 {
      var last := |controls| - 1;
      BuildControlFlowsStep(controls, ingress, flows);
      BuildControlFlowsCharacterised(controls[..last], ingress, flows);
      var fs := BuildControlFlows(controls, ingress, flows).value;
      var prev := BuildControlFlows(controls[..last], ingress, flows).value;
      var e := IngressFlow(controls[last], last, ingress).value;
      assert fs == Put(prev, IngressName(last), e);
      PutLeavesEarlierIngress(prev, last, e);
      forall i | 0 <= i < |controls|
        ensures Get(fs, IngressName(i)).Some?
        ensures Ok(Get(fs, IngressName(i)).value) == IngressFlow(controls[i], i, ingress)
      {
        if i < last {
          assert controls[..last][i] == controls[i];
          assert Get(fs, IngressName(i)) == Get(prev, IngressName(i));
        } else {
          assert i == last;
          assert Get(fs, IngressName(last)) == Some(e);
        }
      }
      forall k | forall i :: 0 <= i < |controls| ==> k != IngressName(i)
        ensures Get(fs, k) == Get(flows, k)
      {
        assert k != IngressName(last);
      }
    }
  }

  /** Adding the entry of program `n` leaves those of programs before it. */
  lemma PutLeavesEarlierIngress(m: OMap<string, ControlFlowEntry>, n: nat, e: ControlFlowEntry)
    ensures forall i :: 0 <= i < n ==> Get(Put(m, IngressName(n), e), IngressName(i)) == Get(m, IngressName(i))
  {
    forall i | 0 <= i < n
      ensures IngressName(i) != IngressName(n)
    {
      if IngressName(i) == IngressName(n) {
        IngressNameInjective(i, n);
      }
    }
  }

  // ----- examples -----

  /** A program whose first call is the condition of the second ingress
      node starts at that node's block. */
  lemma ExampleIngressStart()
    ensures var c := Expr(7, "valid", NoOperand, RefOperand("ipv4"));
      var ingress := [IngressCond("node_2", Expr(3, "==", RefOperand("ipv4.ttl"), IntOperand(0))), IngressCond("node_5", c)];
      BuildControlFlows([ControlProgram("ingress", [CondCall(c), TableCall("fwd")])], ingress, [])
        == Ok([("ingress_0", ControlFlowEntry("ingress_0", "bb_node_5"))])
  {
    var c := Expr(7, "valid", NoOperand, RefOperand("ipv4"));
    var ingress := [IngressCond("node_2", Expr(3, "==", RefOperand("ipv4.ttl"), IntOperand(0))), IngressCond("node_5", c)];
    var cp := ControlProgram("ingress", [CondCall(c), TableCall("fwd")]);
    var e := ControlFlowEntry("ingress_0", "bb_node_5");
    ExampleIngressFlow(c, ingress, cp);
    assert [cp][..0] == [];
    assert BuildControlFlows([], ingress, []) == Ok([]);
    assert Put([], "ingress_0", e) == [("ingress_0", e)];
  }

  lemma ExampleIngressFlow(c: Expr, ingress: seq<IngressNode>, cp: ControlProgram)
    requires c == Expr(7, "valid", NoOperand, RefOperand("ipv4"))
    requires ingress == [IngressCond("node_2", Expr(3, "==", RefOperand("ipv4.ttl"), IntOperand(0))), IngressCond("node_5", c)]
    requires cp == ControlProgram("ingress", [CondCall(c), TableCall("fwd")])
    ensures IngressName(0) == "ingress_0"
    ensures IngressFlow(cp, 0, ingress) == Ok(ControlFlowEntry("ingress_0", "bb_node_5"))
  {
    assert NatToBase(0, 10) == [HexAlphabet[0]];
    assert IngressName(0) == "ingress_0";
    assert ScanIngress(c, ingress, 1) == Ok("node_5");
    assert ScanIngress(c, ingress, 0) == Ok("node_5");
    assert StartControlState(cp, ingress) == Ok("node_5");
    assert KnownOperator(c.op);
    assert CallsWalk(cp.callSequence);
    assert "bb_" + "node_5" == "bb_node_5";
  }

  /** A program whose start resolves still fails when one of its
      conditions uses an operator `ControlFlow.build` does not know. */
  lemma ExampleUnknownOperator()
    ensures var c := Expr(7, "!=", RefOperand("ipv4.ttl"), IntOperand(0));
      IngressFlow(ControlProgram("ingress", [CondCall(c)]), 0, [IngressCond("node_5", c)]).Err?
  {
    var c := Expr(7, "!=", RefOperand("ipv4.ttl"), IntOperand(0));
    var cp := ControlProgram("ingress", [CondCall(c)]);
    assert StartControlState(cp, [IngressCond("node_5", c)]) == Ok("node_5");
    assert !KnownOperator(c.op);
    assert !CallsWalk(cp.callSequence);
  }

  /** A table node met before the matching conditional is not implemented,
      even when the conditional comes later. */
  lemma ExampleTableBeforeCondition()
    ensures var c := Expr(7, "valid", NoOperand, RefOperand("ipv4"));
      StartControlState(ControlProgram("ingress", [CondCall(c)]), [IngressTable("fwd"), IngressCond("node_5", c)]).Err?
  {
  }
}

=== FILE: hlir.dfy ===
/** The front-end program graph (HLIR) the compiler reads: header instances,
    match-action tables, parse states, conditional nodes and control-flow
    programs. It is built elsewhere and only read here; object references of
    the original graph are names here, and the lookups that may fail are
    explicit.
 */
module Hlir {
  import opened Outcomes

  /** A header field: its name and width in bits. */
  datatype Field = Field(name: string, width: nat)

  /** A header instance with the name and byte length of its header type. */
  datatype HeaderInstance = HeaderInstance(
    name: string,
    fields: seq<Field>,
    metadata: bool,
    typeName: string,
    typeLength: nat)

  /** The match kinds a table field may carry. */
  datatype MatchKind = MatchExact | MatchTernary | MatchLpm | MatchValid | MatchRange

  datatype MatchField = MatchField(field: Field, kind: MatchKind)

  /** The summed widths of a run of header fields. */
  function FieldsWidth(fields: seq<Field>): nat
  {
    if |fields| == 0 then 0 else FieldsWidth(fields[..|fields| - 1]) + fields[|fields| - 1].width
  }

  /** An action and the widths of its signature's parameters. */
  datatype Action = Action(name: string, signatureWidths: seq<nat>)

  datatype Table = Table(
    name: string,
    minSize: nat,
    matchFields: seq<MatchField>,
    actions: seq<Action>)

  /** One element of a parse state's `branch_on` list: a header field, or a
      `current(offset, width)` look-ahead, which the graph holds as a tuple. */
  datatype BranchOn = FieldRef(field: Field) | Current(offset: nat, width: nat)

  /** A key of a parse state's `branch_to` map. */
  datatype CaseKey =
    | ValueKey(value: int)               // an integer literal
    | DefaultKey                         // the `default` keyword
    | MaskedKey(value: int, mask: int)   // a `value mask m` pair, held as a tuple
    | ValueSetKey(setName: string)       // a parser value set

  /** What a case leads to. */
  datatype Target =
    | StateTarget(name: string)
    | TableTarget(name: string)
    | CondTarget(name: string)
    | ExceptionTarget(name: string)

  datatype Case = Case(key: CaseKey, target: Target)

  /** One statement of a parse state's call sequence. */
  datatype CallItem = Extract(header: string) | SetMetadata(dst: string, value: int)

  /** The parse state's return statement. */
  datatype ReturnStatement = Immediate(next: string) | Select

  datatype ParseState = ParseState(
    name: string,
    callSequence: seq<CallItem>,
    branchOn: seq<BranchOn>,
    branchTo: seq<Case>,
    returnStatement: ReturnStatement)

  /** The header instance extracted last in the state, if any. */
  function LatestExtraction(st: ParseState): (r: Option<string>)
    ensures r.Some? <==> exists i :: 0 <= i < |st.callSequence| && st.callSequence[i].Extract?
    ensures r.Some? ==> exists i :: 0 <= i < |st.callSequence| && st.callSequence[i] == Extract(r.value)
  {
    LatestExtractionOf(st.callSequence)
  }

  function LatestExtractionOf(calls: seq<CallItem>): (r: Option<string>)
    ensures r.Some? <==> exists i :: 0 <= i < |calls| && calls[i].Extract?
    ensures r.Some? ==> exists i :: 0 <= i < |calls| && calls[i] == Extract(r.value)
    decreases |calls|
  {
    if |calls| == 0 then None
    else if calls[|calls| - 1].Extract? then Some(calls[|calls| - 1].header)
    else
      var r := LatestExtractionOf(calls[..|calls| - 1]);
      assert forall i :: 0 <= i < |calls| - 1 ==> calls[..|calls| - 1][i] == calls[i];
      r
  }

  /** The fields of a `branch_on` list; a `current(...)` element has no
      name, and asking for it fails. */
  function BranchOnFields(branchOn: seq<BranchOn>): (r: Result<seq<Field>>)
    ensures r.Ok? <==> forall k :: 0 <= k < |branchOn| ==> branchOn[k].FieldRef?
    ensures r.Ok? ==> |r.value| == |branchOn| && forall k :: 0 <= k < |branchOn| ==> r.value[k] == branchOn[k].field
    decreases |branchOn|
  {
    if |branchOn| == 0 then Ok([])
    else
      var last := |branchOn| - 1;
      assert forall k :: 0 <= k < last ==> branchOn[..last][k] == branchOn[k];
      var init :- BranchOnFields(branchOn[..last]);
      match branchOn[last]
      case Current(_, _) => Err(MalformedGraph("current() in branch_on has no name"))
      case FieldRef(f) => Ok(init + [f])
  }

  /** An operand of a condition expression. */
  datatype Operand = NoOperand | IntOperand(i: int) | RefOperand(path: string)

  /** A condition expression; `id` stands for the object's identity, which
      is what the compiler compares conditions by. */
  datatype Expr = Expr(id: nat, op: string, left: Operand, right: Operand)

  /** A conditional node; `next` lists the (truth value, successor) pairs of
      its `next_` map in the map's iteration order. */
  datatype CondNode = CondNode(name: string, condition: Expr, next: seq<(bool, Option<string>)>)

  /** One element of a control-flow program's call sequence: a conditional
      (held as a tuple whose first element is the condition) or a table. */
  datatype ControlCall = CondCall(condition: Expr) | TableCall(table: string)

  datatype ControlProgram = ControlProgram(name: string, callSequence: seq<ControlCall>)

  /** An entry node of the ingress pipeline. */
  datatype IngressNode = IngressCond(name: string, condition: Expr) | IngressTable(name: string)

  /** The whole graph; every sequence is in declaration order. */
  datatype Program = Program(
    headers: seq<HeaderInstance>,
    tables: seq<Table>,
    states: seq<ParseState>,
    conds: seq<CondNode>,
    controls: seq<ControlProgram>,
    ingress: seq<IngressNode>)

  /** `hlir.p4_header_instances[name]`. */
  function FindHeader(headers: seq<HeaderInstance>, name: string): (r: Option<HeaderInstance>)
    ensures r.Some? ==> r.value in headers && r.value.name == name
    ensures r.None? ==> forall h :: h in headers ==> h.name != name
  {
    if |headers| == 0 then None
    else if headers[0].name == name then Some(headers[0])
    else FindHeader(headers[1..], name)
  }

  /** The parse-state graph keyed by state name, as the traversal sees it. */
  type Graph = map<string, ParseState>

  /** Every key names its own state and every parse-state target is a state
      of the graph (the original holds the target objects themselves). */
  ghost predicate WellFormed(g: Graph) {
    && (forall n :: n in g ==> g[n].name == n)
    && (forall n, i :: n in g && 0 <= i < |g[n].branchTo| && g[n].branchTo[i].target.StateTarget?
          ==> g[n].branchTo[i].target.name in g)
  }
}

=== FILE: names.dfy ===
/** The naming helpers of the parser generator: `convert` (CamelCase to
    snake_case), `camelCase`, `CamelCase` and `toState`.

    They work on ASCII with Python 2 semantics. `convert` applies two regular
    expression substitutions, modelled here as left-to-right scans that
    rewrite each leftmost non-overlapping match.
 */
module Names {
  import opened Text
  import opened Outcomes

  // ----- str.title() -----

  /** Python's `str.title()` continuing after a character that was (or was
      not) cased: a letter is upper-cased when it starts a run of letters
      and lower-cased otherwise; other characters are kept. */
  function TitleFrom(s: string, prevCased: bool): string
    decreases |s|
  {
    if |s| == 0 then []
    else
      var c := s[0];
      [if IsAlpha(c) then (if prevCased then ToLower(c) else ToUpper(c)) else c]
        + TitleFrom(s[1..], IsAlpha(c))
  }

  /** What title-casing means: only letter case changes, and a letter is
      upper-case exactly when it starts a run of letters. */
  lemma {:induction false} TitleFromCharacterised(s: string, prevCased: bool)
    ensures var r := TitleFrom(s, prevCased);
      && |r| == |s|
      && (forall i :: 0 <= i < |s| ==> ToLower(r[i]) == ToLower(s[i]))
      && (forall i :: 0 <= i < |s| && !IsAlpha(s[i]) ==> r[i] == s[i])
      && (forall i :: 0 <= i < |s| && IsAlpha(s[i]) ==>
            (IsUpper(r[i]) <==> (if i == 0 then !prevCased else !IsAlpha(s[i - 1]))))
    decreases |s|
  {
    if |s| > 0 {
      TitleFromCharacterised(s[1..], IsAlpha(s[0]));
      assert forall i :: 1 <= i < |s| ==> s[1..][i - 1] == s[i];
    }
  }

  function Title(s: string): string
  {
    TitleFrom(s, false)
  }

  /** Two strings equal up to letter case keep the same alphanumerics, equal
      up to letter case. */
  lemma {:induction false} AlnumsOfCaseVariant(a: string, b: string)
    requires |a| == |b|
    requires forall i :: 0 <= i < |a| ==> ToLower(a[i]) == ToLower(b[i])
    ensures Lower(Alnums(a)) == Lower(Alnums(b))
    decreases |a|
  {
    if |a| > 0 {
      assert IsAlnum(a[0]) == IsAlnum(b[0]) by {
        assert IsAlnum(ToLower(a[0])) == IsAlnum(a[0]);
        assert IsAlnum(ToLower(b[0])) == IsAlnum(b[0]);
      }
      AlnumsOfCaseVariant(a[1..], b[1..]);
      if IsAlnum(a[0]) {
        LowerOfConcat([a[0]], Alnums(a[1..]));
        LowerOfConcat([b[0]], Alnums(b[1..]));
      }
    }
  }

  /** The capitalisation `CamelCase` performs, stated in one pass over `s`:
      every character that is not a letter or digit is dropped, a letter is
      upper-cased when it starts a run of letters in `s` (the character
      before it, dropped or kept, is no letter; `prevAlpha` stands for the
      one before `s`) and lower-cased otherwise, and digits are kept. */
  function Capitalised(s: string, prevAlpha: bool): string
    decreases |s|
  {
    if |s| == 0 then []
    else
      var c := s[0];
      (if !IsAlnum(c) then []
       else if IsAlpha(c) then [if prevAlpha then ToLower(c) else ToUpper(c)]
       else [c])
      + Capitalised(s[1..], IsAlpha(c))
  }

  /** Title-casing and then keeping the alphanumerics is `Capitalised`. */
  lemma {:induction false} AlnumsOfTitle(s: string, prevCased: bool)
    ensures Alnums(TitleFrom(s, prevCased)) == Capitalised(s, prevCased)
    decreases |s|
  {
    if |s| > 0 {
      var t := TitleFrom(s, prevCased);
      assert t[1..] == TitleFrom(s[1..], IsAlpha(s[0]));
      assert IsAlnum(t[0]) == IsAlnum(s[0]);
      AlnumsOfTitle(s[1..], IsAlpha(s[0]));
    }
  }

  // ----- CamelCase, camelCase, toState -----

  /** `CamelCase(st)`: title-case `st` and keep only its alphanumerics. The
      result is `Capitalised(st, false)`: the alphanumerics of `st`, a letter
      upper-case exactly when it starts a run of letters in `st`. */
  function CamelCase(st: string): (r: string)
    ensures r == Capitalised(st, false)
    ensures |r| == |Alnums(st)|
    ensures forall i :: 0 <= i < |r| ==> IsAlnum(r[i])
    ensures Lower(r) == Lower(Alnums(st))
  {
    TitleFromCharacterised(st, false);
    AlnumsOfCaseVariant(Title(st), st);
    AlnumsOfTitle(st, false);
    var r := Alnums(Title(st));
    assert |Lower(r)| == |Lower(Alnums(st))|;
    r
  }

  /** `camelCase(st)`: `CamelCase(st)` with its first character lower-cased.
      Python indexes `output[0]`, so a name without alphanumerics fails. */
  function LowerCamelCase(st: string): (r: Result<string>)
    ensures r.Ok? <==> |Alnums(st)| > 0
    ensures r.Ok? ==> |r.value| == |Alnums(st)| && Lower(r.value) == Lower(Alnums(st))
    ensures r.Ok? ==> r.value[0] == ToLower(CamelCase(st)[0]) && r.value[1..] == CamelCase(st)[1..]
    ensures r.Ok? ==> !IsUpper(r.value[0])
  {
    var output := CamelCase(st);
    if |output| == 0 then Err(MalformedGraph("camelCase of a name without alphanumerics"))
    else
      var r := [ToLower(output[0])] + output[1..];
      assert Lower(r) == Lower(output) by {
        assert forall i :: 0 <= i < |r| ==> Lower(r)[i] == Lower(output)[i];
      }
      assert r[1..] == output[1..];
      Ok(r)
  }

  const StatePrefix: string := "State"

  /** `toState(st)`: the name of the hardware state of parse state `st`. */
  function ToState(st: string): (r: string)
    ensures |r| >= |StatePrefix| && r[..|StatePrefix|] == StatePrefix
    ensures r[|StatePrefix|..] == CamelCase(st)
    ensures Lower(r[|StatePrefix|..]) == Lower(Alnums(st))
    ensures forall i :: 0 <= i < |r| ==> IsAlnum(r[i])
  {
    var r := StatePrefix + CamelCase(st);
    assert r[|StatePrefix|..] == CamelCase(st);
    r
  }

  lemma CamelCaseOfParseIp()
    ensures CamelCase("parse_ip") == "ParseIp"
  {
    TitleOfParseIp();
    AlnumsOfParseIp();
  }

  /** The title-cased tail `e_ip` inside a word. */
  lemma TitleOfIp()
    ensures TitleFrom("e_ip", true) == "e_Ip"
  {
    assert TitleFrom("p", true) == "p" by { assert "p"[1..] == ""; }
    assert TitleFrom("ip", false) == "Ip" by { assert "ip"[1..] == "p"; }
    assert TitleFrom("_ip", true) == "_Ip" by { assert "_ip"[1..] == "ip"; }
    assert TitleFrom("e_ip", true) == "e_Ip" by { assert "e_ip"[1..] == "_ip"; }
  }

  lemma TitleOfRseIp()
    ensures TitleFrom("rse_ip", true) == "rse_Ip"
  {
    TitleOfIp();
    assert TitleFrom("se_ip", true) == "se_Ip" by { assert "se_ip"[1..] == "e_ip"; }
    assert TitleFrom("rse_ip", true) == "rse_Ip" by {
      assert "rse_ip"[1..] == "se_ip";
      assert TitleFrom("rse_ip", true) == "r" + TitleFrom("se_ip", true);
    }
  }

  lemma TitleOfParseIp()
    ensures Title("parse_ip") == "Parse_Ip"
  {
    TitleOfRseIp();
    assert TitleFrom("arse_ip", true) == "arse_Ip" by { assert "arse_ip"[1..] == "rse_ip"; }
    assert TitleFrom("parse_ip", false) == "Parse_Ip" by { assert "parse_ip"[1..] == "arse_ip"; }
  }

  /** The alphanumerics of the tail `e_Ip`. */
  lemma AlnumsOfSuffixIp()
    ensures Alnums("e_Ip") == "eIp"
  {
    assert Alnums("p") == "p" by { assert "p"[1..] == ""; }
    assert Alnums("Ip") == "Ip" by { assert "Ip"[1..] == "p"; }
    assert Alnums("_Ip") == "Ip" by { assert "_Ip"[1..] == "Ip"; }
    assert Alnums("e_Ip") == "eIp" by { assert "e_Ip"[1..] == "_Ip"; }
  }

  lemma AlnumsOfRseIp()
    ensures Alnums("rse_Ip") == "rseIp"
  {
    AlnumsOfSuffixIp();
    assert Alnums("se_Ip") == "seIp" by { assert "se_Ip"[1..] == "e_Ip"; }
    assert Alnums("rse_Ip") == "rseIp" by { assert "rse_Ip"[1..] == "se_Ip"; }
  }

  lemma AlnumsOfParseIp()
    ensures Alnums("Parse_Ip") == "ParseIp"
  {
    AlnumsOfRseIp();
    assert Alnums("arse_Ip") == "arseIp" by { assert "arse_Ip"[1..] == "rse_Ip"; }
    assert Alnums("Parse_Ip") == "ParseIp" by { assert "Parse_Ip"[1..] == "arse_Ip"; }
  }

  lemma TitleOfStart()
    ensures Title("start") == "Start"
  {
    assert TitleFrom("t", true) == "t" by { assert "t"[1..] == ""; }
    assert TitleFrom("rt", true) == "rt" by { assert "rt"[1..] == "t"; }
    assert TitleFrom("art", true) == "art" by { assert "art"[1..] == "rt"; }
    assert TitleFrom("tart", true) == "tart" by { assert "tart"[1..] == "art"; }
    assert TitleFrom("start", false) == "Start" by { assert "start"[1..] == "tart"; }
  }

  lemma AlnumsOfStart()
    ensures Alnums("Start") == "Start"
  {
    assert Alnums("t") == "t" by { assert "t"[1..] == ""; }
    assert Alnums("rt") == "rt" by { assert "rt"[1..] == "t"; }
    assert Alnums("art") == "art" by { assert "art"[1..] == "rt"; }
    assert Alnums("tart") == "tart" by { assert "tart"[1..] == "art"; }
    assert Alnums("Start") == "Start" by { assert "Start"[1..] == "tart"; }
  }

  lemma ToStateOfStart()
    ensures ToState("start") == "StateStart"
  {
    TitleOfStart();
    AlnumsOfStart();
  }

  lemma TitleOfIpV4()
    ensures Title("ip_v4") == "Ip_V4"
  {
    assert TitleFrom("4", true) == "4" by { assert "4"[1..] == ""; }
    assert TitleFrom("v4", false) == "V4" by { assert "v4"[1..] == "4"; }
    assert TitleFrom("_v4", true) == "_V4" by { assert "_v4"[1..] == "v4"; }
    assert TitleFrom("p_v4", true) == "p_V4" by { assert "p_v4"[1..] == "_v4"; }
    assert TitleFrom("ip_v4", false) == "Ip_V4" by { assert "ip_v4"[1..] == "p_v4"; }
  }

  lemma AlnumsOfIpV4()
    ensures Alnums("Ip_V4") == "IpV4"
  {
    assert Alnums("4") == "4" by { assert "4"[1..] == ""; }
    assert Alnums("V4") == "V4" by { assert "V4"[1..] == "4"; }
    assert Alnums("_V4") == "V4" by { assert "_V4"[1..] == "V4"; }
    assert Alnums("p_V4") == "pV4" by { assert "p_V4"[1..] == "_V4"; }
    assert Alnums("Ip_V4") == "IpV4" by { assert "Ip_V4"[1..] == "p_V4"; }
  }

  lemma LowerCamelCaseOfIpv4()
    ensures LowerCamelCase("ip_v4") == Ok("ipV4")
  {
    TitleOfIpV4();
    AlnumsOfIpV4();
    assert CamelCase("ip_v4") == "IpV4";
    assert "IpV4"[1..] == "pV4";
    assert [ToLower('I')] + "pV4" == "ipV4";
  }

  // ----- convert -----

  /** The length of the run of lower-case letters that starts `s`. */
  function LowerRun(s: string): (k: nat)
    ensures k <= |s|
    ensures forall i :: 0 <= i < k ==> IsLower(s[i])
    ensures k < |s| ==> !IsLower(s[k])
  {
    if |s| > 0 && IsLower(s[0]) then 1 + LowerRun(s[1..]) else 0
  }

  /** `re.sub('(.)([A-Z][a-z]+)', r'\1_\2', s)`: an underscore before every
      capitalised word (an upper-case letter followed by lower-case letters)
      that follows some character other than a newline. */
  function SplitWords(s: string): (r: string)
    ensures |s| <= |r| <= 2 * |s|
    decreases |s|
  {
    if |s| >= 3 && s[0] != '\n' && IsUpper(s[1]) && IsLower(s[2]) then
      var n := 2 + LowerRun(s[2..]);
      [s[0]] + "_" + s[1..n] + SplitWords(s[n..])
    else if |s| == 0 then []
    else [s[0]] + SplitWords(s[1..])
  }

  /** `re.sub('([a-z0-9])([A-Z])', r'\1_\2', s)`: an underscore between a
      lower-case letter or digit and the upper-case letter after it. */
  function SplitHumps(s: string): (r: string)
    ensures |s| <= |r| <= 2 * |s|
    decreases |s|
  {
    if |s| >= 2 && (IsLower(s[0]) || IsDigit(s[0])) && IsUpper(s[1]) then
      [s[0], '_', s[1]] + SplitHumps(s[2..])
    else if |s| == 0 then []
    else [s[0]] + SplitHumps(s[1..])
  }

  /** `SplitWords` only inserts underscores, and changes nothing in a string
      without upper-case letters. */
  lemma {:induction false} SplitWordsOnlyInserts(s: string)
    ensures DropUnderscores(SplitWords(s)) == DropUnderscores(s)
    ensures NoUpper(s) ==> SplitWords(s) == s
    decreases |s|
  {
    if |s| >= 3 && s[0] != '\n' && IsUpper(s[1]) && IsLower(s[2]) {
      var n := 2 + LowerRun(s[2..]);
      var rest := SplitWords(s[n..]);
      SplitWordsOnlyInserts(s[n..]);
      assert s == [s[0]] + s[1..n] + s[n..];
      DropUnderscoresOfConcat([s[0]] + s[1..n], s[n..]);
      DropUnderscoresOfConcat([s[0]], s[1..n]);
      DropUnderscoresOfConcat([s[0]] + "_" + s[1..n], rest);
      DropUnderscoresOfConcat([s[0]] + "_", s[1..n]);
      DropUnderscoresOfConcat([s[0]], "_");
    } else if |s| > 0 {
      var rest := SplitWords(s[1..]);
      SplitWordsOnlyInserts(s[1..]);
      assert s == [s[0]] + s[1..];
      DropUnderscoresOfConcat([s[0]], s[1..]);
      DropUnderscoresOfConcat([s[0]], rest);
    }
  }

  /** `SplitHumps` only inserts underscores, and changes nothing in a string
      without upper-case letters. */
  lemma {:induction false} SplitHumpsOnlyInserts(s: string)
    ensures DropUnderscores(SplitHumps(s)) == DropUnderscores(s)
    ensures NoUpper(s) ==> SplitHumps(s) == s
    decreases |s|
  {
    if |s| >= 2 && (IsLower(s[0]) || IsDigit(s[0])) && IsUpper(s[1]) {
      var rest := SplitHumps(s[2..]);
      SplitHumpsOnlyInserts(s[2..]);
      assert s == [s[0], s[1]] + s[2..];
      DropUnderscoresOfConcat([s[0], s[1]], s[2..]);
      DropUnderscoresOfConcat([s[0], '_', s[1]], rest);
    } else if |s| > 0 {
      var rest := SplitHumps(s[1..]);
      SplitHumpsOnlyInserts(s[1..]);
      assert s == [s[0]] + s[1..];
      DropUnderscoresOfConcat([s[0]], s[1..]);
      DropUnderscoresOfConcat([s[0]], rest);
    }
  }

  /** `convert(name)`: CamelCase to snake_case. The result has no upper-case
      letter and differs from the lower-cased name only by inserted
      underscores; a name without upper-case letters is returned unchanged. */
  function Convert(name: string): (r: string)
    ensures NoUpper(r)
    ensures DropUnderscores(r) == Lower(DropUnderscores(name))
    ensures NoUpper(name) ==> r == name
  {
    var split := SplitHumps(SplitWords(name));
    SplitWordsOnlyInserts(name);
    SplitHumpsOnlyInserts(SplitWords(name));
    LowerHasNoUpper(split);
    DropUnderscoresOfLower(split);
    LowerOfNoUpper(split);
    Lower(split)
  }

  /** `convert` undoes `camelCase` on `ip_v4`: the hump before `V` gets
      its underscore back. */
  lemma ConvertOfIpV4()
    ensures Convert("ipV4") == "ip_v4"
  {
    SplitWordsOfIpV4();
    SplitHumpsOfIpV4();
    LowerOfIpV4();
  }

  lemma SplitWordsOfIpV4()
    ensures SplitWords("ipV4") == "ipV4"
  {
    assert "ipV4"[1..] == "pV4" && "pV4"[1..] == "V4" && "V4"[1..] == "4" && "4"[1..] == "";
    assert SplitWords("4") == "4";
    assert SplitWords("V4") == "V4";
    assert SplitWords("pV4") == "pV4";
  }

  lemma SplitHumpsOfIpV4()
    ensures SplitHumps("ipV4") == "ip_V4"
  {
    assert "ipV4"[1..] == "pV4" && "pV4"[2..] == "4" && "4"[1..] == "";
    assert SplitHumps("4") == "4";
    assert SplitHumps("pV4") == "p_V4";
  }

  lemma LowerOfIpV4()
    ensures Lower("ip_V4") == "ip_v4"
  {
  }

  lemma ConvertOfAcronym()
    ensures Convert("IPv4") == "i_pv4"
  {
    SplitWordsOfAcronym();
    SplitHumpsOfAcronym();
    LowerOfAcronym();
  }

  lemma SplitWordsOfAcronym()
    ensures SplitWords("IPv4") == "I_Pv4"
  {
    assert "IPv4"[2..] == "v4" && "v4"[1..] == "4" && "4"[1..] == "";
    assert LowerRun("4") == 0;
    assert LowerRun("v4") == 1;
    assert "IPv4"[1..3] == "Pv" && "IPv4"[3..] == "4";
    assert SplitWords("4") == "4";
  }

  lemma SplitHumpsOfAcronym()
    ensures SplitHumps("I_Pv4") == "I_Pv4"
  {
    assert SplitHumps("4") == "4" by { assert "4"[1..] == ""; }
    assert SplitHumps("v4") == "v4" by { assert "v4"[1..] == "4"; }
    assert SplitHumps("Pv4") == "Pv4" by { assert "Pv4"[1..] == "v4"; }
    assert SplitHumps("_Pv4") == "_Pv4" by { assert "_Pv4"[1..] == "Pv4"; }
    assert "I_Pv4"[1..] == "_Pv4";
  }

  lemma LowerOfAcronym()
    ensures Lower("I_Pv4") == "i_pv4"
  {
  }

  // ----- convert undoes camelCase on snake_case names -----

  /** What the part of a snake_case name read so far ends with: a letter, a
      digit, or the first letter of a word that follows an underscore. */
  datatype After = AfterLetter | AfterDigit | AfterWordStart

  /** `t` can follow `prev` in a snake_case name that `camelCase` and
      `convert` carry back and forth: lower-case letters and digits, no
      letter right after a digit (title-casing would capitalise it), an
      underscore only before a lower-case letter, and no underscore right
      after the first letter of a word. The last condition is sufficient,
      not necessary: `ab_c_de` comes back all the same, as the first
      substitution of `convert` splits before `De`. Without it, though, a
      capital can stand right before a capital that no lower-case letter
      follows, which neither substitution splits: `a_b_c` gives `aBC`,
      which converts to `a_bc`. */
  predicate SnakeFrom(t: string, prev: After)
    decreases |t|
  {
    if |t| == 0 then true
    else if IsLower(t[0]) then prev != AfterDigit && SnakeFrom(t[1..], AfterLetter)
    else if IsDigit(t[0]) then SnakeFrom(t[1..], AfterDigit)
    else
      t[0] == '_' && prev != AfterWordStart && |t| >= 2 && IsLower(t[1])
      && SnakeFrom(t[2..], AfterWordStart)
  }

  /** A snake_case name as above, starting with a lower-case letter. */
  predicate SnakeName(s: string)
  {
    |s| > 0 && IsLower(s[0]) && SnakeFrom(s[1..], AfterLetter)
  }

  /** Each underscore and the letter after it replaced by that letter in
      upper case. */
  function Humped(t: string): string
    decreases |t|
  {
    if |t| >= 2 && t[0] == '_' then [ToUpper(t[1])] + Humped(t[2..])
    else if |t| == 0 then []
    else [t[0]] + Humped(t[1..])
  }

  /** `h` has no underscore, and each of its upper-case letters follows a
      lower-case letter or a digit (`prevLowerOrDigit` says whether the
      character before `h` is one). */
  predicate HumpsAfterLowerOrDigit(h: string, prevLowerOrDigit: bool)
    decreases |h|
  {
    |h| == 0
    || (h[0] != '_' && (IsUpper(h[0]) ==> prevLowerOrDigit)
        && HumpsAfterLowerOrDigit(h[1..], IsLower(h[0]) || IsDigit(h[0])))
  }

  /** `h` with an underscore before every upper-case letter. */
  function MarkHumps(h: string): string
    decreases |h|
  {
    if |h| == 0 then []
    else (if IsUpper(h[0]) then ['_', h[0]] else [h[0]]) + MarkHumps(h[1..])
  }

  /** `y` is `h` with an underscore inserted before some of its upper-case
      letters. */
  predicate MarksSomeHumps(y: string, h: string)
    decreases |h|
  {
    if |h| == 0 then y == []
    else if |y| > 0 && y[0] == h[0] then MarksSomeHumps(y[1..], h[1..])
    else
      |y| >= 2 && y[0] == '_' && IsUpper(h[0]) && y[1] == h[0]
      && MarksSomeHumps(y[2..], h[1..])
  }

  /** Past the first letter, `CamelCase` of a snake_case name is its humped
      form. */
  lemma {:induction false} CapitalisedOfSnake(t: string, prev: After)
    requires SnakeFrom(t, prev)
    ensures Capitalised(t, prev != AfterDigit) == Humped(t)
    decreases |t|
  {
    if |t| > 0 {
      if IsLower(t[0]) {
        CapitalisedOfSnake(t[1..], AfterLetter);
      } else if IsDigit(t[0]) {
        CapitalisedOfSnake(t[1..], AfterDigit);
      } else {
        assert t[1..][1..] == t[2..];
        CapitalisedOfSnake(t[2..], AfterWordStart);
      }
    }
  }

  /** The humped form of a snake_case name keeps its capitals after
      lower-case letters and digits, and marking them gives the name back. */
  lemma {:induction false} HumpedShape(t: string, prev: After)
    requires SnakeFrom(t, prev)
    ensures HumpsAfterLowerOrDigit(Humped(t), prev != AfterWordStart)
    ensures Lower(MarkHumps(Humped(t))) == t
    decreases |t|
  {
    if |t| > 0 {
      var h := Humped(t);
      if t[0] == '_' {
        HumpedShape(t[2..], AfterWordStart);
        assert h[1..] == Humped(t[2..]);
        assert MarkHumps(h) == ['_', h[0]] + MarkHumps(Humped(t[2..]));
        LowerOfConcat(['_', h[0]], MarkHumps(Humped(t[2..])));
        assert t == ['_', t[1]] + t[2..];
      } else {
        HumpedShape(t[1..], if IsLower(t[0]) then AfterLetter else AfterDigit);
        assert h[1..] == Humped(t[1..]);
        assert MarkHumps(h) == [h[0]] + MarkHumps(Humped(t[1..]));
        LowerOfConcat([h[0]], MarkHumps(Humped(t[1..])));
        assert t == [t[0]] + t[1..];
      }
    }
  }

  lemma {:induction false} NoUnderscoreOfHumps(h: string, prev: bool)
    requires HumpsAfterLowerOrDigit(h, prev)
    ensures forall i :: 0 <= i < |h| ==> h[i] != '_'
    decreases |h|
  {
    if |h| > 0 {
      NoUnderscoreOfHumps(h[1..], IsLower(h[0]) || IsDigit(h[0]));
      assert forall i :: 1 <= i < |h| ==> h[i] == h[1..][i - 1];
    }
  }

  lemma MarksSomeHumpsKeep(c: char, y: string, h: string)
    requires MarksSomeHumps(y, h)
    ensures MarksSomeHumps([c] + y, [c] + h)
  {
    assert ([c] + y)[1..] == y && ([c] + h)[1..] == h;
  }

  lemma MarksSomeHumpsInsert(c: char, y: string, h: string)
    requires IsUpper(c) && MarksSomeHumps(y, h)
    ensures MarksSomeHumps(['_', c] + y, [c] + h)
  {
    assert (['_', c] + y)[2..] == y && ([c] + h)[1..] == h;
  }

  lemma {:induction false} MarksSomeHumpsOfPrefix(p: string, y: string, h: string)
    requires MarksSomeHumps(y, h)
    ensures MarksSomeHumps(p + y, p + h)
    decreases |p|
  {
    if |p| > 0 {
      MarksSomeHumpsOfPrefix(p[1..], y, h);
      MarksSomeHumpsKeep(p[0], p[1..] + y, p[1..] + h);
      assert p + y == [p[0]] + (p[1..] + y);
      assert p + h == [p[0]] + (p[1..] + h);
    } else {
      assert p + y == y && p + h == h;
    }
  }

  /** `SplitWords` inserts underscores before upper-case letters only. */
  lemma {:induction false} SplitWordsMarksHumps(h: string)
    requires '_' !in h
    ensures MarksSomeHumps(SplitWords(h), h)
    decreases |h|
  {
    if |h| >= 3 && h[0] != '\n' && IsUpper(h[1]) && IsLower(h[2]) {
      var n := 2 + LowerRun(h[2..]);
      assert '_' !in h[n..] by {
        assert forall i :: 0 <= i < |h[n..]| ==> h[n..][i] == h[n + i];
      }
      SplitWordsMarksHumps(h[n..]);
      MarksWord(h, n, SplitWords(h[n..]));
    } else if |h| > 0 {
      assert '_' !in h[1..] by {
        assert forall i :: 0 <= i < |h[1..]| ==> h[1..][i] == h[i + 1];
      }
      SplitWordsMarksHumps(h[1..]);
      assert SplitWords(h) == [h[0]] + SplitWords(h[1..]);
      assert h == [h[0]] + h[1..];
      MarksSomeHumpsKeep(h[0], SplitWords(h[1..]), h[1..]);
    }
  }

  /** Marking the capital of one word split off by `SplitWords`. */
  lemma MarksWord(h: string, n: nat, rest: string)
    requires 2 <= n <= |h| && IsUpper(h[1])
    requires MarksSomeHumps(rest, h[n..])
    ensures MarksSomeHumps([h[0]] + "_" + h[1..n] + rest, h)
  {
    assert [h[0]] + "_" + h[1..n] + rest == [h[0]] + (['_', h[1]] + (h[2..n] + rest));
    assert h == [h[0]] + ([h[1]] + (h[2..n] + h[n..]));
    MarksSomeHumpsOfPrefix(h[2..n], rest, h[n..]);
    MarksSomeHumpsInsert(h[1], h[2..n] + rest, h[2..n] + h[n..]);
    MarksSomeHumpsKeep(h[0], ['_', h[1]] + (h[2..n] + rest), [h[1]] + (h[2..n] + h[n..]));
  }

  lemma SplitHumpsAtMark(c: char, y: string)
    requires IsUpper(c)
    ensures SplitHumps(['_', c] + y) == ['_', c] + SplitHumps(y)
  {
    assert (['_', c] + y)[1..] == [c] + y;
    assert ([c] + y)[1..] == y;
  }

  lemma SplitHumpsAtHump(a: char, c: char, y: string)
    requires (IsLower(a) || IsDigit(a)) && IsUpper(c)
    ensures SplitHumps([a, c] + y) == [a, '_', c] + SplitHumps(y)
  {
    assert ([a, c] + y)[2..] == y;
  }

  /** The marked string is `h` with its first character and the rest
      marked, or an underscore, that upper-case character and the rest. */
  lemma MarksSomeHumpsHead(y: string, h: string)
    requires |h| > 0 && MarksSomeHumps(y, h)
    ensures || (y == [h[0]] + y[1..] && MarksSomeHumps(y[1..], h[1..]))
            || (IsUpper(h[0]) && |y| >= 2 && y == ['_', h[0]] + y[2..]
                && MarksSomeHumps(y[2..], h[1..]))
  {
  }

  lemma {:induction false} SplitHumpsMarksAll(y: string, h: string, prev: bool)
    requires MarksSomeHumps(y, h)
    requires HumpsAfterLowerOrDigit(h, prev)
    requires |h| > 0 && IsUpper(h[0]) ==> |y| > 0 && y[0] == '_'
    ensures SplitHumps(y) == MarkHumps(h)
    decreases |h|, 1
  {
    if |h| > 0 {
      var lowerOrDigit := IsLower(h[0]) || IsDigit(h[0]);
      var rest := h[1..];
      assert HumpsAfterLowerOrDigit(rest, lowerOrDigit);
      assert h == [h[0]] + rest;
      MarksSomeHumpsHead(y, h);
      if y[0] == '_' {
        SplitHumpsMarksAll(y[2..], rest, false);
        SplitHumpsAtMark(h[0], y[2..]);
      } else if |y| >= 2 && lowerOrDigit && IsUpper(y[1]) {
        SplitHumpsMarksHump(y, h);
      } else {
        SplitHumpsMarksAll(y[1..], rest, lowerOrDigit);
        assert SplitHumps(y) == [h[0]] + SplitHumps(y[1..]);
      }
    }
  }

  /** The case of `SplitHumpsMarksAll` where the second pass itself marks
      the capital right after the first character. */
  lemma {:induction false} SplitHumpsMarksHump(y: string, h: string)
    requires MarksSomeHumps(y, h) && |h| > 0 && |y| >= 2
    requires HumpsAfterLowerOrDigit(h[1..], true)
    requires y == [h[0]] + y[1..] && MarksSomeHumps(y[1..], h[1..])
    requires (IsLower(h[0]) || IsDigit(h[0])) && IsUpper(y[1])
    ensures SplitHumps(y) == MarkHumps(h)
    decreases |h|, 0
  {
    var rest, y' := h[1..], y[1..];
    assert |rest| > 0;
    MarksSomeHumpsHead(y', rest);
    assert y' == [rest[0]] + y'[1..];
    assert HumpsAfterLowerOrDigit(rest[1..], false);
    SplitHumpsMarksAll(y'[1..], rest[1..], false);
    assert y == [h[0], rest[0]] + y'[1..];
    SplitHumpsAtHump(h[0], rest[0], y'[1..]);
    assert h == [h[0], rest[0]] + rest[1..];
    MarkHumpsAtHump(h[0], rest[0], rest[1..]);
  }

  lemma MarkHumpsAtHump(a: char, c: char, z: string)
    requires (IsLower(a) || IsDigit(a)) && IsUpper(c)
    ensures MarkHumps([a, c] + z) == [a, '_', c] + MarkHumps(z)
  {
    assert ([a, c] + z)[1..] == [c] + z;
    assert ([c] + z)[1..] == z;
  }

  /** `convert` undoes `camelCase` on every snake_case name: `ip_v4` becomes
      `ipV4` and back. */
  lemma ConvertUndoesLowerCamelCase(s: string)
    requires SnakeName(s)
    ensures LowerCamelCase(s).Ok?
    ensures Convert(LowerCamelCase(s).value) == s
  {
    var t := s[1..];
    CapitalisedOfSnake(t, AfterLetter);
    assert CamelCase(s) == [ToUpper(s[0])] + Humped(t);
    var h := LowerCamelCase(s).value;
    assert h == [s[0]] + Humped(t);
    HumpedShape(t, AfterLetter);
    assert h[1..] == Humped(t);
    assert HumpsAfterLowerOrDigit(h, false);
    NoUnderscoreOfHumps(h, false);
    assert '_' !in h;
    SplitWordsMarksHumps(h);
    SplitHumpsMarksAll(SplitWords(h), h, false);
    assert MarkHumps(h) == [s[0]] + MarkHumps(Humped(t));
    LowerOfConcat([s[0]], MarkHumps(Humped(t)));
    assert s == [s[0]] + t;
  }

}

=== FILE: omap.dfy ===
/** Python's `OrderedDict` as a sequence of key/value pairs.

    Assigning `d[k] = v` keeps an existing key where it is and only replaces
    its value; a new key goes to the end. Built by a run of assignments, a
    dictionary therefore lists each key once, in first-assignment order, with
    the value of the last assignment (`PutAllCharacterised`).
 */
module OrderedMaps {
  import opened Outcomes

  type OMap<K, V> = seq<(K, V)>

  /** The keys of `m` in order. */
  function Keys<K, V>(m: OMap<K, V>): (ks: seq<K>)
    ensures |ks| == |m|
    ensures forall i :: 0 <= i < |m| ==> ks[i] == m[i].0
  {
    seq(|m|, i requires 0 <= i < |m| => m[i].0)
  }

  lemma KeysOfConcat<K, V>(a: OMap<K, V>, b: OMap<K, V>)
    ensures Keys(a + b) == Keys(a) + Keys(b)
  {
    assert forall i :: 0 <= i < |a + b| ==> Keys(a + b)[i] == (Keys(a) + Keys(b))[i];
  }

  predicate Distinct<K(==)>(ks: seq<K>) {
    forall i, j :: 0 <= i < j < |ks| ==> ks[i] != ks[j]
  }

  /** `d.get(k)`: the value stored under `k`, if any. */
  function Get<K(==,!new), V>(m: OMap<K, V>, k: K): (r: Option<V>)
    ensures r.Some? <==> k in Keys(m)
  {
    if k in Keys(m) then Some(m[FirstIndex(Keys(m), k)].1) else None
  }

  /** `d[k] = v`: replaces the value of an existing key in place, otherwise
      appends the pair. */
  function Put<K(==,!new), V>(m: OMap<K, V>, k: K, v: V): (r: OMap<K, V>)
    ensures Get(r, k) == Some(v)
    ensures forall k' :: k' != k ==> Get(r, k') == Get(m, k')
    ensures Keys(r) == if k in Keys(m) then Keys(m) else Keys(m) + [k]
  {
    if k in Keys(m) then
      var r := m[FirstIndex(Keys(m), k) := (k, v)];
      assert Keys(r) == Keys(m);
      r
    else
      var r := m + [(k, v)];
      assert Keys(r) == Keys(m) + [k];
      forall k' | k' in Keys(m)
        ensures FirstIndex(Keys(r), k') == FirstIndex(Keys(m), k')
      {
        FirstIndexOfPrefix(Keys(m), [k], k');
      }
      r
  }

  lemma PutKeepsDistinct<K(!new), V>(m: OMap<K, V>, k: K, v: V)
    requires Distinct(Keys(m))
    ensures Distinct(Keys(Put(m, k, v)))
  {
    if k !in Keys(m) {
      var ks := Keys(Put(m, k, v));
      assert ks == Keys(m) + [k];
      assert forall i :: 0 <= i < |ks| - 1 ==> ks[i] != k;
    }
  }

  /** The assignments `d[k] = v` for each pair of `kvs`, in order. */
  function PutAll<K(==,!new), V>(m: OMap<K, V>, kvs: seq<(K, V)>): OMap<K, V>
    decreases |kvs|
  {
    if |kvs| == 0 then m
    else
      var last := kvs[|kvs| - 1];
      Put(PutAll(m, kvs[..|kvs| - 1]), last.0, last.1)
  }

  /** The value of the last pair with key `k`, if any. */
  function LastValue<K(==), V>(kvs: seq<(K, V)>, k: K): (r: Option<V>)
    ensures r.Some? <==> k in Keys(kvs)
    decreases |kvs|
  {
    if |kvs| == 0 then None
    else if kvs[|kvs| - 1].0 == k then Some(kvs[|kvs| - 1].1)
    else
      KeysOfConcat(kvs[..|kvs| - 1], [kvs[|kvs| - 1]]);
      assert kvs == kvs[..|kvs| - 1] + [kvs[|kvs| - 1]];
      LastValue(kvs[..|kvs| - 1], k)
  }

  /** The position of the first occurrence of `x` in `xs`. */
  function FirstIndex<T(==)>(xs: seq<T>, x: T): (i: nat)
    requires x in xs
    ensures i < |xs| && xs[i] == x
    ensures forall j :: 0 <= j < i ==> xs[j] != x
  {
    if xs[0] == x then 0 else 1 + FirstIndex(xs[1..], x)
  }

  lemma FirstIndexOfPrefix<T>(xs: seq<T>, ys: seq<T>, x: T)
    requires x in xs
    ensures x in xs + ys && FirstIndex(xs + ys, x) == FirstIndex(xs, x)
  {
    var i := FirstIndex(xs, x);
    var zs := xs + ys;
    assert zs[i] == x;
    var k := FirstIndex(zs, x);
    assert forall j :: 0 <= j < i ==> zs[j] == xs[j];
  }

  /** One more assignment on top of a run of assignments. */
  lemma PutAllStep<K(!new), V>(m: OMap<K, V>, kvs: seq<(K, V)>)
    requires |kvs| > 0
    ensures PutAll(m, kvs) ==
      Put(PutAll(m, kvs[..|kvs| - 1]), kvs[|kvs| - 1].0, kvs[|kvs| - 1].1)
    ensures Keys(kvs) == Keys(kvs[..|kvs| - 1]) + [kvs[|kvs| - 1].0]
  {
    KeysOfConcat(kvs[..|kvs| - 1], [kvs[|kvs| - 1]]);
    assert kvs == kvs[..|kvs| - 1] + [kvs[|kvs| - 1]];
  }

  lemma {:induction false} PutAllKeys<K(!new), V>(kvs: seq<(K, V)>)
    ensures Distinct(Keys(PutAll([], kvs)))
    ensures forall k :: k in Keys(PutAll([], kvs)) <==> k in Keys(kvs)
    decreases |kvs|
  {
    if |kvs| > 0 {
      PutAllStep([], kvs);
      PutAllKeys(kvs[..|kvs| - 1]);
      PutKeepsDistinct(PutAll([], kvs[..|kvs| - 1]), kvs[|kvs| - 1].0, kvs[|kvs| - 1].1);
    }
  }

  lemma {:induction false} PutAllValues<K(!new), V>(kvs: seq<(K, V)>)
    ensures forall k :: Get(PutAll([], kvs), k) == LastValue(kvs, k)
    decreases |kvs|
  {
    if |kvs| > 0 {
      PutAllStep([], kvs);
      PutAllValues(kvs[..|kvs| - 1]);
    }
  }

  /** `keys` lists elements of `ks` in the order of their first occurrence there. */
  ghost predicate InFirstSeenOrder<K>(keys: seq<K>, ks: seq<K>) {
    forall i, j :: 0 <= i < j < |keys| ==>
      keys[i] in ks && keys[j] in ks && FirstIndex(ks, keys[i]) < FirstIndex(ks, keys[j])
  }

  lemma InFirstSeenOrderExtend<K>(keys: seq<K>, ks: seq<K>, k: K)
    requires InFirstSeenOrder(keys, ks)
    requires forall i :: 0 <= i < |keys| ==> keys[i] in ks
    ensures InFirstSeenOrder(keys, ks + [k])
    ensures k !in ks ==> InFirstSeenOrder(keys + [k], ks + [k])
  {
    forall i | 0 <= i < |keys|
      ensures FirstIndex(ks + [k], keys[i]) == FirstIndex(ks, keys[i])
    {
      FirstIndexOfPrefix(ks, [k], keys[i]);
    }
    if k !in ks {
      var keys' := keys + [k];
      var ks' := ks + [k];
      assert FirstIndex(ks', k) == |ks|;
      forall i, j | 0 <= i < j < |keys'|
        ensures keys'[i] in ks' && keys'[j] in ks'
        ensures FirstIndex(ks', keys'[i]) < FirstIndex(ks', keys'[j])
      {
        if j == |keys| {
          assert keys'[i] == keys[i];
        } else {
          assert keys'[i] == keys[i] && keys'[j] == keys[j];
        }
      }
    }
  }

  lemma {:induction false} PutAllOrder<K(!new), V>(kvs: seq<(K, V)>)
    ensures InFirstSeenOrder(Keys(PutAll([], kvs)), Keys(kvs))
    decreases |kvs|
  {
    if |kvs| > 0 {
      var init := kvs[..|kvs| - 1];
      var last := kvs[|kvs| - 1];
      PutAllStep([], kvs);
      PutAllOrder(init);
      PutAllKeys(init);
      var m := PutAll([], init);
      InFirstSeenOrderExtend(Keys(m), Keys(init), last.0);
    }
  }

  /** `PutAll` of one more pair is one more `Put`. */
  lemma PutAllAppend<K(!new), V>(m: OMap<K, V>, kvs: seq<(K, V)>, k: K, v: V)
    ensures PutAll(m, kvs + [(k, v)]) == Put(PutAll(m, kvs), k, v)
  {
    assert (kvs + [(k, v)])[..|kvs|] == kvs;
  }

  /** Two runs of assignments one after the other. */
  lemma {:induction false} PutAllOfConcat<K(!new), V>(m: OMap<K, V>, a: seq<(K, V)>, b: seq<(K, V)>)
    ensures PutAll(m, a + b) == PutAll(PutAll(m, a), b)
    decreases |b|
  {
    if |b| == 0 {
      assert a + b == a;
    } else {
      assert (a + b)[..|a + b| - 1] == a + b[..|b| - 1];
      PutAllOfConcat(m, a, b[..|b| - 1]);
    }
  }

  /** After a run of assignments on top of `m`, a key holds its last assigned
      value, or its value in `m` if it was never assigned. */
  lemma {:induction false} PutAllGet<K(!new), V>(m: OMap<K, V>, kvs: seq<(K, V)>, k: K)
    ensures Get(PutAll(m, kvs), k) == if k in Keys(kvs) then LastValue(kvs, k) else Get(m, k)
    decreases |kvs|
  {
    if |kvs| > 0 {
      PutAllStep(m, kvs);
      PutAllGet(m, kvs[..|kvs| - 1], k);
    }
  }

  /** Each assignment adds at most one key. */
  lemma {:induction false} PutAllSize<K(!new), V>(m: OMap<K, V>, kvs: seq<(K, V)>)
    ensures |PutAll(m, kvs)| <= |m| + |kvs|
    decreases |kvs|
  {
    if |kvs| > 0 {
      PutAllStep(m, kvs);
      PutAllSize(m, kvs[..|kvs| - 1]);
    }
  }

  /** A run of assignments that all assign `v` leaves `v` under each key it
      assigns. */
  lemma {:induction false} LastValueConstant<K, V>(kvs: seq<(K, V)>, k: K, v: V)
    requires forall i :: 0 <= i < |kvs| ==> kvs[i].1 == v
    requires k in Keys(kvs)
    ensures LastValue(kvs, k) == Some(v)
    decreases |kvs|
  {
    if kvs[|kvs| - 1].0 != k {
      KeysOfConcat(kvs[..|kvs| - 1], [kvs[|kvs| - 1]]);
      assert kvs == kvs[..|kvs| - 1] + [kvs[|kvs| - 1]];
      LastValueConstant(kvs[..|kvs| - 1], k, v);
    }
  }

  /** Assigning a key the value it already holds changes nothing. */
  lemma PutSame<K(!new), V>(m: OMap<K, V>, k: K, v: V)
    requires Get(m, k) == Some(v)
    ensures Put(m, k, v) == m
  {
  }

  /** Assignments never remove or reorder keys: the keys before a run of
      assignments are a prefix of the keys after it. */
  lemma {:induction false} PutAllKeysPrefix<K(!new), V>(m: OMap<K, V>, kvs: seq<(K, V)>)
    ensures Keys(m) <= Keys(PutAll(m, kvs))
    decreases |kvs|
  {
    if |kvs| > 0 {
      PutAllStep(m, kvs);
      PutAllKeysPrefix(m, kvs[..|kvs| - 1]);
    }
  }

  /** The last value assigned to a key was assigned to it by some pair. */
  lemma {:induction false} LastValueIn<K, V>(kvs: seq<(K, V)>, k: K)
    requires k in Keys(kvs)
    ensures (k, LastValue(kvs, k).value) in kvs
    decreases |kvs|
  {
    if kvs[|kvs| - 1].0 != k {
      KeysOfConcat(kvs[..|kvs| - 1], [kvs[|kvs| - 1]]);
      assert kvs == kvs[..|kvs| - 1] + [kvs[|kvs| - 1]];
      LastValueIn(kvs[..|kvs| - 1], k);
    }
  }

  /** A dictionary built from nothing by the assignments `kvs` holds each key
      of `kvs` exactly once, keys in the order they were first assigned,
      each with the value it was last assigned. */
  lemma PutAllCharacterised<K(!new), V>(kvs: seq<(K, V)>)
    ensures var r := PutAll([], kvs);
      && Distinct(Keys(r))
      && (forall k :: k in Keys(r) <==> k in Keys(kvs))
      && InFirstSeenOrder(Keys(r), Keys(kvs))
      && (forall k :: Get(r, k) == LastValue(kvs, k))
  {
    PutAllKeys(kvs);
    PutAllValues(kvs);
    PutAllOrder(kvs);
  }

  /** A key that occurs once among the assignments keeps the value it was
      given. */
  lemma {:induction false} LastValueOfUnique<K, V>(kvs: seq<(K, V)>, i: nat)
    requires i < |kvs|
    requires forall j :: 0 <= j < |kvs| && j != i ==> kvs[j].0 != kvs[i].0
    ensures LastValue(kvs, kvs[i].0) == Some(kvs[i].1)
    decreases |kvs|
  {
    if i < |kvs| - 1 {
      LastValueOfUnique(kvs[..|kvs| - 1], i);
    }
  }

  /** No two assignments of the run use the key `k`. */
  predicate KeyUsedOnce<K(==), V>(kvs: seq<(K, V)>, k: K) {
    forall i, j :: 0 <= i < j < |kvs| && kvs[i].0 == k ==> kvs[j].0 != k
  }

  /** An assignment `d[k] = v` whose key no other assignment of the run
      uses leaves `v` under `k`. */
  lemma PutAllOfUnique<K(!new), V>(kvs: seq<(K, V)>, k: K, v: V)
    requires (k, v) in kvs && KeyUsedOnce(kvs, k)
    ensures Get(PutAll([], kvs), k) == Some(v)
  {
    var p :| 0 <= p < |kvs| && kvs[p] == (k, v);
    forall j | 0 <= j < |kvs| && j != p
      ensures kvs[j].0 != kvs[p].0
    {
    }
    LastValueOfUnique(kvs, p);
    PutAllValues(kvs);
  }

  /** The present elements of `xs`, in order. */
  function Somes<T>(xs: seq<Option<T>>): (r: seq<T>)
    ensures |r| <= |xs|
    decreases |xs|
  {
    if |xs| == 0 then []
    else Somes(xs[..|xs| - 1]) + (if xs[|xs| - 1].Some? then [xs[|xs| - 1].value] else [])
  }

  /** Some present pair of `xs` has key `k`. */
  ghost predicate SomeKey<K, V>(xs: seq<Option<(K, V)>>, k: K) {
    exists j :: 0 <= j < |xs| && xs[j].Some? && xs[j].value.0 == k
  }

  /** The keys among the present pairs are exactly the keys of the pairs
      that are present. */
  lemma {:induction false} SomesKeys<K, V>(xs: seq<Option<(K, V)>>, k: K)
    ensures k in Keys(Somes(xs)) <==> SomeKey(xs, k)
    decreases |xs|
  {
    if |xs| > 0 {
      var init := xs[..|xs| - 1];
      SomesKeys(init, k);
      var tail: seq<(K, V)> := if xs[|xs| - 1].Some? then [xs[|xs| - 1].value] else [];
      assert Somes(xs) == Somes(init) + tail;
      KeysOfConcat(Somes(init), tail);
      assert Keys(Somes(xs)) == Keys(Somes(init)) + Keys(tail);
      if SomeKey(init, k) {
        var j :| 0 <= j < |init| && init[j].Some? && init[j].value.0 == k;
        assert xs[j] == init[j];
      }
      if SomeKey(xs, k) {
        var j :| 0 <= j < |xs| && xs[j].Some? && xs[j].value.0 == k;
        if j < |xs| - 1 {
          assert init[j] == xs[j];
        } else {
          assert Keys(tail)[0] == k;
        }
      }
    }
  }

  /** A key present only once keeps the value it is given there. */
  lemma {:induction false} SomesLastValue<K, V>(xs: seq<Option<(K, V)>>, j: nat)
    requires j < |xs| && xs[j].Some?
    requires forall i :: 0 <= i < |xs| && i != j && xs[i].Some? ==> xs[i].value.0 != xs[j].value.0
    ensures LastValue(Somes(xs), xs[j].value.0) == Some(xs[j].value.1)
    decreases |xs|
  {
    var last := |xs| - 1;
    var init := xs[..last];
    if j < last {
      assert init[j] == xs[j];
      forall i | 0 <= i < |init| && i != j && init[i].Some?
        ensures init[i].value.0 != init[j].value.0
      {
        assert init[i] == xs[i];
      }
      SomesLastValue(init, j);
      if xs[last].Some? {
        assert Somes(xs) == Somes(init) + [xs[last].value];
      } else {
        assert Somes(xs) == Somes(init);
      }
    }
  }

  /** Nothing present, nothing kept. */
  lemma SomesOfNone<T>(xs: seq<Option<T>>)
    requires forall j :: 0 <= j < |xs| ==> xs[j].None?
    ensures Somes(xs) == []
  {
    if |xs| > 0 {
      SomesOfNone(xs[..|xs| - 1]);
    }
  }
}

=== FILE: outcomes.dfy ===
/** Failure-compatible wrappers shared by every part of the compiler model.

    The compiler reports exactly one of "OK" or an exception; an exception
    aborts the whole compilation. `Result` carries either the value built so
    far or the `CompileError` that aborted it, and works with `:-`.
 */
module Outcomes {

  /** A value that may be absent (Python's `None`). */
  datatype Option<+T> = None | Some(value: T)

  /** The kinds of fatal error the compiler can raise.

      - `MalformedGraph`: the front-end graph lacks something the code looks
        up (a Python KeyError, AttributeError or IndexError on the graph).
      - `UnsupportedConstruct`: a construct the code rejects on purpose
        (tuple cases, value sets, conditional or exception targets).
      - `NotImplemented`: a shape the code raises NotImplementedError for.
      - `UnresolvedEntryPoint`: a control flow whose start block is not found.
   */
  datatype CompileError =
    | MalformedGraph(what: string)
    | UnsupportedConstruct(what: string)
    | NotImplemented(what: string)
    | UnresolvedEntryPoint(what: string)

  /** Either a successfully built value or the error that aborted the build. */
  datatype Result<+T> = Ok(value: T) | Err(error: CompileError) {

    predicate IsFailure() {
      Err?
    }

    function PropagateFailure<U>(): Result<U>
      requires Err?
    {
      Err(error)
    }

    function Extract(): T
      requires Ok?
    {
      value
    }
  }

  /** `xs[i]` is the first element whose `f` fails, and it fails with `e`. */
  predicate FailsFirstAt<A, B>(xs: seq<A>, f: A -> Result<B>, i: int, e: CompileError) {
    && 0 <= i < |xs| && f(xs[i]) == Err(e)
    && forall j :: 0 <= j < i ==> f(xs[j]).Ok?
  }

  /** Applies `f` to every element in order; the first failure aborts with
      its error, as a Python loop raising inside its body does. */
  function MapAll<A, B>(xs: seq<A>, f: A -> Result<B>): (r: Result<seq<B>>)
    ensures r.Ok? <==> forall i :: 0 <= i < |xs| ==> f(xs[i]).Ok?
    ensures r.Ok? ==> |r.value| == |xs|
    ensures r.Ok? ==> forall i :: 0 <= i < |xs| ==> Ok(r.value[i]) == f(xs[i])
    ensures r.Err? ==> exists i :: FailsFirstAt(xs, f, i, r.error)
    decreases |xs|
  {
    if |xs| == 0 then Ok([])
    else
      assert forall i :: 1 <= i < |xs| ==> xs[1..][i - 1] == xs[i];
      var y := f(xs[0]);
      var rest := MapAll(xs[1..], f);
      if y.Err? then
        assert FailsFirstAt(xs, f, 0, y.error);
        Err(y.error)
      else if rest.Err? then
        var i :| FailsFirstAt(xs[1..], f, i, rest.error);
        assert FailsFirstAt(xs, f, i + 1, rest.error);
        Err(rest.error)
      else
        Ok([y.value] + rest.value)
  }
}

=== FILE: stager.dfy ===
/** The parser pipeline stager: how parse states are laid out over the
    128-bit words of the incoming frame.

    The original keeps its state in class-level dictionaries shared by all
    parse states: the running bit counter `total_bitcount`, the extracted
    width of each state (`field_width`), the counter values at which each
    state consumes a word (`parseSteps`), and the unparsed bits carried
    along each edge (`unparsedIn`, `unparsedOut`). Here that state is the
    immutable context `Ctx`, threaded through every operation.
 */
module Stager {
  import opened Outcomes
  import opened Hlir
  import opened OrderedMaps
  import Cases

  /** The width in bits of one word of the frame. */
  const WordBits: nat := 128

  datatype Ctx = Ctx(
    counter: int,                                   // total_bitcount
    fieldWidth: map<string, nat>,                   // field_width
    steps: map<string, seq<int>>,                   // parseSteps
    unparsedIn: map<string, OMap<string, int>>,     // unparsedIn
    unparsedOut: map<string, OMap<string, int>>,    // unparsedOut
    stack: seq<string>)                             // the traversal stack

  /** The context during a traversal, with the set of visited states. */
  datatype Walk = Walk(ctx: Ctx, visited: set<string>)

  // ----- word stages of one state -----

  /** The word loop of one state entered with counter `t`: every counter
      value below the extracted width `width` consumes a word and advances
      by `WordBits`; the first value at or above it is recorded too. */
  function Chop(t: int, width: nat): (r: seq<int>)
    ensures |r| >= 1 && r[0] == t
    ensures r[|r| - 1] >= width
    ensures t >= width ==> |r| == 1
    ensures t < width ==> r[|r| - 1] - width < WordBits
    decreases width - t
  {
    if t < width then [t] + Chop(t + WordBits, width) else [t]
  }

  /** The recorded values step by one word, and all but the last are below
      the width. */
  lemma {:induction false} ChopStages(t: int, width: nat)
    ensures forall i :: 0 <= i < |Chop(t, width)| ==> Chop(t, width)[i] == t + 128 * i
    ensures forall i :: 0 <= i < |Chop(t, width)| - 1 ==> Chop(t, width)[i] < width
    decreases width - t
  {
    if t < width {
      ChopStages(t + WordBits, width);
      assert WordBits == 128;
      var r := Chop(t, width);
      var rest := Chop(t + WordBits, width);
      assert r == [t] + rest;
      forall i | 1 <= i < |r|
        ensures r[i] == t + 128 * i
      {
        assert r[i] == rest[i - 1];
      }
    }
  }

  /** The bits of the last word consumed by the state and not extracted by
      it: what its successors are entered with. */
  function Residual(t: int, width: nat): (u: int)
    ensures u >= 0
    ensures t < width ==> u < WordBits
    ensures t >= width ==> u == t - width
  {
    var r := Chop(t, width);
    r[|r| - 1] - width
  }

  /** A state entered with an empty word (counter `WordBits`) and extracting
      `width > 0` bits records ceil(width / 128) counter values, the last one
      128 times that count. */
  lemma ChopFromFreshWord(width: nat)
    requires width > 0
    ensures var k := (width + WordBits - 1) / WordBits;
      |Chop(WordBits, width)| == k && Chop(WordBits, width)[k - 1] == k * WordBits
  {
    var r := Chop(WordBits, width);
    ChopStages(WordBits, width);
    assert WordBits == 128;
    var n := |r|;
    var k := (width + WordBits - 1) / WordBits;
    assert r[n - 1] == 128 * n;
    if n > 1 {
      assert r[n - 2] == 128 * (n - 1);
    }
    assert 128 * (n - 1) < width <= 128 * n;
  }

  lemma ChopExample48()
    ensures Chop(128, 48) == [128] && Residual(128, 48) == 80
  {
  }

  lemma ChopExample300()
    ensures Chop(128, 300) == [128, 256, 384] && Residual(128, 300) == 84
  {
  }

  /** The residual bound holds only for states that consume a word: a state
      of 48 bits entered with 80 unparsed bits (counter 208) leaves 160. */
  lemma ResidualNotBelowWord()
    ensures Residual(80 + WordBits, 48) == 160 && Residual(80 + WordBits, 48) >= WordBits
  {
  }

  // ----- the traversal -----

  /** The context knows every state of the graph. */
  ghost predicate Prepared(g: Graph, c: Ctx) {
    forall n :: n in g ==> n in c.fieldWidth && n in c.steps && n in c.unparsedOut
  }

  /** The (successor, unparsed bits) assignments a state makes, one per case
      that does not lead to a table, in case order. */
  function Edges(cases: seq<Case>, residual: int): (kvs: seq<(string, int)>)
    ensures |kvs| <= |cases|
    decreases |cases|
  {
    if |cases| == 0 then []
    else
      var init := Edges(cases[..|cases| - 1], residual);
      var last := cases[|cases| - 1].target;
      if last.TableTarget? then init else init + [(last.name, residual)]
  }

  /** Every case not leading to a table contributes its target, and every
      assignment carries the residual. */
  lemma {:induction false} EdgesCharacterised(cases: seq<Case>, residual: int)
    ensures var kvs := Edges(cases, residual);
      && (forall i :: 0 <= i < |kvs| ==> kvs[i].1 == residual)
      && (forall i :: 0 <= i < |cases| && !cases[i].target.TableTarget? ==>
            cases[i].target.name in Keys(kvs))
      && (forall k :: k in Keys(kvs) ==>
            exists i :: 0 <= i < |cases| && !cases[i].target.TableTarget? && cases[i].target.name == k)
    decreases |cases|
  {
    if |cases| > 0 {
      var init := cases[..|cases| - 1];
      var last := cases[|cases| - 1].target;
      var kvs := Edges(cases, residual);
      EdgesCharacterised(init, residual);
      assert forall i :: 0 <= i < |cases| - 1 ==> init[i] == cases[i];
      if !last.TableTarget? {
        KeysOfConcat(Edges(init, residual), [(last.name, residual)]);
        assert Keys(kvs)[|Edges(init, residual)|] == last.name;
      }
    }
  }

  /** The state's own record after its visit: the word stages appended to
      its steps, and its outgoing edges assigned its residual. */
  ghost predicate Processed(g: Graph, s: string, c: Ctx, c': Ctx)
    requires s in g && Prepared(g, c) && Prepared(g, c')
  {
    var old_ := c.steps[s];
    var new_ := c'.steps[s];
    && |new_| > |old_|
    && new_ == old_ + Chop(new_[|old_|], c.fieldWidth[s])
    && c'.unparsedOut[s] ==
         PutAll(c.unparsedOut[s], Edges(g[s].branchTo, Residual(new_[|old_|], c.fieldWidth[s])))
  }

  /** `s` got new word stages from `c` to `c'`, and, unless it is the start
      state, the first of them (the counter it was entered with) is at least
      one word: every other state is entered on a fresh word. */
  ghost predicate EnteredOnWord(s: string, c: Ctx, c': Ctx) {
    && s in c.steps && s in c'.steps && |c'.steps[s]| > |c.steps[s]|
    && (s != "start" ==> c'.steps[s][|c.steps[s]|] >= WordBits)
  }

  /** Every parse-state successor of `s` is visited. */
  ghost predicate Closed(g: Graph, s: string, visited: set<string>)
    requires s in g
  {
    forall k :: 0 <= k < |g[s].branchTo| && g[s].branchTo[k].target.StateTarget? ==>
      g[s].branchTo[k].target.name in visited
  }

  /** What a traversal step keeps and what it does, from `w` to `w'`;
      `owner` is the state whose edges the step may assign, if any. */
  ghost predicate Advances(g: Graph, w: Walk, w': Walk, owner: Option<string>)
    requires Prepared(g, w.ctx)
  {
    && w.visited <= w'.visited
    && w'.visited - w.visited <= g.Keys
    && w'.ctx.stack == w.ctx.stack
    && w'.ctx.fieldWidth == w.ctx.fieldWidth
    && w'.ctx.unparsedIn == w.ctx.unparsedIn
    && w'.ctx.steps.Keys == w.ctx.steps.Keys
    && w'.ctx.unparsedOut.Keys == w.ctx.unparsedOut.Keys
    && Prepared(g, w'.ctx)
    && (forall s :: s in w.ctx.steps && s !in w'.visited - w.visited ==>
          w'.ctx.steps[s] == w.ctx.steps[s])
    && (forall s :: s in w.ctx.unparsedOut && s !in w'.visited - w.visited && Some(s) != owner ==>
          w'.ctx.unparsedOut[s] == w.ctx.unparsedOut[s])
    && (forall s {:trigger Processed(g, s, w.ctx, w'.ctx)} :: s in w'.visited - w.visited ==>
          Processed(g, s, w.ctx, w'.ctx))
    && (forall s {:trigger Closed(g, s, w'.visited)} :: s in w'.visited - w.visited ==>
          Closed(g, s, w'.visited))
    && (w.ctx.counter >= 0 ==> w'.ctx.counter >= 0)
    && (w.ctx.counter >= 0 ==>
          forall s {:trigger EnteredOnWord(s, w.ctx, w'.ctx)} :: s in w'.visited - w.visited ==>
            EnteredOnWord(s, w.ctx, w'.ctx))
  }

  lemma {:induction false} SubsetCardinality<T>(a: set<T>, b: set<T>)
    requires a <= b
    ensures |a| <= |b|
    decreases |b|
  {
    if a != {} {
      var x :| x in a;
      SubsetCardinality(a - {x}, b - {x});
    }
  }

  /** The measure of the traversal: the states not yet visited. */
  function Unvisited(g: Graph, visited: set<string>): nat
  {
    |g.Keys - visited|
  }

  lemma UnvisitedShrinks(g: Graph, a: set<string>, b: set<string>)
    requires a <= b
    ensures Unvisited(g, b) <= Unvisited(g, a)
  {
    SubsetCardinality(g.Keys - b, g.Keys - a);
  }

  /** Two traversal steps make one. */
  lemma AdvancesTrans(g: Graph, w0: Walk, w1: Walk, w2: Walk,
                      o1: Option<string>, o2: Option<string>, o: Option<string>)
    requires Prepared(g, w0.ctx) && Prepared(g, w1.ctx)
    requires Advances(g, w0, w1, o1) && Advances(g, w1, w2, o2)
    requires o1 == None || o1 == o
    requires o2 == None || o2 == o
    requires o.Some? ==> o.value in w0.visited
    ensures Advances(g, w0, w2, o)
  {
    forall s | s in w2.visited - w0.visited
      ensures Processed(g, s, w0.ctx, w2.ctx) && Closed(g, s, w2.visited)
    {
      if s in w1.visited - w0.visited {
        assert Processed(g, s, w0.ctx, w1.ctx) && Closed(g, s, w1.visited);
        assert w2.ctx.steps[s] == w1.ctx.steps[s];
        assert w2.ctx.unparsedOut[s] == w1.ctx.unparsedOut[s];
      } else {
        assert Processed(g, s, w1.ctx, w2.ctx) && Closed(g, s, w2.visited);
        assert w1.ctx.steps[s] == w0.ctx.steps[s];
        assert w1.ctx.unparsedOut[s] == w0.ctx.unparsedOut[s];
      }
    }
    EnteredOnWordTrans(g, w0, w1, w2, o1, o2);
  }

  /** The states newly visited over two advances are entered on a fresh word
      when the first started on a counter that is not negative. */
  lemma EnteredOnWordTrans(g: Graph, w0: Walk, w1: Walk, w2: Walk, o1: Option<string>, o2: Option<string>)
    requires Prepared(g, w0.ctx) && Prepared(g, w1.ctx)
    requires Advances(g, w0, w1, o1) && Advances(g, w1, w2, o2)
    ensures w0.ctx.counter >= 0 ==>
      forall s :: s in w2.visited - w0.visited ==> EnteredOnWord(s, w0.ctx, w2.ctx)
  {
    if w0.ctx.counter >= 0 {
      forall s | s in w2.visited - w0.visited
        ensures EnteredOnWord(s, w0.ctx, w2.ctx)
      {
        if s in w1.visited - w0.visited {
          assert EnteredOnWord(s, w0.ctx, w1.ctx);
          assert w2.ctx.steps[s] == w1.ctx.steps[s];
        } else {
          assert EnteredOnWord(s, w1.ctx, w2.ctx);
          assert w1.ctx.steps[s] == w0.ctx.steps[s];
        }
      }
    }
  }

  /** The conclusion of a visit of `name`: its own stages and edges, and the
      steps of the states visited from it. */
  lemma VisitAdvances(g: Graph, name: string, w: Walk, w2: Walk)
    requires Prepared(g, w.ctx) && name in g && name !in w.visited
    requires Prepared(g, Enter(name, w).ctx)
    requires Advances(g, Enter(name, w), w2, Some(name))
    requires Closed(g, name, w2.visited)
    requires w2.ctx.unparsedOut[name] ==
      PutAll(w.ctx.unparsedOut[name], Edges(g[name].branchTo[0..], Enter(name, w).ctx.counter))
    ensures Advances(g, w, Leave(w2), None)
  {
    var w' := Leave(w2);
    VisitEnters(g, name, w, w2);
    assert Processed(g, name, w.ctx, w'.ctx);
    VisitProcessesOthers(g, name, w, w2);
  }

  /** How a visit of `name` starts: it is entered at `EntryCounter` of the
      counter it found, which fixes its stages and edges, and every other
      state reached from it is entered on a fresh word. */
  lemma VisitEnters(g: Graph, name: string, w: Walk, w2: Walk)
    requires Prepared(g, w.ctx) && name in g && name !in w.visited
    requires Prepared(g, Enter(name, w).ctx)
    requires Advances(g, Enter(name, w), w2, Some(name))
    requires w2.ctx.unparsedOut[name] ==
      PutAll(w.ctx.unparsedOut[name], Edges(g[name].branchTo[0..], Enter(name, w).ctx.counter))
    ensures Prepared(g, Leave(w2).ctx) && Entered(g, name, w, Leave(w2))
    ensures w.ctx.counter >= 0 ==> EnteredOnWord(name, w.ctx, Leave(w2).ctx)
  {
    var w1 := Enter(name, w);
    var w' := Leave(w2);
    var t := EntryCounter(name, w.ctx.counter);
    var before := w.ctx.steps[name];
    var after := w'.ctx.steps[name];
    assert after == w1.ctx.steps[name] == before + Chop(t, w.ctx.fieldWidth[name]);
    assert after[|before|] == t;
    assert g[name].branchTo[0..] == g[name].branchTo;
    assert Prepared(g, w'.ctx);
    assert w1.ctx.counter == Residual(t, w.ctx.fieldWidth[name]);
    VisitEntersOthersOnWord(g, name, w, w2);
  }

  /** The states visited from `name` keep the stages and edges their own
      visits gave them, and their successors stay visited. */
  lemma VisitProcessesOthers(g: Graph, name: string, w: Walk, w2: Walk)
    requires Prepared(g, w.ctx) && name in g && name !in w.visited
    requires Prepared(g, Enter(name, w).ctx)
    requires Advances(g, Enter(name, w), w2, Some(name))
    ensures forall s :: s in Leave(w2).visited - w.visited && s != name ==>
      Processed(g, s, w.ctx, Leave(w2).ctx) && Closed(g, s, Leave(w2).visited)
  {
    var w1 := Enter(name, w);
    forall s | s in Leave(w2).visited - w.visited && s != name
      ensures Processed(g, s, w.ctx, Leave(w2).ctx) && Closed(g, s, Leave(w2).visited)
    {
      assert s in w2.visited - w1.visited;
      assert Processed(g, s, w1.ctx, w2.ctx) && Closed(g, s, w2.visited);
    }
  }

  /** The states visited from `name` (after `name` has been entered) are
      entered on a fresh word, as the counter is not negative once `name` is
      entered. */
  lemma VisitEntersOthersOnWord(g: Graph, name: string, w: Walk, w2: Walk)
    requires Prepared(g, w.ctx) && name in g && name !in w.visited
    requires Prepared(g, Enter(name, w).ctx)
    requires Advances(g, Enter(name, w), w2, Some(name))
    ensures forall s :: s in Leave(w2).visited - w.visited && s != name ==>
      EnteredOnWord(s, w.ctx, Leave(w2).ctx)
  {
    var w1 := Enter(name, w);
    assert w1.ctx.counter >= 0;
    forall s | s in Leave(w2).visited - w.visited && s != name
      ensures EnteredOnWord(s, w.ctx, Leave(w2).ctx)
    {
      assert s in w2.visited - w1.visited;
      assert EnteredOnWord(s, w1.ctx, w2.ctx);
    }
  }

  /** The visit of `name` from `w` to `w'`: `name` is entered at
      `EntryCounter` of the counter it found, its stages and edges come from
      that value, and every other state reached during the visit is entered
      on a fresh word. */
  ghost predicate Entered(g: Graph, name: string, w: Walk, w': Walk)
    requires name in g && Prepared(g, w.ctx) && Prepared(g, w'.ctx)
  {
    var t := EntryCounter(name, w.ctx.counter);
    && w'.ctx.steps[name] == w.ctx.steps[name] + Chop(t, w.ctx.fieldWidth[name])
    && w'.ctx.unparsedOut[name] ==
         PutAll(w.ctx.unparsedOut[name], Edges(g[name].branchTo, Residual(t, w.ctx.fieldWidth[name])))
    && (forall s {:trigger EnteredOnWord(s, w.ctx, w'.ctx)} :: s in w'.visited - w.visited && s != name ==>
          EnteredOnWord(s, w.ctx, w'.ctx))
  }

  /** The frame every traversal function keeps: the visited set only grows,
      the stack comes back as it was, and the context keeps knowing every
      state. */
  ghost predicate Keeps(g: Graph, w: Walk, w': Walk) {
    && w.visited <= w'.visited
    && w'.ctx.stack == w.ctx.stack
    && w'.ctx.fieldWidth == w.ctx.fieldWidth
    && w'.ctx.unparsedIn == w.ctx.unparsedIn
    && w'.ctx.steps.Keys == w.ctx.steps.Keys
    && w'.ctx.unparsedOut.Keys == w.ctx.unparsedOut.Keys
    && (w.ctx.counter >= 0 ==> w'.ctx.counter >= 0)
  }

  lemma KeepsPrepared(g: Graph, w: Walk, w': Walk)
    requires Prepared(g, w.ctx) && Keeps(g, w, w')
    ensures Prepared(g, w'.ctx)
  {
  }

  /** The counter a visit of `name` starts from: a fresh word, except for
      the start state, which begins at the counter as it is. */
  function EntryCounter(name: string, counter: int): (t: int)
    ensures t == counter <==> name == "start"
    ensures t == counter || t == counter + WordBits
  {
    if name != "start" then counter + WordBits else counter
  }

  /** Entering `name`: mark it visited, record its word stages, leave its
      residual in the counter and push it on the stack. */
  function Enter(name: string, w: Walk): (w1: Walk)
    requires name in w.ctx.fieldWidth && name in w.ctx.steps
    ensures w1.visited == w.visited + {name}
    ensures w1.ctx.stack == w.ctx.stack + [name]
    ensures w1.ctx.fieldWidth == w.ctx.fieldWidth && w1.ctx.unparsedIn == w.ctx.unparsedIn
    ensures w1.ctx.unparsedOut == w.ctx.unparsedOut
    ensures w1.ctx.counter == Residual(EntryCounter(name, w.ctx.counter), w.ctx.fieldWidth[name])
    ensures w1.ctx.steps ==
      w.ctx.steps[name := w.ctx.steps[name] + Chop(EntryCounter(name, w.ctx.counter), w.ctx.fieldWidth[name])]
  {
    var width := w.ctx.fieldWidth[name];
    var stages := Chop(EntryCounter(name, w.ctx.counter), width);
    var c := w.ctx.(counter := stages[|stages| - 1] - width,
                    steps := w.ctx.steps[name := w.ctx.steps[name] + stages],
                    stack := w.ctx.stack + [name]);
    Walk(c, w.visited + {name})
  }

  /** Leaving a state: pop the stack. */
  function Leave(w: Walk): Walk
    requires |w.ctx.stack| > 0
  {
    Walk(w.ctx.(stack := w.ctx.stack[..|w.ctx.stack| - 1]), w.visited)
  }

  /** `process_parser(node, stack, visited)`: the visit of state `name`. */
  function Visit(g: Graph, name: string, w: Walk): (w': Walk)
    requires WellFormed(g) && Prepared(g, w.ctx)
    requires name in g && name !in w.visited
    ensures name in w'.visited
    ensures Keeps(g, w, w') && Prepared(g, w'.ctx)
    ensures w'.ctx.counter >= 0
    decreases Unvisited(g, w.visited), 0, 0, 0
  {
    var w1 := Enter(name, w);
    assert g.Keys - w1.visited == (g.Keys - w.visited) - {name};
    Leave(CasesLoop(g, name, w1.ctx.counter, 0, w1))
  }

  /** The assignment one case makes: `residual` to the edge from the top of
      the stack to the case's target, unless the target is a table. */
  function AssignEdge(c: Ctx, target: Target, residual: int): (c': Ctx)
    requires |c.stack| > 0 && c.stack[|c.stack| - 1] in c.unparsedOut
    ensures c'.counter == c.counter && c'.stack == c.stack && c'.steps == c.steps
    ensures c'.fieldWidth == c.fieldWidth && c'.unparsedIn == c.unparsedIn
    ensures c'.unparsedOut.Keys == c.unparsedOut.Keys
    ensures forall s :: s in c.unparsedOut && s != c.stack[|c.stack| - 1] ==>
      c'.unparsedOut[s] == c.unparsedOut[s]
  {
    if target.TableTarget? then c
    else
      var top := c.stack[|c.stack| - 1];
      c.(unparsedOut := c.unparsedOut[top := Put(c.unparsedOut[top], target.name, residual)])
  }

  /** The loop over the branch cases of `owner`: a case not leading to a
      table assigns `residual` to the edge from the top of the stack to its
      target; after each case, every unvisited parse-state target of `owner`
      is visited. */
  function CasesLoop(g: Graph, owner: string, residual: int, i: nat, w: Walk): (w': Walk)
    requires WellFormed(g) && Prepared(g, w.ctx)
    requires owner in g && owner in w.visited && i <= |g[owner].branchTo|
    requires |w.ctx.stack| > 0 && w.ctx.stack[|w.ctx.stack| - 1] == owner
    requires w.ctx.counter >= 0
    ensures Keeps(g, w, w') && Prepared(g, w'.ctx)
    decreases Unvisited(g, w.visited), 2, |g[owner].branchTo| - i, 1
  {
    var cases := g[owner].branchTo;
    if i == |cases| then w
    else
      var w2 := RecurseLoop(g, owner, 0, Walk(AssignEdge(w.ctx, cases[i].target, residual), w.visited));
      UnvisitedShrinks(g, w.visited, w2.visited);
      CasesLoop(g, owner, residual, i + 1, w2)
  }

  /** The inner loop over all branch cases of `owner`, visiting every
      parse-state target not yet visited. */
  function RecurseLoop(g: Graph, owner: string, j: nat, w: Walk): (w': Walk)
    requires WellFormed(g) && Prepared(g, w.ctx)
    requires owner in g && owner in w.visited && j <= |g[owner].branchTo|
    ensures Keeps(g, w, w') && Prepared(g, w'.ctx)
    decreases Unvisited(g, w.visited), 1, |g[owner].branchTo| - j, 0
  {
    var cases := g[owner].branchTo;
    if j == |cases| then w
    else
      var target := cases[j].target;
      if target.StateTarget? && target.name !in w.visited then
        var w1 := Visit(g, target.name, w);
        UnvisitedShrinks(g, w.visited, w1.visited);
        RecurseLoop(g, owner, j + 1, w1)
      else
        RecurseLoop(g, owner, j + 1, w)
  }

  /** What a visit does: every state it reaches for the first time, `name`
      included, gets its word stages and its edges, and has all its
      parse-state successors visited; nothing else changes. */
  lemma {:induction false} VisitAdvancesAll(g: Graph, name: string, w: Walk)
    requires WellFormed(g) && Prepared(g, w.ctx)
    requires name in g && name !in w.visited
    ensures Advances(g, w, Visit(g, name, w), None)
    ensures Entered(g, name, w, Visit(g, name, w))
    decreases Unvisited(g, w.visited), 0, 0, 0
  {
    var w1 := Enter(name, w);
    assert g.Keys - w1.visited == (g.Keys - w.visited) - {name};
    CasesLoopAdvances(g, name, w1.ctx.counter, 0, w1);
    VisitAdvances(g, name, w, CasesLoop(g, name, w1.ctx.counter, 0, w1));
    VisitEnters(g, name, w, CasesLoop(g, name, w1.ctx.counter, 0, w1));
  }

  /** What the loop over the cases of `owner` does: the edges of `owner` get
      the assignments of the remaining cases, and all parse-state successors
      of `owner` are visited. */
  lemma {:induction false} CasesLoopAdvances(g: Graph, owner: string, residual: int, i: nat, w: Walk)
    requires WellFormed(g) && Prepared(g, w.ctx)
    requires owner in g && owner in w.visited && i <= |g[owner].branchTo|
    requires |w.ctx.stack| > 0 && w.ctx.stack[|w.ctx.stack| - 1] == owner
    requires w.ctx.counter >= 0
    requires i > 0 ==> Closed(g, owner, w.visited)
    ensures var w' := CasesLoop(g, owner, residual, i, w);
      && Advances(g, w, w', Some(owner))
      && Closed(g, owner, w'.visited)
      && w'.ctx.unparsedOut[owner] ==
           PutAll(w.ctx.unparsedOut[owner], Edges(g[owner].branchTo[i..], residual))
    decreases Unvisited(g, w.visited), 2, |g[owner].branchTo| - i, 1
  {
    var cases := g[owner].branchTo;
    if i == |cases| {
      assert cases[i..] == [];
      assert Advances(g, w, w, Some(owner));
    } else {
      var m := w.ctx.unparsedOut[owner];
      var w2 := RecurseLoop(g, owner, 0, Walk(AssignEdge(w.ctx, cases[i].target, residual), w.visited));
      CaseAdvances(g, owner, residual, i, w);
      UnvisitedShrinks(g, w.visited, w2.visited);
      var w' := CasesLoop(g, owner, residual, i + 1, w2);
      assert w' == CasesLoop(g, owner, residual, i, w);
      CasesLoopAdvances(g, owner, residual, i + 1, w2);
      AdvancesTrans(g, w, w2, w', Some(owner), Some(owner), Some(owner));
      CasesStep(cases, i, residual, m);
    }
  }

  /** One case of the loop: its edge assignment, then the inner loop. */
  lemma {:induction false} CaseAdvances(g: Graph, owner: string, residual: int, i: nat, w: Walk)
    requires WellFormed(g) && Prepared(g, w.ctx)
    requires owner in g && owner in w.visited && i < |g[owner].branchTo|
    requires |w.ctx.stack| > 0 && w.ctx.stack[|w.ctx.stack| - 1] == owner
    ensures var target := g[owner].branchTo[i].target;
      var m := w.ctx.unparsedOut[owner];
      var w2 := RecurseLoop(g, owner, 0, Walk(AssignEdge(w.ctx, target, residual), w.visited));
      && Advances(g, w, w2, Some(owner))
      && Closed(g, owner, w2.visited)
      && w2.ctx.stack == w.ctx.stack
      && (w.ctx.counter >= 0 ==> w2.ctx.counter >= 0)
      && w2.ctx.unparsedOut[owner] == (if target.TableTarget? then m else Put(m, target.name, residual))
    decreases Unvisited(g, w.visited), 2, |g[owner].branchTo| - i, 0
  {
    var target := g[owner].branchTo[i].target;
    var m := w.ctx.unparsedOut[owner];
    var w1 := Walk(AssignEdge(w.ctx, target, residual), w.visited);
    assert w1.ctx.unparsedOut[owner] == if target.TableTarget? then m else Put(m, target.name, residual);
    assert Advances(g, w, w1, Some(owner));
    var w2 := RecurseLoop(g, owner, 0, w1);
    RecurseLoopAdvances(g, owner, 0, w1);
    RecurseLoopVisits(g, owner, 0, w1);
    AdvancesTrans(g, w, w1, w2, Some(owner), None, Some(owner));
    assert w2.ctx.unparsedOut[owner] == w1.ctx.unparsedOut[owner];
  }

  /** What the inner loop does: the states it visits are processed and
      closed; nothing else changes. */
  lemma {:induction false} RecurseLoopAdvances(g: Graph, owner: string, j: nat, w: Walk)
    requires WellFormed(g) && Prepared(g, w.ctx)
    requires owner in g && owner in w.visited && j <= |g[owner].branchTo|
    ensures Advances(g, w, RecurseLoop(g, owner, j, w), None)
    decreases Unvisited(g, w.visited), 1, |g[owner].branchTo| - j, 0
  {
    var cases := g[owner].branchTo;
    if j == |cases| {
      assert Advances(g, w, w, None);
    } else {
      var target := cases[j].target;
      var w1 := w;
      if target.StateTarget? && target.name !in w.visited {
        w1 := Visit(g, target.name, w);
        VisitAdvancesAll(g, target.name, w);
      } else {
        assert Advances(g, w, w, None);
      }
      UnvisitedShrinks(g, w.visited, w1.visited);
      var w' := RecurseLoop(g, owner, j + 1, w1);
      assert w' == RecurseLoop(g, owner, j, w);
      RecurseLoopAdvances(g, owner, j + 1, w1);
      AdvancesTrans(g, w, w1, w', None, None, None);
    }
  }

  /** The inner loop visits every parse-state target of `owner` from case
      `j` on. */
  lemma {:induction false} RecurseLoopVisits(g: Graph, owner: string, j: nat, w: Walk)
    requires WellFormed(g) && Prepared(g, w.ctx)
    requires owner in g && owner in w.visited && j <= |g[owner].branchTo|
    ensures forall k :: j <= k < |g[owner].branchTo| && g[owner].branchTo[k].target.StateTarget? ==>
      g[owner].branchTo[k].target.name in RecurseLoop(g, owner, j, w).visited
    decreases |g[owner].branchTo| - j
  {
    var cases := g[owner].branchTo;
    if j < |cases| {
      var target := cases[j].target;
      var w1 := if target.StateTarget? && target.name !in w.visited then Visit(g, target.name, w) else w;
      assert Keeps(g, w, w1) && Prepared(g, w1.ctx);
      var w' := RecurseLoop(g, owner, j + 1, w1);
      assert w' == RecurseLoop(g, owner, j, w);
      RecurseLoopVisits(g, owner, j + 1, w1);
      assert Keeps(g, w1, w');
      if target.StateTarget? {
        assert target.name in w1.visited;
      }
    }
  }

  lemma CasesStep(cases: seq<Case>, i: nat, residual: int, m: OMap<string, int>)
    requires i < |cases|
    ensures var t := cases[i].target;
      PutAll(m, Edges(cases[i..], residual)) ==
        PutAll(if t.TableTarget? then m else Put(m, t.name, residual), Edges(cases[i + 1..], residual))
  {
    var t := cases[i].target;
    assert cases[i..] == [cases[i]] + cases[i + 1..];
    EdgesOfConcat([cases[i]], cases[i + 1..], residual);
    assert [cases[i]][..0] == [];
    var first := Edges([cases[i]], residual);
    PutAllOfConcat(m, first, Edges(cases[i + 1..], residual));
    if !t.TableTarget? {
      assert first == [(t.name, residual)];
      assert first[..0] == [];
    }
  }

  lemma {:induction false} EdgesOfConcat(a: seq<Case>, b: seq<Case>, residual: int)
    ensures Edges(a + b, residual) == Edges(a, residual) + Edges(b, residual)
    decreases |b|
  {
    if |b| == 0 {
      assert a + b == a;
    } else {
      assert (a + b)[..|a + b| - 1] == a + b[..|b| - 1];
      EdgesOfConcat(a, b[..|b| - 1], residual);
    }
  }

  // ----- the whole traversal -----

  /** The top-level call `process_parser(start, stack)`: a visit of `root`
      with nothing visited yet. */
  function ProcessParser(g: Graph, root: string, c: Ctx): (r: Walk)
    requires WellFormed(g) && Prepared(g, c) && root in g
    ensures root in r.visited && r.visited <= g.Keys
    ensures r.ctx.stack == c.stack && r.ctx.fieldWidth == c.fieldWidth
    ensures Prepared(g, r.ctx) && r.ctx.counter >= 0
  {
    var r := Visit(g, root, Walk(c, {}));
    VisitAdvancesAll(g, root, Walk(c, {}));
    r
  }

  /** `b` is reached from `a` in `n` parse-state transitions. */
  ghost predicate ReachableIn(g: Graph, a: string, b: string, n: nat)
    decreases n
  {
    if n == 0 then a == b
    else
      a in g && exists k :: (0 <= k < |g[a].branchTo| && g[a].branchTo[k].target.StateTarget?
        && ReachableIn(g, g[a].branchTo[k].target.name, b, n - 1))
  }

  /** What the traversal computes: each state it visits is a state of the
      graph, gets its word stages appended and its edges assigned, exactly
      once, and has all its parse-state successors visited; the states it
      does not visit are left as they were. */
  lemma ProcessParserCharacterised(g: Graph, root: string, c: Ctx)
    requires WellFormed(g) && Prepared(g, c) && root in g
    ensures var r := ProcessParser(g, root, c);
      && (forall s :: s in r.visited ==> s in g && Processed(g, s, c, r.ctx) && Closed(g, s, r.visited))
      && (forall s :: s in g && s !in r.visited ==>
            r.ctx.steps[s] == c.steps[s] && r.ctx.unparsedOut[s] == c.unparsedOut[s])
      && r.ctx.steps[root] == c.steps[root] + Chop(EntryCounter(root, c.counter), c.fieldWidth[root])
      && r.ctx.unparsedOut[root] == PutAll(c.unparsedOut[root],
           Edges(g[root].branchTo, Residual(EntryCounter(root, c.counter), c.fieldWidth[root])))
      && (forall s :: s in r.visited && s != root ==> EnteredOnWord(s, c, r.ctx))
      && (c.counter >= 0 ==> forall s :: s in r.visited ==> EnteredOnWord(s, c, r.ctx))
  {
    var w := Walk(c, {});
    var r := ProcessParser(g, root, c);
    assert r == Visit(g, root, w);
    VisitAdvancesAll(g, root, w);
    assert r.visited - w.visited == r.visited;
  }

  /** A state without branch cases is visited by entering and leaving it:
      only its own stages change, and the counter is its residual. */
  lemma LeafVisit(g: Graph, name: string, w: Walk)
    requires WellFormed(g) && Prepared(g, w.ctx)
    requires name in g && name !in w.visited && g[name].branchTo == []
    ensures var v := Visit(g, name, w);
      var t := EntryCounter(name, w.ctx.counter);
      && v.visited == w.visited + {name}
      && v.ctx.fieldWidth == w.ctx.fieldWidth
      && v.ctx.counter == Residual(t, w.ctx.fieldWidth[name])
      && v.ctx.steps == w.ctx.steps[name := w.ctx.steps[name] + Chop(t, w.ctx.fieldWidth[name])]
  {
    var e := Enter(name, w);
    assert CasesLoop(g, name, e.ctx.counter, 0, e) == e;
  }

  /** The recursion loop does nothing once every state it could visit from
      case `j` on has been visited. */
  lemma {:induction false} RecurseLoopAllVisited(g: Graph, owner: string, j: nat, w: Walk)
    requires WellFormed(g) && Prepared(g, w.ctx)
    requires owner in g && owner in w.visited && j <= |g[owner].branchTo|
    requires forall k :: j <= k < |g[owner].branchTo| && g[owner].branchTo[k].target.StateTarget? ==>
      g[owner].branchTo[k].target.name in w.visited
    ensures RecurseLoop(g, owner, j, w) == w
    decreases |g[owner].branchTo| - j
  {
    if j < |g[owner].branchTo| {
      RecurseLoopAllVisited(g, owner, j + 1, w);
    }
  }

  /** A visit of `name` from `w` adds `Chop` of its entry counter to its
      stages and leaves the stages of every state visited before alone. */
  lemma VisitSteps(g: Graph, name: string, w: Walk, other: string)
    requires WellFormed(g) && Prepared(g, w.ctx)
    requires name in g && name !in w.visited && other in w.visited && other in w.ctx.steps
    ensures var w' := Visit(g, name, w);
      && w'.ctx.steps[name] == w.ctx.steps[name] + Chop(EntryCounter(name, w.ctx.counter), w.ctx.fieldWidth[name])
      && w'.ctx.steps[other] == w.ctx.steps[other]
  {
    VisitAdvancesAll(g, name, w);
  }

  /** The recursion loop of `start` over the leaves `a` and then `b`, both
      unvisited: `a` is entered one word past the counter found, `b` one
      word past the residual `a` left. */
  lemma RecurseTwoLeaves(g: Graph, w: Walk, ta: int, tb: int)
    requires WellFormed(g) && Prepared(g, w.ctx)
    requires "start" in g && "a" in g && "b" in g
    requires "start" in w.visited && "a" !in w.visited && "b" !in w.visited
    requires |g["start"].branchTo| == 2
    requires g["start"].branchTo[0].target == StateTarget("a")
    requires g["start"].branchTo[1].target == StateTarget("b")
    requires g["a"].branchTo == [] && g["b"].branchTo == []
    requires ta == w.ctx.counter + WordBits && tb == Residual(ta, w.ctx.fieldWidth["a"]) + WordBits
    ensures var r := RecurseLoop(g, "start", 0, w);
      && r.ctx.steps["a"] == w.ctx.steps["a"] + Chop(ta, w.ctx.fieldWidth["a"])
      && r.ctx.steps["b"] == w.ctx.steps["b"] + Chop(tb, w.ctx.fieldWidth["b"])
      && "a" in r.visited && "b" in r.visited
  {
    var v1 := Visit(g, "a", w);
    LeafVisit(g, "a", w);
    RecurseLoopVisitsNext(g, "start", 0, w);
    assert EntryCounter("a", w.ctx.counter) == ta;
    assert v1.ctx.steps["a"] == w.ctx.steps["a"] + Chop(ta, w.ctx.fieldWidth["a"]);
    assert v1.ctx.steps["b"] == w.ctx.steps["b"];
    assert EntryCounter("b", v1.ctx.counter) == tb;
    var v2 := Visit(g, "b", v1);
    VisitSteps(g, "b", v1, "a");
    RecurseLoopVisitsNext(g, "start", 1, v1);
    assert RecurseLoop(g, "start", 2, v2) == v2;
  }

  /** A case leading to an unvisited state visits it before the loop moves
      on. */
  lemma RecurseLoopVisitsNext(g: Graph, owner: string, j: nat, w: Walk)
    requires WellFormed(g) && Prepared(g, w.ctx)
    requires owner in g && owner in w.visited && j < |g[owner].branchTo|
    requires g[owner].branchTo[j].target.StateTarget? && g[owner].branchTo[j].target.name !in w.visited
    ensures RecurseLoop(g, owner, j, w) ==
      RecurseLoop(g, owner, j + 1, Visit(g, g[owner].branchTo[j].target.name, w))
  {
  }

  /** The walk after entering `start` and assigning the edge of its first
      case. */
  ghost function FirstCaseWalk(g: Graph, c: Ctx): Walk
    requires Prepared(g, c) && "start" in g && |g["start"].branchTo| > 0
  {
    var w1 := Enter("start", Walk(c, {}));
    Walk(AssignEdge(w1.ctx, g["start"].branchTo[0].target, w1.ctx.counter), w1.visited)
  }

  /** Once every parse-state successor of `owner` has been visited, the rest
      of its cases loop only assigns edges: the stages and the visited set
      stay as they are. */
  lemma {:induction false} CasesLoopAllVisited(g: Graph, owner: string, residual: int, i: nat, w: Walk)
    requires WellFormed(g) && Prepared(g, w.ctx)
    requires owner in g && owner in w.visited && i <= |g[owner].branchTo|
    requires |w.ctx.stack| > 0 && w.ctx.stack[|w.ctx.stack| - 1] == owner
    requires w.ctx.counter >= 0
    requires forall k :: 0 <= k < |g[owner].branchTo| && g[owner].branchTo[k].target.StateTarget? ==>
      g[owner].branchTo[k].target.name in w.visited
    ensures CasesLoop(g, owner, residual, i, w).ctx.steps == w.ctx.steps
    ensures CasesLoop(g, owner, residual, i, w).visited == w.visited
    decreases |g[owner].branchTo| - i
  {
    var cases := g[owner].branchTo;
    if i < |cases| {
      var w2 := Walk(AssignEdge(w.ctx, cases[i].target, residual), w.visited);
      RecurseLoopAllVisited(g, owner, 0, w2);
      CasesLoopAllVisited(g, owner, residual, i + 1, w2);
    }
  }

  /** The walk after the first case of `start` keeps every other state's
      stages and carries the residual of `start`. */
  lemma FirstCaseWalkOf(g: Graph, c: Ctx)
    requires Prepared(g, c) && "start" in g && |g["start"].branchTo| > 0
    ensures var wa := FirstCaseWalk(g, c);
      && Prepared(g, wa.ctx) && wa.visited == {"start"}
      && |wa.ctx.stack| > 0 && wa.ctx.stack[|wa.ctx.stack| - 1] == "start"
      && (forall s :: s in c.steps && s != "start" ==> wa.ctx.steps[s] == c.steps[s])
      && wa.ctx.fieldWidth == c.fieldWidth
      && wa.ctx.counter == Residual(c.counter, c.fieldWidth["start"])
  {
  }

  /** With `start` branching to the leaves `a` and then `b`, the stages the
      traversal from `start` leaves are those of its first recursion loop. */
  lemma StartOfTwoLeaves(g: Graph, c: Ctx)
    requires WellFormed(g) && Prepared(g, c)
    requires "start" in g && "a" in g && "b" in g
    requires |g["start"].branchTo| == 2
    requires g["start"].branchTo[0].target == StateTarget("a")
    requires g["start"].branchTo[1].target == StateTarget("b")
    requires g["a"].branchTo == [] && g["b"].branchTo == []
    requires Prepared(g, FirstCaseWalk(g, c).ctx) && FirstCaseWalk(g, c).visited == {"start"}
    ensures ProcessParser(g, "start", c).ctx.steps == RecurseLoop(g, "start", 0, FirstCaseWalk(g, c)).ctx.steps
  {
    var cases := g["start"].branchTo;
    var w1 := Enter("start", Walk(c, {}));
    var res := w1.ctx.counter;
    var wa := FirstCaseWalk(g, c);
    var v2 := RecurseLoop(g, "start", 0, wa);
    var ta := wa.ctx.counter + WordBits;
    RecurseTwoLeaves(g, wa, ta, Residual(ta, wa.ctx.fieldWidth["a"]) + WordBits);
    assert forall k :: 0 <= k < |cases| ==> cases[k].target.name in v2.visited by {
      forall k | 0 <= k < |cases| ensures cases[k].target.name in v2.visited {
        assert k == 0 || k == 1;
      }
    }
    CasesLoopAllVisited(g, "start", res, 1, v2);
    assert CasesLoop(g, "start", res, 0, w1) == CasesLoop(g, "start", res, 1, v2);
  }

  /** The counter is shared by the whole traversal and never restored: with
      `start` branching to the leaves `a` and then `b`, `b` is entered one
      word past the residual `a` left, not the one `start` left. */
  lemma SiblingEntersAfterSibling(g: Graph, c: Ctx, ta: int, tb: int)
    requires WellFormed(g) && Prepared(g, c)
    requires "start" in g && "a" in g && "b" in g
    requires |g["start"].branchTo| == 2
    requires g["start"].branchTo[0].target == StateTarget("a")
    requires g["start"].branchTo[1].target == StateTarget("b")
    requires g["a"].branchTo == [] && g["b"].branchTo == []
    requires ta == Residual(c.counter, c.fieldWidth["start"]) + WordBits
    requires tb == Residual(ta, c.fieldWidth["a"]) + WordBits
    ensures ProcessParser(g, "start", c).ctx.steps["a"] == c.steps["a"] + Chop(ta, c.fieldWidth["a"])
    ensures ProcessParser(g, "start", c).ctx.steps["b"] == c.steps["b"] + Chop(tb, c.fieldWidth["b"])
  {
    FirstCaseWalkOf(g, c);
    StartOfTwoLeaves(g, c);
    RecurseTwoLeaves(g, FirstCaseWalk(g, c), ta, tb);
  }

  /** The traversal visits every state reachable from the root. */
  lemma ProcessParserReachesAll(g: Graph, root: string, c: Ctx, s: string, n: nat)
    requires WellFormed(g) && Prepared(g, c) && root in g
    requires ReachableIn(g, root, s, n)
    ensures s in ProcessParser(g, root, c).visited
  {
    var r := ProcessParser(g, root, c);
    ProcessParserCharacterised(g, root, c);
    ClosedReachesOnlyVisited(g, r.visited, root, s, n);
  }

  /** A visited set closed under parse-state transitions holds everything
      reachable from its members. */
  lemma {:induction false} ClosedReachesOnlyVisited(g: Graph, visited: set<string>, a: string, b: string, n: nat)
    requires forall s :: s in visited ==> s in g && Closed(g, s, visited)
    requires a in visited && ReachableIn(g, a, b, n)
    ensures b in visited
    decreases n
  {
    if n > 0 {
      var k :| 0 <= k < |g[a].branchTo| && g[a].branchTo[k].target.StateTarget?
        && ReachableIn(g, g[a].branchTo[k].target.name, b, n - 1);
      assert Closed(g, a, visited);
      ClosedReachesOnlyVisited(g, visited, g[a].branchTo[k].target.name, b, n - 1);
    }
  }

  // ----- preprocess_parser -----

  /** The bits one call of the call sequence extracts: the width of the
      header it extracts, if the header is known. */
  function CallWidth(headers: seq<HeaderInstance>, call: CallItem): nat
  {
    if call.Extract? && FindHeader(headers, call.header).Some? then
      FieldsWidth(FindHeader(headers, call.header).value.fields)
    else 0
  }

  function SumCallWidths(headers: seq<HeaderInstance>, calls: seq<CallItem>): nat
  {
    if |calls| == 0 then 0
    else SumCallWidths(headers, calls[..|calls| - 1]) + CallWidth(headers, calls[|calls| - 1])
  }

  /** A call the width computation accepts: the extraction of a known header.
      The original unpacks each call as a pair, which a `set_metadata` call
      (a triple) fails. */
  predicate WidthDefined(headers: seq<HeaderInstance>, call: CallItem) {
    call.Extract? && FindHeader(headers, call.header).Some?
  }

  /** The width loop of `preprocess_parser`, accumulating from the front. */
  function ExtractedWidth(headers: seq<HeaderInstance>, calls: seq<CallItem>, i: nat, acc: nat): (r: Result<nat>)
    requires i <= |calls|
    requires acc == SumCallWidths(headers, calls[..i])
    ensures r.Ok? <==> forall k :: i <= k < |calls| ==> WidthDefined(headers, calls[k])
    ensures r.Ok? ==> r.value == SumCallWidths(headers, calls)
    decreases |calls| - i
  {
    if i == |calls| then
      assert calls[..i] == calls;
      Ok(acc)
    else
      assert calls[..i + 1][..i] == calls[..i];
      match calls[i]
      case SetMetadata(_, _) => Err(UnsupportedConstruct("set_metadata in a parse state"))
      case Extract(h) =>
        match FindHeader(headers, h)
        case None => Err(MalformedGraph("unknown header instance " + h))
        case Some(hi) => ExtractedWidth(headers, calls, i + 1, acc + FieldsWidth(hi.fields))
  }

  /** The (successor, 0) assignments for the cases leading to parse states. */
  function ZeroEdges(cases: seq<Case>): (kvs: seq<(string, int)>)
    ensures |kvs| == Cases.CountStateTargets(cases)
  {
    if |cases| == 0 then []
    else
      var init := ZeroEdges(cases[..|cases| - 1]);
      var t := cases[|cases| - 1].target;
      if t.StateTarget? then init + [(t.name, 0)] else init
  }

  /** `k` is a parse-state successor of some case of `cases`. */
  predicate IsStateSuccessor(cases: seq<Case>, k: string) {
    exists i :: 0 <= i < |cases| && cases[i].target == StateTarget(k)
  }

  /** The incoming-edge half of the zero assignments of
      `preprocess_parser`, case by case: each case leading to a parse state
      `v` records 0 unparsed bits under `name` in the incoming edges of `v`.
      A successor without incoming edges is a missing key. */
  function ZeroIn(name: string, cases: seq<Case>, ins: map<string, OMap<string, int>>)
    : (r: Result<map<string, OMap<string, int>>>)
    ensures r.Ok? <==> forall i :: 0 <= i < |cases| && cases[i].target.StateTarget? ==>
      cases[i].target.name in ins
    ensures r.Ok? ==> r.value.Keys == ins.Keys
    ensures r.Ok? ==> forall k :: k in ins ==>
      r.value[k] == if IsStateSuccessor(cases, k) then Put(ins[k], name, 0) else ins[k]
    decreases |cases|
  {
    if |cases| == 0 then Ok(ins)
    else
      var init := cases[..|cases| - 1];
      var t := cases[|cases| - 1].target;
      SuccessorsOfInit(cases);
      var ins1 :- ZeroIn(name, init, ins);
      if !t.StateTarget? then Ok(ins1)
      else if t.name !in ins1 then Err(MalformedGraph("unknown parse state " + t.name))
      else
        var r := ins1[t.name := Put(ins1[t.name], name, 0)];
        ZeroInStep(name, cases, ins, ins1, r);
        Ok(r)
  }

  /** The successors of a run of cases are those of all but its last case,
      plus the target of the last. */
  lemma SuccessorsOfInit(cases: seq<Case>)
    requires |cases| > 0
    ensures var init := cases[..|cases| - 1];
      && (forall i :: 0 <= i < |init| ==> init[i] == cases[i])
      && forall k :: IsStateSuccessor(cases, k) <==>
           IsStateSuccessor(init, k) || cases[|cases| - 1].target == StateTarget(k)
  {
    var init := cases[..|cases| - 1];
    forall k | IsStateSuccessor(cases, k)
      ensures IsStateSuccessor(init, k) || cases[|cases| - 1].target == StateTarget(k)
    {
      var i :| 0 <= i < |cases| && cases[i].target == StateTarget(k);
      if i < |init| {
        assert init[i] == cases[i];
      }
    }
    forall k | IsStateSuccessor(init, k)
      ensures IsStateSuccessor(cases, k)
    {
      var i :| 0 <= i < |init| && init[i].target == StateTarget(k);
      assert cases[i] == init[i];
    }
  }

  lemma ZeroInStep(name: string, cases: seq<Case>, ins: map<string, OMap<string, int>>,
                   ins1: map<string, OMap<string, int>>, r: map<string, OMap<string, int>>)
    requires |cases| > 0 && cases[|cases| - 1].target.StateTarget?
    requires cases[|cases| - 1].target.name in ins1 && ins1.Keys == ins.Keys
    requires forall k :: IsStateSuccessor(cases, k) <==>
      IsStateSuccessor(cases[..|cases| - 1], k) || cases[|cases| - 1].target == StateTarget(k)
    requires forall k :: k in ins ==>
      ins1[k] == if IsStateSuccessor(cases[..|cases| - 1], k) then Put(ins[k], name, 0) else ins[k]
    requires var v := cases[|cases| - 1].target.name; r == ins1[v := Put(ins1[v], name, 0)]
    ensures forall k :: k in ins ==>
      r[k] == if IsStateSuccessor(cases, k) then Put(ins[k], name, 0) else ins[k]
  {
    var v := cases[|cases| - 1].target.name;
    forall k | k in ins
      ensures r[k] == if IsStateSuccessor(cases, k) then Put(ins[k], name, 0) else ins[k]
    {
      if k == v && IsStateSuccessor(cases[..|cases| - 1], k) {
        PutSame(Put(ins[k], name, 0), name, 0);
      }
    }
  }

  /** Every key of `m` (the parse states) is reset to the empty dictionary;
      other keys are kept. */
  function Reset<V>(m: map<string, seq<V>>, states: set<string>): (r: map<string, seq<V>>)
    ensures r.Keys == m.Keys + states
    ensures forall k :: k in states ==> r[k] == []
    ensures forall k :: k in m && k !in states ==> r[k] == m[k]
  {
    map k | k in m.Keys + states :: if k in states then [] else m[k]
  }

  /** `preprocess_parser(hlir)` for parse state `name`: record the width of
      what it extracts, reset the steps and edges of every parse state, then
      give each of its parse-state successors a zero edge in both
      directions. */
  function Preprocess(headers: seq<HeaderInstance>, g: Graph, name: string, c: Ctx): (r: Result<Ctx>)
    requires name in g
    ensures r.Ok? <==>
      && (forall k :: 0 <= k < |g[name].callSequence| ==> WidthDefined(headers, g[name].callSequence[k]))
      && (forall i :: 0 <= i < |g[name].branchTo| && g[name].branchTo[i].target.StateTarget? ==>
            g[name].branchTo[i].target.name in c.unparsedIn.Keys + g.Keys)
    ensures r.Ok? ==> r.value.fieldWidth == c.fieldWidth[name := SumCallWidths(headers, g[name].callSequence)]
    ensures r.Ok? ==> r.value.counter == c.counter && r.value.stack == c.stack
    ensures r.Ok? ==> r.value.steps == Reset(c.steps, g.Keys)
    ensures r.Ok? ==> r.value.unparsedOut.Keys == c.unparsedOut.Keys + g.Keys
    ensures r.Ok? ==> r.value.unparsedOut[name] == PutAll([], ZeroEdges(g[name].branchTo))
    ensures r.Ok? ==> forall k :: k in g && k != name ==> r.value.unparsedOut[k] == []
    ensures r.Ok? ==> r.value.unparsedIn.Keys == c.unparsedIn.Keys + g.Keys
    ensures r.Ok? ==> forall k :: k in g ==>
      r.value.unparsedIn[k] == if IsStateSuccessor(g[name].branchTo, k) then [(name, 0)] else []
  {
    var width :- ExtractedWidth(headers, g[name].callSequence, 0, 0);
    var ins :- PreprocessIn(g, name, c.unparsedIn);
    Ok(c.(fieldWidth := c.fieldWidth[name := width],
          unparsedIn := ins,
          unparsedOut := PreprocessOut(g, name, c.unparsedOut),
          steps := Reset(c.steps, g.Keys)))
  }

  /** The incoming edges once `name` is preprocessed: every parse state's
      dictionary is cleared, then each successor of `name` holds a single
      zero edge from it. */
  function PreprocessIn(g: Graph, name: string, ins: map<string, OMap<string, int>>)
    : (r: Result<map<string, OMap<string, int>>>)
    requires name in g
    ensures r.Ok? <==> forall i :: 0 <= i < |g[name].branchTo| && g[name].branchTo[i].target.StateTarget? ==>
      g[name].branchTo[i].target.name in ins.Keys + g.Keys
    ensures r.Ok? ==> r.value.Keys == ins.Keys + g.Keys
    ensures r.Ok? ==> forall k :: k in g ==>
      r.value[k] == if IsStateSuccessor(g[name].branchTo, k) then [(name, 0)] else []
  {
    assert Put([], name, 0) == [(name, 0)];
    ZeroIn(name, g[name].branchTo, Reset(ins, g.Keys))
  }

  /** The outgoing edges once `name` is preprocessed: every parse state's
      dictionary is cleared, and `name` holds a zero edge per successor. */
  function PreprocessOut(g: Graph, name: string, outs: map<string, OMap<string, int>>)
    : (r: map<string, OMap<string, int>>)
    requires name in g
    ensures r.Keys == outs.Keys + g.Keys
    ensures r[name] == PutAll([], ZeroEdges(g[name].branchTo))
    ensures forall k :: k in g && k != name ==> r[k] == []
  {
    var cleared := Reset(outs, g.Keys);
    cleared[name := PutAll(cleared[name], ZeroEdges(g[name].branchTo))]
  }

  /** After preprocessing, the outgoing edges of a state fit the next-state
      arbiter of its module: one signal source per parse-state case, besides
      the state's own. */
  lemma PreprocessedEdgesFitArbiter(headers: seq<HeaderInstance>, g: Graph, name: string, c: Ctx)
    requires name in g && Preprocess(headers, g, name, c).Ok?
    ensures var out := Preprocess(headers, g, name, c).value.unparsedOut[name];
      Distinct(Keys(out)) && |out| <= Cases.NumNextState(g[name]) - 1
  {
    var kvs := ZeroEdges(g[name].branchTo);
    PutAllSize([], kvs);
    PutAllKeys(kvs);
    Cases.CountStateTargetsIsCardinality(g[name].branchTo);
  }

  // ----- postprocess_parser -----

  /** `postprocess_parser(hlir)` for parse state `name`: each parse-state
      successor `v` takes over, as its incoming edge from `name`, the value
      the outgoing edge `name -> v` holds. A missing key fails. */
  function Postprocess(name: string, cases: seq<Case>, c: Ctx): (r: Result<Ctx>)
    ensures r.Ok? <==> forall i :: 0 <= i < |cases| && cases[i].target.StateTarget? ==>
      name in c.unparsedOut && cases[i].target.name in Keys(c.unparsedOut[name])
      && cases[i].target.name in c.unparsedIn
    ensures r.Ok? ==> r.value == c.(unparsedIn := r.value.unparsedIn)
    ensures r.Ok? ==> r.value.unparsedIn.Keys == c.unparsedIn.Keys
    ensures r.Ok? ==> forall i :: 0 <= i < |cases| && cases[i].target.StateTarget? ==>
      Get(r.value.unparsedIn[cases[i].target.name], name) == Get(c.unparsedOut[name], cases[i].target.name)
    ensures r.Ok? ==> forall k :: k in c.unparsedIn && !IsStateSuccessor(cases, k) ==>
      r.value.unparsedIn[k] == c.unparsedIn[k]
    ensures r.Ok? ==> OnlyEntryOf(name, cases, c.unparsedIn, r.value.unparsedIn)
  {
    if name in c.unparsedOut then
      var ins :- CopyIn(name, cases, c.unparsedOut[name], c.unparsedIn);
      CopyInFramed(name, cases, c.unparsedOut[name], c.unparsedIn, ins);
      Ok(c.(unparsedIn := ins))
    else if exists i :: 0 <= i < |cases| && cases[i].target.StateTarget? then
      Err(MalformedGraph("no outgoing edges of " + name))
    else
      assert forall k :: !IsStateSuccessor(cases, k);
      Ok(c)
  }

  /** `after` differs from `before` at most in the entry under `name` of
      the incoming edges of each successor in `cases`: every other entry
      keeps its value, and the key order is kept, `name` being appended
      where it was missing. */
  ghost predicate OnlyEntryOf(name: string, cases: seq<Case>,
                              before: map<string, OMap<string, int>>, after: map<string, OMap<string, int>>)
  {
    && after.Keys == before.Keys
    && (forall v, k :: v in before && k != name ==> Get(after[v], k) == Get(before[v], k))
    && (forall v :: v in before ==>
          Keys(after[v]) == if IsStateSuccessor(cases, v) && name !in Keys(before[v])
                             then Keys(before[v]) + [name] else Keys(before[v]))
  }

  /** The loop of `postprocess_parser` over the cases, given the outgoing
      edges `outs` of `name`: each parse-state successor `v` is assigned,
      under `name`, the value of the edge `name -> v`; nothing else is
      assigned. */
  function CopyIn(name: string, cases: seq<Case>, outs: OMap<string, int>, ins: map<string, OMap<string, int>>)
    : (r: Result<map<string, OMap<string, int>>>)
    ensures r.Ok? <==> forall i :: 0 <= i < |cases| && cases[i].target.StateTarget? ==>
      cases[i].target.name in Keys(outs) && cases[i].target.name in ins
    ensures r.Ok? ==> r.value.Keys == ins.Keys
    ensures r.Ok? ==> forall k :: k in ins ==>
      r.value[k] == if IsStateSuccessor(cases, k) then Put(ins[k], name, EdgeTo(outs, k)) else ins[k]
    decreases |cases|
  {
    if |cases| == 0 then Ok(ins)
    else
      var init := cases[..|cases| - 1];
      var t := cases[|cases| - 1].target;
      SuccessorsOfInit(cases);
      var ins1 :- CopyIn(name, init, outs, ins);
      if !t.StateTarget? then Ok(ins1)
      else if Get(outs, t.name).None? then Err(MalformedGraph("no outgoing edge to " + t.name))
      else if t.name !in ins1 then Err(MalformedGraph("unknown parse state " + t.name))
      else
        var r := ins1[t.name := Put(ins1[t.name], name, EdgeTo(outs, t.name))];
        CopyInStep(name, cases, outs, ins, ins1, r);
        Ok(r)
  }

  /** The unparsed bits the edge `name -> v` of `outs` holds (0 when there
      is no such edge). */
  function EdgeTo(outs: OMap<string, int>, v: string): (x: int)
    ensures v in Keys(outs) ==> Get(outs, v) == Some(x)
  {
    match Get(outs, v)
    case Some(x) => x
    case None => 0
  }

  lemma CopyInStep(name: string, cases: seq<Case>, outs: OMap<string, int>,
                   ins: map<string, OMap<string, int>>, ins1: map<string, OMap<string, int>>,
                   r: map<string, OMap<string, int>>)
    requires |cases| > 0 && cases[|cases| - 1].target.StateTarget?
    requires cases[|cases| - 1].target.name in ins1 && ins1.Keys == ins.Keys
    requires forall k :: IsStateSuccessor(cases, k) <==>
      IsStateSuccessor(cases[..|cases| - 1], k) || cases[|cases| - 1].target == StateTarget(k)
    requires forall k :: k in ins ==>
      ins1[k] == if IsStateSuccessor(cases[..|cases| - 1], k) then Put(ins[k], name, EdgeTo(outs, k)) else ins[k]
    requires var v := cases[|cases| - 1].target.name; r == ins1[v := Put(ins1[v], name, EdgeTo(outs, v))]
    ensures forall k :: k in ins ==>
      r[k] == if IsStateSuccessor(cases, k) then Put(ins[k], name, EdgeTo(outs, k)) else ins[k]
  {
    var v := cases[|cases| - 1].target.name;
    forall k | k in ins
      ensures r[k] == if IsStateSuccessor(cases, k) then Put(ins[k], name, EdgeTo(outs, k)) else ins[k]
    {
      if k == v && IsStateSuccessor(cases[..|cases| - 1], k) {
        PutSame(Put(ins[k], name, EdgeTo(outs, k)), name, EdgeTo(outs, k));
      }
    }
  }

  /** What the assignments of `CopyIn` mean for the incoming edges: each
      successor's entry under `name` is the outgoing edge to it, and every
      other entry, and every other state's edges, are as before. */
  lemma CopyInFramed(name: string, cases: seq<Case>, outs: OMap<string, int>,
                     ins: map<string, OMap<string, int>>, r: map<string, OMap<string, int>>)
    requires forall i :: 0 <= i < |cases| && cases[i].target.StateTarget? ==>
      cases[i].target.name in Keys(outs) && cases[i].target.name in ins
    requires r.Keys == ins.Keys
    requires forall k :: k in ins ==>
      r[k] == if IsStateSuccessor(cases, k) then Put(ins[k], name, EdgeTo(outs, k)) else ins[k]
    ensures forall i :: 0 <= i < |cases| && cases[i].target.StateTarget? ==>
      Get(r[cases[i].target.name], name) == Get(outs, cases[i].target.name)
    ensures forall k :: k in ins && !IsStateSuccessor(cases, k) ==> r[k] == ins[k]
    ensures OnlyEntryOf(name, cases, ins, r)
  {
    forall i | 0 <= i < |cases| && cases[i].target.StateTarget?
      ensures Get(r[cases[i].target.name], name) == Get(outs, cases[i].target.name)
    {
      assert IsStateSuccessor(cases, cases[i].target.name);
    }
    forall v | v in ins
      ensures Keys(r[v]) == if IsStateSuccessor(cases, v) && name !in Keys(ins[v])
                            then Keys(ins[v]) + [name] else Keys(ins[v])
    {
    }
  }

  /** After the traversal processed `s`, postprocessing `s` succeeds and each
      parse-state successor receives, as its incoming edge from `s`, the
      residual of `s`: the unparsed bits it is entered with. */
  lemma PostprocessAfterVisit(g: Graph, s: string, c: Ctx, c': Ctx)
    requires s in g && Prepared(g, c) && Prepared(g, c')
    requires Processed(g, s, c, c')
    requires forall i :: 0 <= i < |g[s].branchTo| && g[s].branchTo[i].target.StateTarget? ==>
      g[s].branchTo[i].target.name in c'.unparsedIn
    ensures var r := Postprocess(s, g[s].branchTo, c');
      var old_ := c.steps[s];
      var entry := c'.steps[s][|old_|];
      && r.Ok?
      && forall i :: 0 <= i < |g[s].branchTo| && g[s].branchTo[i].target.StateTarget? ==>
           Get(r.value.unparsedIn[g[s].branchTo[i].target.name], s) == Some(Residual(entry, c.fieldWidth[s]))
  {
    var cases := g[s].branchTo;
    var res := Residual(c'.steps[s][|c.steps[s]|], c.fieldWidth[s]);
    var kvs := Edges(cases, res);
    EdgesCharacterised(cases, res);
    forall i | 0 <= i < |cases| && cases[i].target.StateTarget?
      ensures Get(c'.unparsedOut[s], cases[i].target.name) == Some(res)
    {
      var v := cases[i].target.name;
      PutAllGet(c.unparsedOut[s], kvs, v);
      LastValueConstant(kvs, v, res);
    }
    assert s in c'.unparsedOut;
    var r := Postprocess(s, cases, c');
    assert r.Ok?;
  }
}

=== FILE: structs.dfy ===
/** The struct and table descriptors of the BIR, and the field-width map:
    `Header`, `TableRequest`, `TableResponse` and `Meta`, `Table.build_table`,
    and `MetaIR.build_structs` and `MetaIR.prepare_local_var`.

    A struct's fields are a list of one-entry dictionaries in the original;
    here they are a sequence of (name, width) pairs, which may repeat a name.
    The dictionaries the compiler fills (`structs`, `field_width`, the field
    set of the merged metadata struct) are ordered dictionaries.
 */
module Structs {
  import opened Outcomes
  import opened Hlir
  import opened Text
  import opened OrderedMaps

  /** A struct descriptor: its name and its fields in order. */
  datatype Struct = Struct(name: string, fields: seq<(string, nat)>)

  /** The summed widths of a run of struct fields. */
  function StructWidth(fields: seq<(string, nat)>): nat
  {
    if |fields| == 0 then 0 else StructWidth(fields[..|fields| - 1]) + fields[|fields| - 1].1
  }

  // ----- Header -----

  /** The (name, width) field of each header field, appended in order. */
  function HeaderFields(fields: seq<Field>): (fs: seq<(string, nat)>)
    ensures |fs| == |fields|
    decreases |fields|
  {
    if |fields| == 0 then []
    else HeaderFields(fields[..|fields| - 1]) + [(fields[|fields| - 1].name, fields[|fields| - 1].width)]
  }

  /** `Header(hdr)`: the struct of a header instance, named after it with
      the suffix `_t`. */
  function HeaderStruct(h: HeaderInstance): (s: Struct)
    ensures s.name == h.name + "_t"
    ensures |s.fields| == |h.fields|
  {
    Struct(h.name + "_t", HeaderFields(h.fields))
  }

  /** The header struct has one field per header field, with the same name
      and width, in source order, and it is exactly as wide as what a parse
      state counts for extracting the header. */
  lemma {:induction false} HeaderStructCharacterised(h: HeaderInstance)
    ensures var s := HeaderStruct(h);
      && (forall i :: 0 <= i < |h.fields| ==> s.fields[i] == (h.fields[i].name, h.fields[i].width))
      && StructWidth(s.fields) == FieldsWidth(h.fields)
  {
    HeaderFieldsCharacterised(h.fields);
  }

  lemma {:induction false} HeaderFieldsCharacterised(fields: seq<Field>)
    ensures forall i :: 0 <= i < |fields| ==> HeaderFields(fields)[i] == (fields[i].name, fields[i].width)
    ensures StructWidth(HeaderFields(fields)) == FieldsWidth(fields)
    decreases |fields|
  {
    if |fields| > 0 {
      var init := fields[..|fields| - 1];
      HeaderFieldsCharacterised(init);
      var fs := HeaderFields(fields);
      assert fs[..|fs| - 1] == HeaderFields(init);
    }
  }

  // ----- TableRequest -----

  /** The (name, width) field of each match field, appended in order. */
  function RequestFields(matchFields: seq<MatchField>): (fs: seq<(string, nat)>)
    ensures |fs| == |matchFields|
    decreases |matchFields|
  {
    if |matchFields| == 0 then []
    else
      var f := matchFields[|matchFields| - 1].field;
      RequestFields(matchFields[..|matchFields| - 1]) + [(f.name, f.width)]
  }

  /** `TableRequest(tbl)`: the struct of a table's lookup key. */
  function TableRequestStruct(t: Table): (s: Struct)
    ensures s.name == t.name + "_req_t"
    ensures |s.fields| == |t.matchFields|
  {
    Struct(t.name + "_req_t", RequestFields(t.matchFields))
  }

  /** The request struct has one field per match field, with the field's
      name and width, in source order. */
  lemma {:induction false} TableRequestCharacterised(t: Table)
    ensures forall i :: 0 <= i < |t.matchFields| ==>
      TableRequestStruct(t).fields[i] == (t.matchFields[i].field.name, t.matchFields[i].field.width)
  {
    RequestFieldsCharacterised(t.matchFields);
  }

  lemma {:induction false} RequestFieldsCharacterised(matchFields: seq<MatchField>)
    ensures forall i :: 0 <= i < |matchFields| ==>
      RequestFields(matchFields)[i] == (matchFields[i].field.name, matchFields[i].field.width)
    decreases |matchFields|
  {
    if |matchFields| > 0 {
      RequestFieldsCharacterised(matchFields[..|matchFields| - 1]);
    }
  }

  // ----- TableResponse -----

  /** `sum(widths)`. */
  function SumWidths(ws: seq<nat>): nat
  {
    if |ws| == 0 then 0 else SumWidths(ws[..|ws| - 1]) + ws[|ws| - 1]
  }

  /** `'action_{}_arg{}'.format(idx, 0)`. */
  function ActionArgName(idx: nat): string
  {
    "action_" + NatToDec(idx) + "_arg0"
  }

  /** Distinct action positions give distinct field names. */
  lemma ActionArgNameInjective(i: nat, j: nat)
    requires ActionArgName(i) == ActionArgName(j)
    ensures i == j
  {
    var a, b := NatToDec(i), NatToDec(j);
    var s := ActionArgName(i);
    assert s == "action_" + a + "_arg0" && s == "action_" + b + "_arg0";
    assert a == s[7..7 + |a|] == b;
    NatToBaseInjective(i, j, 10);
  }

  /** Action `i` has a response field: its parameter widths sum to more
      than 0. */
  predicate HasArgs(actions: seq<Action>, i: int) {
    0 <= i < |actions| && SumWidths(actions[i].signatureWidths) > 0
  }

  /** The response field of action `i`. */
  function ArgField(actions: seq<Action>, i: int): (string, nat)
    requires 0 <= i < |actions|
  {
    (ActionArgName(i), SumWidths(actions[i].signatureWidths))
  }

  /** The positions of the actions that have parameters, in increasing order. */
  function ArgPositions(actions: seq<Action>): (ps: seq<nat>)
    ensures forall j :: 0 <= j < |ps| ==> ps[j] < |actions|
    decreases |actions|
  {
    if |actions| == 0 then []
    else
      var idx := |actions| - 1;
      var init := ArgPositions(actions[..idx]);
      if HasArgs(actions, idx) then init + [idx] else init
  }

  /** The positions listed are exactly those of the actions with
      parameters, in increasing order. */
  lemma {:induction false} ArgPositionsCharacterised(actions: seq<Action>)
    ensures var ps := ArgPositions(actions);
      && (forall j :: 0 <= j < |ps| ==> HasArgs(actions, ps[j]))
      && (forall i :: HasArgs(actions, i) ==> i in ps)
      && (forall j1, j2 :: 0 <= j1 < j2 < |ps| ==> ps[j1] < ps[j2])
    decreases |actions|
  {
    if |actions| > 0 {
      var idx := |actions| - 1;
      var init := actions[..idx];
      ArgPositionsCharacterised(init);
      ArgPositionsSnoc(actions);
      var pp, ps := ArgPositions(init), ArgPositions(actions);
      forall j | 0 <= j < |ps|
        ensures HasArgs(actions, ps[j])
      {
        if j < |pp| {
          assert ps[j] == pp[j] && init[pp[j]] == actions[pp[j]];
        }
      }
      forall i | HasArgs(actions, i)
        ensures i in ps
      {
        if i < idx {
          assert init[i] == actions[i];
          assert HasArgs(init, i);
        }
      }
    }
  }

  /** The response fields of the actions, one per action whose parameter
      widths sum to more than 0, named after the action's position. */
  function ResponseFields(actions: seq<Action>): (fs: seq<(string, nat)>)
    ensures |fs| <= |actions|
    decreases |actions|
  {
    if |actions| == 0 then []
    else
      var idx := |actions| - 1;
      var w := SumWidths(actions[idx].signatureWidths);
      var init := ResponseFields(actions[..idx]);
      if w == 0 then init else init + [(ActionArgName(idx), w)]
  }

  /** `TableResponse(tbl)`: the struct of a table's lookup result. */
  function TableResponseStruct(t: Table): (s: Struct)
    ensures s.name == t.name + "_resp_t"
    ensures |s.fields| <= |t.actions|
  {
    Struct(t.name + "_resp_t", ResponseFields(t.actions))
  }

  /** The `j`-th response field belongs to the `j`-th action with
      parameters. */
  lemma {:induction false} ResponseFieldsByPosition(actions: seq<Action>)
    ensures FieldsAtPositions(actions, ResponseFields(actions), ArgPositions(actions))
    decreases |actions|
  {
    if |actions| > 0 {
      var idx := |actions| - 1;
      ResponseFieldsByPosition(actions[..idx]);
      ResponseFieldsSnoc(actions);
      ArgPositionsSnoc(actions);
      FieldsAtPositionsExtend(actions, ResponseFields(actions[..idx]), ArgPositions(actions[..idx]));
      if HasArgs(actions, idx) {
        FieldsAtPositionsSnoc(actions, ResponseFields(actions[..idx]), ArgPositions(actions[..idx]), idx);
      }
    }
  }

  /** Field `j` of `fs` is the response field of the action at `ps[j]`. */
  predicate FieldsAtPositions(actions: seq<Action>, fs: seq<(string, nat)>, ps: seq<nat>) {
    && |fs| == |ps|
    && (forall j :: 0 <= j < |ps| ==> ps[j] < |actions|)
    && (forall j :: 0 <= j < |fs| ==> fs[j] == ArgField(actions, ps[j]))
  }

  /** Fields that match positions in a prefix still match them in the whole. */
  lemma FieldsAtPositionsExtend(actions: seq<Action>, fs: seq<(string, nat)>, ps: seq<nat>)
    requires |actions| > 0
    requires FieldsAtPositions(actions[..|actions| - 1], fs, ps)
    ensures FieldsAtPositions(actions, fs, ps)
  {
    forall j | 0 <= j < |fs|
      ensures fs[j] == ArgField(actions, ps[j])
    {
      ArgFieldOfPrefix(actions, |actions| - 1, ps[j]);
    }
  }

  lemma FieldsAtPositionsSnoc(actions: seq<Action>, fs: seq<(string, nat)>, ps: seq<nat>, p: nat)
    requires FieldsAtPositions(actions, fs, ps) && p < |actions|
    ensures FieldsAtPositions(actions, fs + [ArgField(actions, p)], ps + [p])
  {
    var fs', ps' := fs + [ArgField(actions, p)], ps + [p];
    forall j | 0 <= j < |fs'|
      ensures fs'[j] == ArgField(actions, ps'[j])
    {
      if j < |fs| {
        assert fs'[j] == fs[j] && ps'[j] == ps[j];
      }
    }
  }

  lemma ArgFieldOfPrefix(actions: seq<Action>, k: nat, p: nat)
    requires p < k <= |actions|
    ensures ArgField(actions[..k], p) == ArgField(actions, p)
  {
    assert actions[..k][p] == actions[p];
  }

  lemma ResponseFieldsSnoc(actions: seq<Action>)
    requires |actions| > 0
    ensures var idx := |actions| - 1;
      ResponseFields(actions)
        == ResponseFields(actions[..idx]) + (if HasArgs(actions, idx) then [ArgField(actions, idx)] else [])
  {
  }

  lemma ArgPositionsSnoc(actions: seq<Action>)
    requires |actions| > 0
    ensures var idx := |actions| - 1;
      ArgPositions(actions) == ArgPositions(actions[..idx]) + (if HasArgs(actions, idx) then [idx] else [])
  {
  }

  /** The response fields: exactly the fields of the actions with
      parameters, each named `action_<i>_arg0` after its position `i` among
      all actions and as wide as its parameters together, with no name
      twice. */
  lemma ResponseFieldsCharacterised(actions: seq<Action>)
    ensures var fs := ResponseFields(actions);
      && (forall i :: HasArgs(actions, i) ==> ArgField(actions, i) in fs)
      && (forall f :: f in fs ==> exists i :: HasArgs(actions, i) && f == ArgField(actions, i))
      && Distinct(Keys(fs))
  {
    var fs, ps := ResponseFields(actions), ArgPositions(actions);
    ResponseFieldsByPosition(actions);
    ArgPositionsCharacterised(actions);
    forall i | HasArgs(actions, i)
      ensures ArgField(actions, i) in fs
    {
      var j :| 0 <= j < |ps| && ps[j] == i;
      assert fs[j] == ArgField(actions, i);
    }
    forall j1, j2 | 0 <= j1 < j2 < |fs|
      ensures Keys(fs)[j1] != Keys(fs)[j2]
    {
      if Keys(fs)[j1] == Keys(fs)[j2] {
        ActionArgNameInjective(ps[j1], ps[j2]);
      }
    }
  }

  /** Two actions whose parameters are 0 and 48 bits wide give the single
      response field `action_1_arg0` of 48 bits. */
  lemma ResponseOfZeroAnd48()
    ensures ResponseFields([Action("a", []), Action("b", [48])]) == [("action_1_arg0", 48)]
  {
    var actions := [Action("a", []), Action("b", [48])];
    assert actions[..1] == [Action("a", [])];
    assert ResponseFields([Action("a", [])]) == [] by {
      assert [Action("a", [])][..0] == [];
    }
    assert SumWidths([48]) == 48 by {
      assert [48][..0] == [];
    }
    assert NatToDec(1) == "1";
    assert ActionArgName(1) == "action_1_arg0";
  }

  // ----- the merged metadata struct -----

  /** The (name, width) pair of every match field of every table, in order. */
  function TableKeyPairs(tables: seq<Table>): seq<(string, nat)>
    decreases |tables|
  {
    if |tables| == 0 then []
    else TableKeyPairs(tables[..|tables| - 1]) + RequestFields(tables[|tables| - 1].matchFields)
  }

  /** The (name, width) pair of every `branch_on` field of every parse
      state, in order. A `current(...)` element has no name, which fails. */
  function BranchOnPairs(states: seq<ParseState>): (r: Result<seq<(string, nat)>>)
    ensures r.Ok? <==> forall i, k :: 0 <= i < |states| && 0 <= k < |states[i].branchOn| ==>
      states[i].branchOn[k].FieldRef?
    decreases |states|
  {
    if |states| == 0 then Ok([])
    else
      var last := |states| - 1;
      assert forall i :: 0 <= i < last ==> states[..last][i] == states[i];
      var init :- BranchOnPairs(states[..last]);
      var own :- BranchOnFields(states[last].branchOn);
      Ok(init + FieldPairs(own))
  }

  /** The (name, width) pair of each field. */
  function FieldPairs(fields: seq<Field>): seq<(string, nat)>
  {
    seq(|fields|, k requires 0 <= k < |fields| => (fields[k].name, fields[k].width))
  }

  /** The fields of the merged metadata struct: every table's match fields,
      then every parse state's `branch_on` fields, assigned in that order. */
  function MetaFields(tables: seq<Table>, states: seq<ParseState>): (r: Result<OMap<string, nat>>)
    ensures r.Ok? <==> BranchOnPairs(states).Ok?
  {
    var parsed :- BranchOnPairs(states);
    Ok(PutAll(PutAll([], TableKeyPairs(tables)), parsed))
  }

  /** The merged metadata struct holds each field name once, in the order of
      first assignment, with the width assigned last; the match fields of
      the tables come first. */
  lemma MetaFieldsCharacterised(tables: seq<Table>, states: seq<ParseState>)
    requires MetaFields(tables, states).Ok?
    ensures var r := MetaFields(tables, states).value;
      var kvs := TableKeyPairs(tables) + BranchOnPairs(states).value;
      && Distinct(Keys(r))
      && (forall k :: k in Keys(r) <==> k in Keys(kvs))
      && InFirstSeenOrder(Keys(r), Keys(kvs))
      && (forall k :: Get(r, k) == LastValue(kvs, k))
      && Keys(PutAll([], TableKeyPairs(tables))) <= Keys(r)
      && (forall k :: k in Keys(PutAll([], TableKeyPairs(tables))) <==> k in Keys(TableKeyPairs(tables)))
  {
    var tk := TableKeyPairs(tables);
    var bp := BranchOnPairs(states).value;
    PutAllOfConcat([], tk, bp);
    PutAllCharacterised(tk + bp);
    PutAllKeysPrefix(PutAll([], tk), bp);
    PutAllKeys(tk);
  }

  /** The key of the merged metadata struct in the struct dictionary. */
  const MetaKey: string := "meta_t"

  /** `Meta(inst)`: the descriptor's name gets the suffix `_t` like every
      struct, so the struct stored under `meta_t` is named `meta_t_t`. */
  function MetaStruct(fields: OMap<string, nat>): (s: Struct)
    ensures s.name == MetaKey + "_t" && s.fields == fields
  {
    Struct(MetaKey + "_t", fields)
  }

  // ----- build_structs -----

  /** The struct of every header instance that is not metadata, keyed by its name. */
  function HeaderEntries(headers: seq<HeaderInstance>): (kvs: seq<(string, Struct)>)
    ensures forall j :: 0 <= j < |kvs| ==> kvs[j].1.name == kvs[j].0
    decreases |headers|
  {
    if |headers| == 0 then []
    else
      var h := headers[|headers| - 1];
      var init := HeaderEntries(headers[..|headers| - 1]);
      if h.metadata then init else init + [(h.name + "_t", HeaderStruct(h))]
  }

  /** The request struct of every table, keyed by its name. */
  function RequestEntries(tables: seq<Table>): (kvs: seq<(string, Struct)>)
  {
    seq(|tables|, j requires 0 <= j < |tables| => (tables[j].name + "_req_t", TableRequestStruct(tables[j])))
  }

  /** The response struct of every table, keyed by its name. */
  function ResponseEntries(tables: seq<Table>): (kvs: seq<(string, Struct)>)
  {
    seq(|tables|, j requires 0 <= j < |tables| => (tables[j].name + "_resp_t", TableResponseStruct(tables[j])))
  }

  /** Every struct of the run is stored under its own name. */
  predicate SelfNamed(kvs: seq<(string, Struct)>) {
    forall j :: 0 <= j < |kvs| ==> kvs[j].1.name == kvs[j].0
  }

  /** The header, request and response structs, in assignment order. */
  function OwnEntries(headers: seq<HeaderInstance>, tables: seq<Table>): seq<(string, Struct)>
  {
    HeaderEntries(headers) + RequestEntries(tables) + ResponseEntries(tables)
  }

  lemma SelfNamedConcat(a: seq<(string, Struct)>, b: seq<(string, Struct)>)
    requires SelfNamed(a) && SelfNamed(b)
    ensures SelfNamed(a + b)
  {
    assert forall j :: |a| <= j < |a| + |b| ==> (a + b)[j] == b[j - |a|];
  }

  /** Every header, request and response struct is keyed by its own name. */
  lemma OwnEntriesSelfNamed(headers: seq<HeaderInstance>, tables: seq<Table>)
    ensures SelfNamed(OwnEntries(headers, tables))
  {
    var hs, rq, rs := HeaderEntries(headers), RequestEntries(tables), ResponseEntries(tables);
    SelfNamedConcat(hs, rq);
    SelfNamedConcat(hs + rq, rs);
  }

  /** Every assignment `build_structs` makes into the struct dictionary, in
      order: the header structs, the request structs, the response structs
      and the merged metadata struct. */
  function StructEntries(headers: seq<HeaderInstance>, tables: seq<Table>, meta: OMap<string, nat>)
    : seq<(string, Struct)>
  {
    OwnEntries(headers, tables) + [(MetaKey, MetaStruct(meta))]
  }

  /** `build_structs`: the assignments of `StructEntries` into an empty
      struct dictionary. */
  function BuildStructs(headers: seq<HeaderInstance>, tables: seq<Table>, states: seq<ParseState>)
    : (r: Result<OMap<string, Struct>>)
    ensures r.Ok? <==> MetaFields(tables, states).Ok?
  {
    var meta :- MetaFields(tables, states);
    Ok(PutAll([], StructEntries(headers, tables, meta)))
  }

  /** Assigning a run of self-named structs stores every struct under its
      own name. */
  lemma PutAllSelfNamed(kvs: seq<(string, Struct)>)
    requires SelfNamed(kvs)
    ensures forall k :: k in Keys(PutAll([], kvs)) ==> Get(PutAll([], kvs), k).value.name == k
  {
    PutAllCharacterised(kvs);
    forall k | k in Keys(PutAll([], kvs))
      ensures Get(PutAll([], kvs), k).value.name == k
    {
      LastValueIn(kvs, k);
    }
  }

  /** The struct dictionary lists each name once; under every name it holds
      the struct assigned to that name last, so a later struct whose name
      collides overwrites an earlier one; the merged metadata struct sits
      under `meta_t`, and every other struct under its own name. */
  lemma BuildStructsCharacterised(headers: seq<HeaderInstance>, tables: seq<Table>, states: seq<ParseState>)
    requires BuildStructs(headers, tables, states).Ok?
    ensures var r := BuildStructs(headers, tables, states).value;
      && Distinct(Keys(r))
      && (forall k :: Get(r, k) == LastValue(StructEntries(headers, tables, MetaFields(tables, states).value), k))
      && Get(r, MetaKey) == Some(MetaStruct(MetaFields(tables, states).value))
      && (forall k :: k != MetaKey && k in Keys(r) ==> Get(r, k).value.name == k)
  {
    var own := OwnEntries(headers, tables);
    var meta := MetaStruct(MetaFields(tables, states).value);
    PutAllKeys(own + [(MetaKey, meta)]);
    PutAllValues(own + [(MetaKey, meta)]);
    PutAllAppend([], own, MetaKey, meta);
    OwnEntriesSelfNamed(headers, tables);
    PutAllSelfNamed(own);
  }

  /** A header instance that is not metadata, and every table, has its own
      struct stored under its name, unless another assignment uses the same
      name (a header `fwd_req` and a table `fwd` both give `fwd_req_t`). */
  lemma BuildStructsStores(headers: seq<HeaderInstance>, tables: seq<Table>, states: seq<ParseState>)
    requires BuildStructs(headers, tables, states).Ok?
    ensures var r := BuildStructs(headers, tables, states).value;
      var kvs := StructEntries(headers, tables, MetaFields(tables, states).value);
      && (forall i :: 0 <= i < |headers| && !headers[i].metadata && KeyUsedOnce(kvs, headers[i].name + "_t") ==>
            Get(r, headers[i].name + "_t") == Some(HeaderStruct(headers[i])))
      && (forall j :: 0 <= j < |tables| && KeyUsedOnce(kvs, tables[j].name + "_req_t") ==>
            Get(r, tables[j].name + "_req_t") == Some(TableRequestStruct(tables[j])))
      && (forall j :: 0 <= j < |tables| && KeyUsedOnce(kvs, tables[j].name + "_resp_t") ==>
            Get(r, tables[j].name + "_resp_t") == Some(TableResponseStruct(tables[j])))
  {
    var kvs := StructEntries(headers, tables, MetaFields(tables, states).value);
    var hs, rq, rs := HeaderEntries(headers), RequestEntries(tables), ResponseEntries(tables);
    assert kvs == hs + rq + rs + [kvs[|kvs| - 1]];
    HeaderEntriesHold(headers);
    forall i | 0 <= i < |headers| && !headers[i].metadata && KeyUsedOnce(kvs, headers[i].name + "_t")
      ensures Get(PutAll([], kvs), headers[i].name + "_t") == Some(HeaderStruct(headers[i]))
    {
      PutAllOfUnique(kvs, headers[i].name + "_t", HeaderStruct(headers[i]));
    }
    forall j | 0 <= j < |tables| && KeyUsedOnce(kvs, tables[j].name + "_req_t")
      ensures Get(PutAll([], kvs), tables[j].name + "_req_t") == Some(TableRequestStruct(tables[j]))
    {
      assert rq[j] in rq;
      PutAllOfUnique(kvs, tables[j].name + "_req_t", TableRequestStruct(tables[j]));
    }
    forall j | 0 <= j < |tables| && KeyUsedOnce(kvs, tables[j].name + "_resp_t")
      ensures Get(PutAll([], kvs), tables[j].name + "_resp_t") == Some(TableResponseStruct(tables[j]))
    {
      assert rs[j] in rs;
      PutAllOfUnique(kvs, tables[j].name + "_resp_t", TableResponseStruct(tables[j]));
    }
  }

  lemma {:induction false} HeaderEntriesHold(headers: seq<HeaderInstance>)
    ensures forall i :: 0 <= i < |headers| && !headers[i].metadata ==>
      (headers[i].name + "_t", HeaderStruct(headers[i])) in HeaderEntries(headers)
    decreases |headers|
  {
    if |headers| > 0 {
      var last := |headers| - 1;
      var init := headers[..last];
      HeaderEntriesHold(init);
      forall i | 0 <= i < |headers| && !headers[i].metadata
        ensures (headers[i].name + "_t", HeaderStruct(headers[i])) in HeaderEntries(headers)
      {
        if i < last {
          assert init[i] == headers[i];
        }
      }
    }
  }

  /** Every header instance that is not metadata and every table has its
      structs in the dictionary. */
  lemma BuildStructsComplete(headers: seq<HeaderInstance>, tables: seq<Table>, states: seq<ParseState>)
    requires BuildStructs(headers, tables, states).Ok?
    ensures var r := BuildStructs(headers, tables, states).value;
      && (forall i :: 0 <= i < |headers| && !headers[i].metadata ==> headers[i].name + "_t" in Keys(r))
      && (forall i :: 0 <= i < |tables| ==> tables[i].name + "_req_t" in Keys(r))
      && (forall i :: 0 <= i < |tables| ==> tables[i].name + "_resp_t" in Keys(r))
  {
    var hs, rq, rs := HeaderEntries(headers), RequestEntries(tables), ResponseEntries(tables);
    var own := OwnEntries(headers, tables);
    var meta := MetaStruct(MetaFields(tables, states).value);
    PutAllKeys(own + [(MetaKey, meta)]);
    KeysOfConcat(own, [(MetaKey, meta)]);
    KeysOfConcat(hs + rq, rs);
    KeysOfConcat(hs, rq);
    HeaderEntriesKeys(headers);
    assert forall i :: 0 <= i < |tables| ==> Keys(rq)[i] == tables[i].name + "_req_t";
    assert forall i :: 0 <= i < |tables| ==> Keys(rs)[i] == tables[i].name + "_resp_t";
  }

  lemma {:induction false} HeaderEntriesKeys(headers: seq<HeaderInstance>)
    ensures forall i :: 0 <= i < |headers| && !headers[i].metadata ==>
      headers[i].name + "_t" in Keys(HeaderEntries(headers))
    decreases |headers|
  {
    if |headers| > 0 {
      var last := |headers| - 1;
      var init := headers[..last];
      var prev := HeaderEntries(init);
      HeaderEntriesKeys(init);
      var h := headers[last];
      if !h.metadata {
        var kv := (h.name + "_t", HeaderStruct(h));
        assert HeaderEntries(headers) == prev + [kv];
        KeysOfConcat(prev, [kv]);
        forall i | 0 <= i < |headers| && !headers[i].metadata
          ensures headers[i].name + "_t" in Keys(HeaderEntries(headers))
        {
          if i < last {
            assert init[i] == headers[i];
          } else {
            assert Keys(prev + [kv])[|prev|] == kv.0;
          }
        }
      } else {
        assert HeaderEntries(headers) == prev;
        forall i | 0 <= i < |headers| && !headers[i].metadata
          ensures headers[i].name + "_t" in Keys(HeaderEntries(headers))
        {
          assert i < last && init[i] == headers[i];
        }
      }
    }
  }

  // ----- Table -----

  /** A table descriptor. */
  datatype TableDesc = TableDesc(depth: nat, request: string, response: string, matchType: Option<string>)

  predicate IsExactOrTernary(m: MatchField) {
    m.kind == MatchExact || m.kind == MatchTernary
  }

  /** The number of match fields of kind `kind`. */
  function CountKind(fields: seq<MatchField>, kind: MatchKind): (n: nat)
    ensures n <= |fields|
    ensures n == 0 <==> forall i :: 0 <= i < |fields| ==> fields[i].kind != kind
    ensures n == |fields| <==> forall i :: 0 <= i < |fields| ==> fields[i].kind == kind
    decreases |fields|
  {
    if |fields| == 0 then 0
    else
      var last := |fields| - 1;
      assert forall i :: 0 <= i < last ==> fields[..last][i] == fields[i];
      CountKind(fields[..last], kind) + (if fields[last].kind == kind then 1 else 0)
  }

  /** The table has both an exact and a ternary match field. */
  predicate Mixed(fields: seq<MatchField>) {
    (exists i :: 0 <= i < |fields| && fields[i].kind == MatchExact)
    && (exists j :: 0 <= j < |fields| && fields[j].kind == MatchTernary)
  }

  /** `build_table`: counts the exact and the ternary match fields, then
      scans the two counters and keeps the kind of the last non-zero one.
      The scan order of the counter dictionary is not fixed by the program;
      `exactLast` says whether the exact counter is scanned last. A match
      field of another kind has no counter, which fails. */
  function MatchType(fields: seq<MatchField>, exactLast: bool): (r: Result<Option<string>>)
    ensures r.Ok? <==> forall i :: 0 <= i < |fields| ==> IsExactOrTernary(fields[i])
  {
    if exists i :: 0 <= i < |fields| && !IsExactOrTernary(fields[i]) then
      Err(MalformedGraph("match kind without a counter"))
    else
      var exact := CountKind(fields, MatchExact);
      var ternary := CountKind(fields, MatchTernary);
      var scan := if exactLast then [(ternary, "ternary"), (exact, "exact")]
                  else [(exact, "exact"), (ternary, "ternary")];
      var first := if scan[0].0 != 0 then Some(scan[0].1) else None;
      Ok(if scan[1].0 != 0 then Some(scan[1].1) else first)
  }

  /** `Table(table)`. */
  function BuildTable(t: Table, exactLast: bool): (r: Result<TableDesc>)
    ensures r.Ok? <==> MatchType(t.matchFields, exactLast).Ok?
    ensures r.Ok? ==> (r.value.depth == t.minSize
      && r.value.request == TableRequestStruct(t).name && r.value.response == TableResponseStruct(t).name)
  {
    var mt :- MatchType(t.matchFields, exactLast);
    Ok(TableDesc(t.minSize, t.name + "_req_t", t.name + "_resp_t", mt))
  }

  /** The match type: none without match fields, `exact` when all are exact,
      `ternary` when all are ternary, and the kind scanned last when both
      occur. */
  lemma MatchTypeCharacterised(fields: seq<MatchField>, exactLast: bool)
    requires MatchType(fields, exactLast).Ok?
    ensures var mt := MatchType(fields, exactLast).value;
      && (mt.None? <==> |fields| == 0)
      && (|fields| > 0 && (forall i :: 0 <= i < |fields| ==> fields[i].kind == MatchExact) ==> mt == Some("exact"))
      && (|fields| > 0 && (forall i :: 0 <= i < |fields| ==> fields[i].kind == MatchTernary) ==> mt == Some("ternary"))
      && (Mixed(fields) ==> mt == Some(if exactLast then "exact" else "ternary"))
  {
    if |fields| > 0 {
      assert fields[0].kind == MatchExact || fields[0].kind == MatchTernary;
    }
  }

  /** The scan order matters exactly for tables mixing exact and ternary
      fields. */
  lemma MatchTypeOrderMatters(fields: seq<MatchField>)
    requires MatchType(fields, true).Ok?
    ensures MatchType(fields, true) != MatchType(fields, false) <==> Mixed(fields)
  {
    MatchTypeCharacterised(fields, true);
    MatchTypeCharacterised(fields, false);
    if |fields| > 0 && !Mixed(fields) {
      if fields[0].kind == MatchExact {
        assert forall i :: 0 <= i < |fields| ==> fields[i].kind == MatchExact;
      } else {
        assert forall i :: 0 <= i < |fields| ==> fields[i].kind == MatchTernary;
      }
    }
  }

  /** The table of the examples: one 32-bit exact match field, 1024
      entries, and actions with 0 and 48 parameter bits. */
  function ExampleTable(): Table
  {
    Table("t", 1024, [MatchField(Field("f", 32), MatchExact)], [Action("a", []), Action("b", [48])])
  }

  /** Its request struct holds the match field, its response struct the
      48-bit parameter of the second action. */
  lemma ExampleTableStructs()
    ensures TableRequestStruct(ExampleTable()) == Struct("t_req_t", [("f", 32)])
    ensures TableResponseStruct(ExampleTable()) == Struct("t_resp_t", [("action_1_arg0", 48)])
  {
    ResponseOfZeroAnd48();
    assert ExampleTable().matchFields[..0] == [];
  }

  /** Its descriptor has match type `exact` whatever the scan order. */
  lemma ExampleTableDesc(exactLast: bool)
    ensures BuildTable(ExampleTable(), exactLast) == Ok(TableDesc(1024, "t_req_t", "t_resp_t", Some("exact")))
  {
    var t := ExampleTable();
    assert forall i :: 0 <= i < |t.matchFields| ==> t.matchFields[i].kind == MatchExact;
    MatchTypeCharacterised(t.matchFields, exactLast);
    assert BuildTable(t, exactLast).Ok?;
    assert BuildTable(t, exactLast).value.matchType == Some("exact");
    assert BuildTable(t, exactLast).value.request == "t_req_t";
    assert BuildTable(t, exactLast).value.response == "t_resp_t";
  }

  // ----- prepare_local_var -----

  /** The dotted path of a header field. */
  function FieldPath(h: HeaderInstance, f: Field): string
  {
    h.name + "." + f.name
  }

  /** Some field of some header has the path `path` and the width `w`. */
  predicate HasField(headers: seq<HeaderInstance>, path: string, w: nat) {
    exists i, j :: 0 <= i < |headers| && 0 <= j < |headers[i].fields| && path == FieldPath(headers[i], headers[i].fields[j]) && w == headers[i].fields[j].width
  }

  /** The (path, width) pair of every field of every header, in order. */
  function FieldPathPairs(headers: seq<HeaderInstance>): seq<(string, nat)>
    decreases |headers|
  {
    if |headers| == 0 then []
    else
      var h := headers[|headers| - 1];
      FieldPathPairs(headers[..|headers| - 1]) + PathPairsOf(h, h.fields)
  }

  function PathPairsOf(h: HeaderInstance, fields: seq<Field>): (kvs: seq<(string, nat)>)
    ensures |kvs| == |fields|
    ensures forall j :: 0 <= j < |fields| ==> kvs[j] == (FieldPath(h, fields[j]), fields[j].width)
    decreases |fields|
  {
    if |fields| == 0 then []
    else
      var last := |fields| - 1;
      PathPairsOf(h, fields[..last]) + [(FieldPath(h, fields[last]), fields[last].width)]
  }

  /** `prepare_local_var`: the width of every header field, by dotted path. */
  function FieldWidths(headers: seq<HeaderInstance>): (m: OMap<string, nat>)
    ensures Distinct(Keys(m))
    ensures forall k :: k in Keys(m) <==> k in Keys(FieldPathPairs(headers))
    ensures InFirstSeenOrder(Keys(m), Keys(FieldPathPairs(headers)))
  {
    PutAllCharacterised(FieldPathPairs(headers));
    PutAll([], FieldPathPairs(headers))
  }

  /** Every field of every header has its path in the map, the map lists
      nothing else and each path once, and a path holds the width of some
      field with that path: of the last one, in header and field order,
      when several share it. */
  lemma FieldWidthsCharacterised(headers: seq<HeaderInstance>)
    ensures var m := FieldWidths(headers);
      && Distinct(Keys(m))
      && (forall i, j :: 0 <= i < |headers| && 0 <= j < |headers[i].fields| ==>
            FieldPath(headers[i], headers[i].fields[j]) in Keys(m))
      && (forall k :: k in Keys(m) ==> exists w :: Get(m, k) == Some(w) && HasField(headers, k, w))
      && (forall k :: Get(m, k) == LastValue(FieldPathPairs(headers), k))
  {
    var kvs := FieldPathPairs(headers);
    PutAllCharacterised(kvs);
    FieldPathPairsSound(headers);
    FieldPathPairsComplete(headers);
    forall k | k in Keys(FieldWidths(headers))
      ensures exists w :: Get(FieldWidths(headers), k) == Some(w) && HasField(headers, k, w)
    {
      LastValueIn(kvs, k);
    }
  }

  /** Every pair of the run belongs to some field of some header. */
  lemma {:induction false} FieldPathPairsSound(headers: seq<HeaderInstance>)
    ensures forall kv :: kv in FieldPathPairs(headers) ==> HasField(headers, kv.0, kv.1)
    decreases |headers|
  {
    if |headers| > 0 {
      var last := |headers| - 1;
      var init := headers[..last];
      FieldPathPairsSound(init);
      assert forall i :: 0 <= i < last ==> init[i] == headers[i];
      var h := headers[last];
      assert FieldPathPairs(headers) == FieldPathPairs(init) + PathPairsOf(h, h.fields);
    }
  }

  /** Every field of every header has its path in the run. */
  lemma {:induction false} FieldPathPairsComplete(headers: seq<HeaderInstance>)
    ensures forall i, j :: 0 <= i < |headers| && 0 <= j < |headers[i].fields| ==>
      FieldPath(headers[i], headers[i].fields[j]) in Keys(FieldPathPairs(headers))
    decreases |headers|
  {
    if |headers| > 0 {
      var last := |headers| - 1;
      var init := headers[..last];
      var h := headers[last];
      FieldPathPairsComplete(init);
      var prev, own := FieldPathPairs(init), PathPairsOf(h, h.fields);
      assert FieldPathPairs(headers) == prev + own;
      KeysOfConcat(prev, own);
      forall i, j | 0 <= i < |headers| && 0 <= j < |headers[i].fields|
        ensures FieldPath(headers[i], headers[i].fields[j]) in Keys(prev) + Keys(own)
      {
        if i == last {
          assert Keys(own)[j] == FieldPath(h, h.fields[j]);
        } else {
          assert init[i] == headers[i];
        }
      }
    }
  }
}

=== FILE: text.dfy ===
/** ASCII text helpers with the meaning Python 2 gives them on byte strings:
    character classes, `lower()`, `str()` of an integer, `hex()` and
    `format(n, 'x')`, and the `replace(".", "$")` used when naming metadata.
 */
module Text {

  predicate IsUpper(c: char) { 'A' <= c <= 'Z' }
  predicate IsLower(c: char) { 'a' <= c <= 'z' }
  predicate IsDigit(c: char) { '0' <= c <= '9' }
  predicate IsAlpha(c: char) { IsUpper(c) || IsLower(c) }
  predicate IsAlnum(c: char) { IsAlpha(c) || IsDigit(c) }

  /** The least integer Python 2 holds as a `long` rather than an `int`
      (2^63, the machine integer range of a 64-bit build). */
  const LongFrom: int := 0x8000_0000_0000_0000

  /** An integer Python 2 holds as a `long`: `isinstance(v, int)` is false
      for it, and `hex(v)` ends in `L`. */
  predicate IsLong(v: int) { v >= LongFrom || v < -LongFrom }

  /** Python's `c.lower()` on one ASCII character. */
  function ToLower(c: char): (r: char)
    ensures !IsUpper(r)
    ensures IsUpper(c) ==> IsLower(r)
    ensures !IsUpper(c) ==> r == c
    ensures IsAlnum(r) <==> IsAlnum(c)
  {
    if IsUpper(c) then ((c as int) - ('A' as int) + ('a' as int)) as char else c
  }

  /** Python's `c.upper()` on one ASCII character. */
  function ToUpper(c: char): (r: char)
    ensures !IsLower(r)
    ensures IsLower(c) ==> IsUpper(r)
    ensures !IsLower(c) ==> r == c
    ensures ToLower(r) == ToLower(c)
  {
    if IsLower(c) then ((c as int) - ('a' as int) + ('A' as int)) as char else c
  }

  /** Python's `s.lower()`. */
  function Lower(s: string): (r: string)
    ensures |r| == |s|
    ensures forall i :: 0 <= i < |s| ==> r[i] == ToLower(s[i])
  {
    seq(|s|, i requires 0 <= i < |s| => ToLower(s[i]))
  }

  predicate NoUpper(s: string) {
    forall i :: 0 <= i < |s| ==> !IsUpper(s[i])
  }

  lemma LowerOfConcat(a: string, b: string)
    ensures Lower(a + b) == Lower(a) + Lower(b)
  {
  }

  lemma LowerOfNoUpper(s: string)
    ensures NoUpper(s) ==> Lower(s) == s
  {
  }

  lemma LowerHasNoUpper(s: string)
    ensures NoUpper(Lower(s))
  {
  }

  /** The characters of `s` other than `'_'`, in order. */
  function DropUnderscores(s: string): (r: string)
    ensures |r| <= |s|
    ensures forall i :: 0 <= i < |r| ==> r[i] != '_'
  {
    if |s| == 0 then []
    else if s[0] == '_' then DropUnderscores(s[1..])
    else [s[0]] + DropUnderscores(s[1..])
  }

  lemma {:induction false} DropUnderscoresOfConcat(a: string, b: string)
    ensures DropUnderscores(a + b) == DropUnderscores(a) + DropUnderscores(b)
    decreases |a|
  {
    if |a| == 0 {
      assert a + b == b;
    } else {
      assert (a + b)[1..] == a[1..] + b;
      DropUnderscoresOfConcat(a[1..], b);
    }
  }

  /** Lower-casing and dropping underscores commute. */
  lemma {:induction false} DropUnderscoresOfLower(s: string)
    ensures DropUnderscores(Lower(s)) == Lower(DropUnderscores(s))
    decreases |s|
  {
    if |s| > 0 {
      assert Lower(s)[1..] == Lower(s[1..]);
      DropUnderscoresOfLower(s[1..]);
      if s[0] != '_' {
        LowerOfConcat([s[0]], DropUnderscores(s[1..]));
      }
    }
  }

  /** The alphanumeric characters of `s`, in order. */
  function Alnums(s: string): (r: string)
    ensures |r| <= |s|
    ensures forall i :: 0 <= i < |r| ==> IsAlnum(r[i])
  {
    if |s| == 0 then []
    else if IsAlnum(s[0]) then [s[0]] + Alnums(s[1..])
    else Alnums(s[1..])
  }

  /** Python's `s.replace(".", "$")`. */
  function ReplaceDots(s: string): (r: string)
    ensures |r| == |s|
    ensures forall i :: 0 <= i < |s| ==> r[i] != '.'
    ensures forall i :: 0 <= i < |s| && s[i] != '.' ==> r[i] == s[i]
    ensures forall i :: 0 <= i < |s| && s[i] == '.' ==> r[i] == '$'
  {
    seq(|s|, i requires 0 <= i < |s| => if s[i] == '.' then '$' else s[i])
  }

  // ----- numerals -----

  const HexAlphabet: string := "0123456789abcdef"

  /** The digit character of value `d` (lower-case for 10..15, as Python prints). */
  function DigitChar(d: nat): (c: char)
    requires d < 16
    ensures c == '0' <==> d == 0
    ensures c != '-' && c != '_' && c != '.'
  {
    HexAlphabet[d]
  }

  /** The value of a digit character; the inverse of `DigitChar`. */
  function DigitValue(c: char): nat
  {
    if '0' <= c <= '9' then (c as int) - ('0' as int)
    else if 'a' <= c <= 'f' then (c as int) - ('a' as int) + 10
    else 0
  }

  lemma DigitValueOfChar(d: nat)
    requires d < 16
    ensures DigitValue(DigitChar(d)) == d
  {
    assert HexAlphabet == ['0','1','2','3','4','5','6','7','8','9','a','b','c','d','e','f'];
  }

  predicate IsNumeral(s: string) {
    forall i :: 0 <= i < |s| ==> s[i] in HexAlphabet
  }

  /** The positional numeral of `n` in `base`, most significant digit first,
      with no leading zero: how Python prints a non-negative integer. */
  function NatToBase(n: nat, base: nat): (r: string)
    requires 2 <= base <= 16
    ensures |r| >= 1
    ensures IsNumeral(r)
    ensures |r| > 1 ==> r[0] != '0'
    ensures r[0] == '0' <==> n == 0
    decreases n
  {
    if n < base then [DigitChar(n)]
    else NatToBase(n / base, base) + [DigitChar(n % base)]
  }

  /** Reads a numeral back; the partner of `NatToBase`. */
  function BaseToNat(s: string, base: nat): nat
  {
    if |s| == 0 then 0
    else BaseToNat(s[..|s| - 1], base) * base + DigitValue(s[|s| - 1])
  }

  lemma DivModBase(n: nat, base: nat)
    requires 2 <= base <= n
    ensures n / base < n
    ensures (n / base) * base + n % base == n
    ensures n % base < base
  {
  }

  /** Printing then reading a numeral gives the number back. */
  lemma {:induction false} BaseToNatOfNatToBase(n: nat, base: nat)
    requires 2 <= base <= 16
    ensures BaseToNat(NatToBase(n, base), base) == n
    decreases n
  {
    var r := NatToBase(n, base);
    if n < base {
      DigitValueOfChar(n);
      assert r[..0] == [];
    } else {
      DivModBase(n, base);
      var q, d := n / base, n % base;
      var prefix := NatToBase(q, base);
      assert r == prefix + [DigitChar(d)];
      assert r[..|r| - 1] == prefix;
      assert r[|r| - 1] == DigitChar(d);
      BaseToNatOfNatToBase(q, base);
      DigitValueOfChar(d);
      assert BaseToNat(r, base) == BaseToNat(prefix, base) * base + d;
      assert q * base + d == n;
    }
  }

  /** Distinct numbers print as distinct numerals. */
  lemma NatToBaseInjective(m: nat, n: nat, base: nat)
    requires 2 <= base <= 16
    requires NatToBase(m, base) == NatToBase(n, base)
    ensures m == n
  {
    BaseToNatOfNatToBase(m, base);
    BaseToNatOfNatToBase(n, base);
  }

  /** Python's `str(n)` for a non-negative integer. */
  function NatToDec(n: nat): (r: string)
    ensures |r| >= 1
    ensures forall i :: 0 <= i < |r| ==> IsDigit(r[i])
    ensures BaseToNat(r, 10) == n
  {
    var r := NatToBase(n, 10);
    BaseToNatOfNatToBase(n, 10);
    assert forall i :: 0 <= i < |r| ==> IsDigit(r[i]) by {
      forall i | 0 <= i < |r| ensures IsDigit(r[i]) {
        DecimalDigitsOnly(n, i);
      }
    }
    r
  }

  lemma {:induction false} DecimalDigitsOnly(n: nat, i: nat)
    requires i < |NatToBase(n, 10)|
    ensures IsDigit(NatToBase(n, 10)[i])
    decreases n
  {
    assert HexAlphabet == ['0','1','2','3','4','5','6','7','8','9','a','b','c','d','e','f'];
    if n >= 10 {
      var p := NatToBase(n / 10, 10);
      if i < |p| {
        DecimalDigitsOnly(n / 10, i);
      }
    }
  }

  /** Python's `str(i)` for any integer. */
  function IntToDec(i: int): (r: string)
    ensures |r| >= 1
    ensures i >= 0 ==> r == NatToDec(i)
    ensures i < 0 ==> r[0] == '-' && r[1..] == NatToDec(-i)
  {
    if i < 0 then "-" + NatToDec(-i) else NatToDec(i)
  }

  /** A decimal numeral has no dot for `replace(".", "$")` to change. */
  lemma NoDotsInDecimal(i: int)
    ensures ReplaceDots(IntToDec(i)) == IntToDec(i)
  {
    var r := IntToDec(i);
    forall k | 0 <= k < |r|
      ensures r[k] != '.'
    {
      if i < 0 && k > 0 {
        assert r[k] == r[1..][k - 1];
      }
    }
  }

  /** Python's `format(n, 'x')`: lower-case hexadecimal digits, no prefix. */
  function HexDigits(n: nat): (r: string)
    ensures |r| >= 1 && IsNumeral(r)
    ensures BaseToNat(r, 16) == n
  {
    BaseToNatOfNatToBase(n, 16);
    NatToBase(n, 16)
  }

  /** The magnitude of an integer. */
  function Abs(i: int): nat
  {
    if i < 0 then -i else i
  }

  /** Python's `format(i, 'x')` for any integer: a minus sign for a negative
      value, then the hexadecimal digits of its magnitude. */
  function FormatHex(i: int): (r: string)
    ensures |r| >= 1
    ensures r[0] == '-' <==> i < 0
    ensures var digits := if i < 0 then r[1..] else r;
      |digits| >= 1 && IsNumeral(digits) && BaseToNat(digits, 16) == Abs(i)
  {
    assert '-' !in HexAlphabet;
    if i < 0 then
      var r := "-" + HexDigits(-i);
      assert r[1..] == HexDigits(-i);
      r
    else
      HexDigits(i)
  }

  /** Distinct integers format as distinct digit strings. */
  lemma FormatHexInjective(a: int, b: int)
    requires FormatHex(a) == FormatHex(b)
    ensures a == b
  {
  }

  /** Python's `hex(n)` for a non-negative integer: `0x` then the digits. */
  function PyHex(n: nat): (r: string)
    ensures |r| >= 3 && r[..2] == "0x"
    ensures BaseToNat(r[2..], 16) == n
  {
    var r := "0x" + HexDigits(n);
    assert r[2..] == HexDigits(n);
    r
  }
}
